=== FILE: README.md ===
# clyve storage core in Dafny

clyve stores JSON records in "collections" on object storage (S3) or on the
local filesystem. A record `{ id, ... }` of collection `c` lives under the key
`c/<id>.json`. The model covers:

- **the key codec** (`toKey` and `parseKey`);
- **the providers**: the object-storage provider, with its paginated
  listing loop, and the filesystem provider. Each translates native errors
  into the library's errors;
- **the operations layer**: get, all, create, createMany, deleteObject,
  deleteMany, allIds, deleteAll, count, exists, update, upsert and edit,
  written once over any provider;
- **the cache decorator**: a provider that wraps another and remembers
  reads and listings in a list of entries;
- **the older variants** of the same surface: the object-storage adapter,
  the filesystem adapter and the first client (`clyde`).

Every variant runs against one shared backend, `Storage.Store`. It is an
ordered list of objects with distinct keys, kept in the order they were
first written: every listing in the model returns keys in that order. It
also holds a map of *faults*, the native errors
that calls touching a given path raise. `ObjectStore` gives the object
service's semantics over it (GetObject, HeadObject, PutObject, DeleteObject,
ListObjectsV2 with a continuation token and a page size). `Disk` gives the
filesystem calls (readFile, access, writeFile, unlink, readdir) over the
same list: a stored key is a file, a directory exists while some file lies
beneath it, and a path that runs through a file names nothing. The calls
fail as Linux does: `ENOENT` when nothing is there, `EISDIR` for a file
call on a directory, `ENOTDIR` below a file. `Disk.Tree` is the invariant
of a store a filesystem can hold, no file beneath another.

A provider is a record of functions in `Providers.Provider<S>`. Each call
takes the state and returns a `Step` of result and new state. A read is
split at its first `await`. `readSettled` is the part that runs before it,
and it may settle the read at once, as a cache hit does. `readAwaited` is
the rest. A `Promise.all` fan-out is `Providers.FanOut`: the calls resume
one after another in input order, and the result is the first failure in
input order. In the reads of `all` (`Providers.ReadAll`), every
`readSettled` sees the state the fan-out started from, because each read
reaches its `await` before any read resumes. The first client's createMany
is modelled the same way: every existence check sees the store as it was
before any write. The other fan-outs issue only requests before their
`await`, so running them one after another is exact.

The cache decorator is modelled twice, selected by `Cache.Revision`:

- `AsWritten` follows the code as it stands. Its "exact" comparison checks
  only the key length, because the element-wise test compares an entry's
  key with itself. Its exact invalidation keeps the matching entries
  instead of dropping them.
- `Intended` is the evident intent: entries match by equal key paths, and
  exact invalidation drops the match.

In the code, the prefix branch of `invalidate`
(packages/clyve/src/cache/index.ts:38) compares `entry.key[index]` with the
key passed in. The exact branch (line 35) and the lookup (line 48) instead
compare `entry.key[index]` with `entry.key` itself, which is always true.
This is why `Intended` compares with the key passed in. The model follows
the code as written, and the difference is reported under "Findings".

## Model

| member | source | states |
|---|---|---|
| Key.ParseKey | packages/clyve/src/key.ts:5-12 | decoding fails with the TypeError case exactly when the key has no '/'. Any other failure is `InvalidKey`. A decoded collection is non-empty, free of '/' and a prefix of the key. A decoded id is non-empty and free of '/' and '.' |
| Key.ParseToKey | packages/clyve/src/key.ts:1-12 | `parseKey(toKey(c, id))` gives back `(c, id)` if and only if `c` is non-empty and free of '/', and `id` is non-empty and free of '/' and '.' |
| Key.ParseSupported | packages/clyve/src/key.ts:1-12 | the round trip from a supported pair through the key and back |
| Key.ParseOneSlash | packages/clyve/src/key.ts:5-11 | a key with one '/' decodes to its collection and the text of its file name before the first '.', or to `InvalidKey` when either is empty |
| Key.ParseWithExtension | packages/clyve/src/key.ts:5-11 | whatever follows the first '.' of the file name is ignored |
| Key.ParseKeyIgnoresTail | packages/clyve/src/key.ts:6 | text after a second '/' never changes the decoded pair |
| Key.ParseBySegments | packages/clyve/src/key.ts:6-7 | two keys with the same first two '/'-segments decode alike |
| Key.ParseKeyInvalid | packages/clyve/src/key.ts:8-10 | `collection/file` is rejected as invalid exactly when the collection is empty, or the file name is empty or starts with '.' |
| Key.DottedIdIsTruncated | packages/clyve/src/key.ts:1-12 | the key of id `stem.rest` decodes to id `stem`, so ids with '.' do not round-trip |
| Key.ToKeyInjective | packages/clyve/src/key.ts:1-3 | for collections free of '/', different (collection, id) pairs get different keys |
| Text.Split | packages/clyve/src/key.ts:6-7 | `split` on one character returns pieces free of the separator which join back to the input |
| Text.SplitHead | packages/clyve/src/key.ts:6-7 | the first piece is the text before the first separator |
| Providers.FanOutPure | packages/clyve/src/operations.ts:57-61 | a fan-out of calls that change nothing changes nothing. It succeeds exactly when every call does, element by element, and otherwise reports the first failing call's error |
| Providers.FanOutAgree | packages/clyve/src/adapters/s3.ts:133-172 | fan-outs of two calls that agree element by element are equal; this is how an adapter's batch is shown equal to the operations layer's |
| Providers.FanOutAlike | packages/clyde/src/index.ts:151 | fan-outs of two calls that leave the same state and fail together, with the same error, do the same, whatever values each returns |
| Providers.ReadAllDeferred | packages/clyve/src/operations.ts:20-23 | when no read can settle before its `await`, the reads of `all` are the reads one after another |
| S3Provider.GetByKey | packages/clyve/src/providers/s3.ts:27-51 | a read succeeds exactly when the object is stored with a body. `NoSuchKey`, and only it, becomes `KeyNotFound`. A missing body is `NoBody`. Any other failure propagates unchanged |
| S3Provider.Exists | packages/clyve/src/providers/s3.ts:53-68 | the answer is whether the key is stored. `NotFound` means false, and any other failure propagates |
| S3Provider.PageKeys | packages/clyve/src/providers/s3.ts:84-87 | the keys taken from a page are exactly its defined entries; a page without contents gives none |
| S3Provider.CollectKeys | packages/clyve/src/providers/s3.ts:70-97 | given the responses the backend sends, the loop ends at the first failing or untruncated response. It returns that failure, or the keys of every page up to it in order. The first request carries no token, and each later one carries the previous page's token |
| S3Provider.Sent | packages/clyve/src/providers/s3.ts:72-91 | the token of each request is the continuation token of the response before it, and the first request carries none |
| S3Provider.PageFacts | packages/clyve/src/providers/s3.ts:75-93 | one listing request returns the next at most `MaxKeys` keys from the token's position. It is truncated exactly when keys remain, and its token then resumes just past them |
| S3Provider.Run | packages/clyve/src/providers/s3.ts:74-95 | following the tokens, the loop gets exactly one ending response, at the end. A failing listing is that failure alone |
| S3Provider.RunCollects | packages/clyve/src/providers/s3.ts:70-97 | following the continuation tokens collects every key under the prefix from the token's position on, each once, in listing order |
| S3Provider.Keys | packages/clyve/src/providers/s3.ts:70-97 | keys is the whole listing of `collection/`, however many pages it takes, or the listing's failure |
| S3Provider.KeysByLoop | packages/clyve/src/providers/s3.ts:70-97 | the loop, run on the backend's answers to the requests it sends, returns the listing keys states: all of `collection/`, or the listing's failure |
| S3Provider.Upsert | packages/clyve/src/providers/s3.ts:99-109 | upsert writes the record at `collection/id.json` and returns it, or fails with that key's failure and changes nothing |
| S3Provider.DeleteObject | packages/clyve/src/providers/s3.ts:111-118 | delete erases the key; a missing key is no error |
| FsProvider.GetByKey | packages/clyve/src/providers/file-system.ts:24-39 | a read succeeds exactly when the file is stored with parseable content. `ENOENT`, and only it, becomes `KeyNotFound`: nothing at the path. A directory there fails with `EISDIR` and a file above it with `ENOTDIR`. Unparseable content is a `SyntaxError`, and other failures propagate |
| FsProvider.Exists | packages/clyve/src/providers/file-system.ts:41-49 | exists never fails: it is true exactly when access does not fail and a file or a directory is at the path |
| FsProvider.FileNames | packages/clyve/src/providers/file-system.ts:62-63 | the names kept are exactly those of entries that are not directories |
| FsProvider.EntriesFiles | packages/clyve/src/providers/file-system.ts:55-63 | the files among a directory's entries are exactly the stored keys directly inside it, in listing order |
| FsProvider.Keys | packages/clyve/src/providers/file-system.ts:51-65 | keys are `collection/<name>` for each file directly inside the directory. A missing directory is an empty collection, and other failures propagate |
| FsProvider.KeysMembership | packages/clyve/src/providers/file-system.ts:51-65 | a key is listed exactly when it is stored directly inside the collection's directory; nested paths are not listed |
| FsProvider.FlatListing | packages/clyve/src/providers/file-system.ts:51-65 | for a directory without subdirectories, the filesystem lists the same keys in the same order as object storage |
| FsProvider.InCollection | packages/clyve/src/providers/file-system.ts:64 | each listed name becomes `collection/name`, in order: what `path.posix.join(collection, name)` gives for a plain collection name |
| FsProvider.Upsert | packages/clyve/src/providers/file-system.ts:67-74 | upsert writes the file and returns the record when the path holds a file or nothing. It changes nothing and fails with the path's failure, with `EISDIR` on a directory, and with `EEXIST` when the parent directory is a file and `ENOTDIR` when a file lies further up |
| FsProvider.DeleteObject | packages/clyve/src/providers/file-system.ts:76-79 | delete erases a stored file. Unlike object storage, a missing file fails with `ENOENT`; a directory fails with `EISDIR` and a file above the path with `ENOTDIR`, changing nothing |
| FsProvider.UpsertKeepsTree | packages/clyve/src/providers/file-system.ts:67-74 | upsert keeps a store that a filesystem can hold: no file ends up beneath another |
| FsProvider.DeleteKeepsTree | packages/clyve/src/providers/file-system.ts:76-79 | delete keeps a store that a filesystem can hold |
| Operations.All | packages/clyve/src/operations.ts:20-23 | over any provider, a failed listing fails all with that error; otherwise all returns one record per listed key |
| Operations.CreateMany | packages/clyve/src/operations.ts:36-50 | over any provider, createMany refuses with `DuplicateKey`, after the checks alone, a batch in which some id exists. A successful batch returns one record per item |
| Operations.IdOf | packages/clyve/src/operations.ts:76-77 | the id of a key fails exactly when the key has no '/'. Otherwise it is free of '/' and '.' |
| Operations.IdsOf | packages/clyve/src/operations.ts:74-79 | the ids of a listing exist exactly when every key has a '/'. They are then each key's id, in order |
| OperationsFacts.CreateS3 | packages/clyve/src/operations.ts:25-34 | create writes a new record. It refuses a stored id with `DuplicateKey` and changes nothing |
| OperationsFacts.UpdateS3 | packages/clyve/src/operations.ts:97-106 | update overwrites a stored record. It refuses a missing id with `KeyNotFound` and changes nothing |
| OperationsFacts.EditS3 | packages/clyve/src/operations.ts:112-120 | edit passes on a failed read or a failed transform unchanged. An edit that keeps the id overwrites the record. One that moves it to an unstored id fails with `KeyNotFound` and writes nothing |
| OperationsFacts.WriteThenGetS3 | packages/clyve/src/operations.ts:12-18 | what upsert wrote is what get reads next |
| OperationsFacts.GetS3 | packages/clyve/src/operations.ts:12-18 | get reads the body stored at `collection/id.json` and changes nothing. An unstored key is `KeyNotFound`, and a stored object without a body is `NoBody` |
| OperationsFacts.ExistsMatchesGet | packages/clyve/src/operations.ts:93-95 | exists is true exactly when get does not fail with `KeyNotFound`, and neither changes the store |
| OperationsFacts.DeleteThenAbsentS3 | packages/clyve/src/operations.ts:52-54 | deleteObject succeeds whether or not the id is stored. Afterwards the id neither exists nor reads, and every other key keeps its body |
| OperationsFacts.UpsertS3 | packages/clyve/src/operations.ts:108-110 | upsert writes the record whether or not the id is stored, and returns it. Afterwards the id exists, and every other key keeps its body |
| OperationsFacts.CreateManyS3 | packages/clyve/src/operations.ts:36-50 | createMany is all or nothing. If any id is stored it fails with `DuplicateKey` and writes nothing. Otherwise it writes every record in order and returns the batch |
| OperationsFacts.DeleteManyS3 | packages/clyve/src/operations.ts:56-72 | deleteMany is all or nothing. If any id is missing it fails with `KeyNotFound` and deletes nothing. Otherwise exactly the batch's keys are removed |
| OperationsFacts.UpsertAllS3 | packages/clyve/src/operations.ts:47-49 | the batch of upserts is the sequence of single writes and returns the batch |
| OperationsFacts.WriteAllLast | packages/clyve/src/operations.ts:47-49 | after a batch, each key holds the last record of the batch with that id |
| OperationsFacts.WriteAllKeys | packages/clyve/src/operations.ts:47-49 | after a batch, the store holds the old keys plus the batch's, and every other key keeps its body |
| OperationsFacts.EraseAllContents | packages/clyve/src/operations.ts:69-71 | after a batch of deletes, the store holds exactly the old keys that are not the batch's |
| OperationsFacts.ExistsAllS3 | packages/clyve/src/operations.ts:57-61 | the existence checks of a batch change nothing. Some flag is true iff some key is stored, and all flags are true iff every key is stored |
| OperationsFacts.IdOfToKey | packages/clyve/src/operations.ts:76-77 | the id read from `toKey(c, id)` is `id` |
| OperationsFacts.IdOfAgreesWithParse | packages/clyve/src/operations.ts:76-77 | whenever the key codec decodes a key, allIds reads the same id from it |
| OperationsFacts.AllIdsS3 | packages/clyve/src/operations.ts:74-79 | over object storage, allIds never fails on a key without '/'. It reads one id per key under the collection, in listing order, and changes nothing. For keys in the scheme each id rebuilds its key |
| OperationsFacts.CreateOrUpdate | packages/clyve/src/operations.ts:97-106 | over any provider, update and create (lines 25-34) turn on the same existence check. When it answers, one of them is the upsert on the state the check left and the other refuses; when it fails, both fail with its error |
| OperationsFacts.CountMatchesAll | packages/clyve/src/operations.ts:88-91 | over any provider, a successful all reads as many records as count reports, and a failed count means all fails the same way |
| OperationsFacts.CountS3 | packages/clyve/src/operations.ts:88-91 | count is the number of keys under the collection, across every listing page |
| OperationsFacts.AllS3 | packages/clyve/src/operations.ts:20-23 | all reads every listed record, in listing order. It fails with `NoBody` exactly when a listed object has no body |
| OperationsFacts.AllInTurnS3 | packages/clyve/src/operations.ts:20-23 | over object storage, the overlapping reads of all are the reads of the listed keys one after another |
| OperationsFacts.ReadEachS3 | packages/clyve/src/operations.ts:22 | reading stored keys changes nothing. It succeeds exactly when each has a body, returns the bodies in order, and otherwise fails with `NoBody` |
| OperationsFacts.DeleteAllS3 | packages/clyve/src/operations.ts:74-86 | deleteAll empties a collection whose keys follow the scheme, and leaves every other key as it was |
| OperationsFacts.RunRequests | packages/clyve/src/providers/s3.ts:74-95 | the listing loop issues `Requests(n)` requests for the `n` remaining keys |
| OperationsFacts.RequestsBound | packages/clyve/src/providers/s3.ts:79 | `Requests(n)` is `n / 50` rounded up, for `n > 0`, and one request for an empty listing |
| OperationsFacts.ThreePages | packages/clyve/src/providers/s3.ts:74-95 | 150 keys are listed in three requests and counted whole |
| OperationsFacts.CreateInEmpty | packages/clyve/src/operations.ts:20-34 | a record created in an empty collection is all the collection lists, counts and reads |
| OperationsFacts.EmptyCollection | packages/clyve/src/operations.ts:12-91 | an empty collection counts zero, and a read in it fails with `KeyNotFound` |
| OperationsFacts.DeleteAllAfterCreate | packages/clyve/src/operations.ts:81-86 | deleteAll after a single create empties the collection again |
| OperationsFacts.Lifecycle | packages/clyve/src/operations.ts:12-91 | create in an empty collection, then deleteAll: counts 0, 1, 0, all reads the one record, and the record is gone at the end |
| Cache.Invalidate | packages/clyve/src/cache/index.ts:29-41 | invalidate keeps exactly the entries its filter accepts, in order |
| Cache.InvalidateInvariant | packages/clyve/src/cache/index.ts:29-41 | invalidation keeps each revision's invariant: as written, one entry per key length; as intended, one entry per key path |
| Cache.FirstMatch | packages/clyve/src/cache/index.ts:43-51 | the first matching position; no earlier entry matches |
| Cache.Lookup | packages/clyve/src/cache/index.ts:43-51 | `find` misses exactly when no entry matches. Otherwise it returns the first entry that matches |
| Cache.AppendUnmatched | packages/clyve/src/cache/index.ts:53-73 | pushing an entry that no present entry matches keeps the invariant |
| Cache.ReadSettled | packages/clyve/src/cache/index.ts:104-110 | before its `await`, a read fails on a key that does not decode and settles on a hit. It goes on only on a miss for a decoded key |
| Cache.ReadAwaited | packages/clyve/src/cache/index.ts:113-116 | after its `await`, a read returns the wrapped provider's answer and state. On success it pushes the record under the key's retrieve path, whatever the entries hold by then |
| Cache.GetByKey | packages/clyve/src/cache/index.ts:104-117 | a read awaited on its own: a key that does not decode fails before any lookup. A failed read leaves the entries alone, and such a read keeps the invariant |
| Cache.ReadIsGetByKey | packages/clyve/src/cache/index.ts:104-117 | the decorator's read, split at its `await` and run on its own, is `GetByKey` |
| Cache.DeleteObject | packages/clyve/src/cache/index.ts:119-123 | delete passes on the inner result. On success no entry for the id or the collection's listing remains; as written, no entry at all remains |
| Cache.Exists | packages/clyve/src/cache/index.ts:125-127 | exists always asks the wrapped provider and leaves the entries alone |
| Cache.Upsert | packages/clyve/src/cache/index.ts:129-134 | after a successful upsert the written record is the last entry. No entry of that id or listing of the collection survives before it; as written, it is the only entry left |
| Cache.Keys | packages/clyve/src/cache/index.ts:136-147 | a failed listing leaves the entries alone, and every listing keeps the invariant |
| CacheFacts.ExactMatchAsWritten | packages/clyve/src/cache/index.ts:43-51 | as written, the exact comparison holds exactly when the key lengths are equal |
| CacheFacts.ExactMatchIntended | packages/clyve/src/cache/index.ts:45-48 | as intended, the exact comparison is equality of key paths |
| CacheFacts.PrefixInvalidate | packages/clyve/src/cache/index.ts:38-39 | non-exact invalidation drops exactly the entries whose path starts with the key |
| CacheFacts.EveryIsPrefix | packages/clyve/src/cache/index.ts:38 | the element-wise `every` test of a key against a path is the prefix test |
| CacheFacts.InvalidateAppend | packages/clyve/src/cache/index.ts:30-40 | invalidation filters each part of the entry list separately, so survivors keep their order |
| CacheFacts.ExactInvalidate | packages/clyve/src/cache/index.ts:29-36 | as written, exact invalidation keeps exactly the entries of the key's length. As intended, it keeps exactly those under another path |
| CacheFacts.ExactInvalidateKeepsTarget | packages/clyve/src/cache/index.ts:29-36 | clearing a listing as written keeps that very listing and drops another collection's record; as intended, the reverse |
| CacheFacts.AtMostTwo | packages/clyve/src/cache/index.ts:29-55 | as written, an entry list with one entry per path length, which single calls each awaited on its own keep, holds at most two entries under distinct paths |
| CacheFacts.IntendedLookupExact | packages/clyve/src/cache/index.ts:43-51 | as intended, a lookup finds only an entry under the very path asked for, and a cached record is the one stored for that id |
| CacheFacts.OtherIdServed | packages/clyve/src/cache/index.ts:104-110 | as written, one cached record answers a read of any other id in any collection, and the wrapped provider is not asked |
| CacheFacts.OtherListingServed | packages/clyve/src/cache/index.ts:136-141 | as written, one cached listing answers the listing of any other collection |
| CacheFacts.LookupAppend | packages/clyve/src/cache/index.ts:43-55 | a lookup that finds nothing finds an appended entry that matches |
| CacheFacts.HitIgnoresInner | packages/clyve/src/cache/index.ts:104-110 | a hit is answered without the wrapped provider and changes nothing |
| CacheFacts.MissAsksInner | packages/clyve/src/cache/index.ts:112-116 | a miss returns the wrapped provider's answer. It appends the read record, or leaves the entries alone when the read fails |
| CacheFacts.GetByKeyRemembers | packages/clyve/src/cache/index.ts:104-117 | reading a key again after a successful read returns the same record and changes nothing, whatever the wrapped provider |
| CacheFacts.KeysRemembers | packages/clyve/src/cache/index.ts:136-147 | listing again after a successful listing returns the same keys. As written, a listing that missed leaves only itself cached |
| CacheFacts.KeepNone | packages/clyve/src/cache/index.ts:29-36 | as written, exact invalidation by a key that nothing matches empties the entry list |
| CacheFacts.UpsertThenGet | packages/clyve/src/cache/index.ts:104-134 | after a successful upsert, a read of that id is served from the cache with the written record |
| CacheFacts.UpsertCaches | packages/clyve/src/cache/index.ts:65-73 | after a successful upsert, the lookup of the written id finds the entry just stored |
| CacheFacts.DeleteThenMiss | packages/clyve/src/cache/index.ts:119-123 | after a successful delete, neither the id's record nor the collection's listing is cached |
| CacheFacts.IntendedUpsertKeepsOthers | packages/clyve/src/cache/index.ts:129-134 | as intended, an upsert drops only that id's record and the collection's listing |
| CacheFacts.IntendedDeleteKeepsOthers | packages/clyve/src/cache/index.ts:119-123 | as intended, a delete drops only that id's record and the collection's listing |
| CacheFacts.UpsertDropsOthers | packages/clyve/src/cache/index.ts:129-134 | as written, writing one record discards another collection's cached listing |
| CacheCoherence.UpsertCoherent | packages/clyve/src/cache/index.ts:129-134 | over object storage, an upsert through the cache keeps every cached entry equal to what the backend would answer, in both revisions |
| CacheCoherence.DeleteCoherent | packages/clyve/src/cache/index.ts:119-123 | a delete through the cache keeps every cached entry equal to what the backend would answer, in both revisions |
| CacheCoherence.ReadTransparent | packages/clyve/src/cache/index.ts:104-117 | a read through the cache changes nothing in the backend and keeps the entries coherent. As intended, it answers exactly what the backend answers |
| CacheCoherence.ListingTransparent | packages/clyve/src/cache/index.ts:136-147 | a listing through the cache changes nothing in the backend and keeps the entries coherent. As intended, it answers exactly what the backend lists |
| CacheCoherence.IntendedListingExact | packages/clyve/src/cache/index.ts:94-97 | as intended, a cached listing is the one stored for the collection asked for |
| CacheCoherence.StaleRead | packages/clyve/src/cache/index.ts:43-51 | as written, with coherent entries, a read of `users/b` returns the record of `users/a` |
| CacheCoherence.WriteReadDelete | packages/clyve/src/cache/index.ts:104-134 | in both revisions, a written record is served back, and after its delete the read reaches the backend and fails with `KeyNotFound` |
| CacheCoherence.AllCoherent | packages/clyve/src/operations.ts:20-23 | over object storage whose keys all follow the scheme, all through the cache changes nothing in the backend and keeps the entries coherent, in both revisions. As intended, it returns exactly what the provider alone returns |
| CacheCoherence.ReadAllCoherent | packages/clyve/src/cache/index.ts:104-117 | the overlapping reads of one `Promise.all` keep a coherent store coherent, and as intended each returns what the backend holds |
| CacheCoherence.ReadFromCoherent | packages/clyve/src/cache/index.ts:104-117 | one read that looked at the store as the fan-out began caches only what the backend holds under the key read |
| CacheCoherence.ListedCanonical | packages/clyve/src/cache/index.ts:136-141 | a listing the cache returns for a coherent store is one the backend gave, so its keys follow the scheme when the backend's do |
| CacheCoherence.AllOverfills | packages/clyve/src/cache/index.ts:104-117 | as written, all over two records from an empty cache returns both, but leaves the listing and both records cached, breaking the one-entry-per-length invariant |
| CacheCoherence.BothMiss | packages/clyve/src/cache/index.ts:106-115 | two reads that both missed before either resumed both push their record |
| CacheCoherence.ParsedPushes | packages/clyve/src/cache/index.ts:105-115 | a read that missed caches what it got under the path its key decodes to, whatever the key's own form |
| CacheCoherence.ForeignKeyAliases | packages/clyve/src/cache/index.ts:105-115 | in both revisions, a stored key `c/id.ext` with an extension other than `json` is cached under the retrieve path of `id`, and a later read of `c/id.json`, which the backend does not hold, answers with its record |
| CacheCoherence.DeletedMisses | packages/clyve/src/cache/index.ts:112-123 | after a delete through the cache, a read of that id reaches the backend and finds nothing |
| S3Adapter.ListEntries | packages/clyve/src/adapters/s3.ts:78-87 | the adapter lists with one request and no token: the first 1000 keys under the prefix at most, or the listing's failure |
| S3Adapter.Instance | packages/clyve/src/adapters/s3.ts:31-156 | the adapter's reads, existence checks, writes and deletes are the provider's; only its listing differs |
| FsAdapter.GetByKey | packages/clyve/src/adapters/file-system.ts:20-25 | a read fails with the native failure itself, a missing file included. Unparseable content is a `SyntaxError` |
| FsAdapter.ListEntries | packages/clyve/src/adapters/file-system.ts:45-56 | the names of the files directly in the directory. A missing directory lists nothing, and other failures propagate |
| FsAdapter.Instance | packages/clyve/src/adapters/file-system.ts:31-119 | existence, listing, writes and deletes are the provider's; only the read differs |
| Clyde.GetByKey | packages/clyde/src/index.ts:47-61 | a read succeeds exactly when the object is stored with a body. Every failure, `NoSuchKey` included, propagates unchanged |
| Clyde.Exists | packages/clyde/src/index.ts:67-82 | the answer is whether the key is stored. `NotFound` means false, and other failures propagate |
| Clyde.Count | packages/clyde/src/index.ts:84-98 | count is the size of one un-paginated listing: at most 1000 |
| Clyde.All | packages/clyde/src/index.ts:100-103 | all reads the keys of one un-paginated listing, one record per key, and changes nothing |
| Clyde.Upsert | packages/clyde/src/index.ts:105-114 | upsert writes the record and returns nothing, or fails and changes nothing |
| Clyde.DeleteObject | packages/clyde/src/index.ts:154-161 | delete erases the key; a missing key is no error |
| Variants.S3AdapterAgrees | packages/clyve/src/adapters/s3.ts:111-189 | the adapter's get, create, update and edit equal the operations layer's over the object-storage provider on every input |
| Variants.S3AdapterBatchesAgree | packages/clyve/src/adapters/s3.ts:133-172 | the adapter's createMany and deleteMany equal the operations layer's on every input |
| Variants.FsAdapterAgrees | packages/clyve/src/adapters/file-system.ts:79-135 | the filesystem adapter's create, update, createMany and deleteMany equal the operations layer's over the filesystem provider |
| Variants.FsReadsDiffer | packages/clyve/src/adapters/file-system.ts:20-25 | the adapter's read and the provider's agree except on a missing file: the adapter reports `ENOENT` and the provider reports `KeyNotFound` |
| Variants.ClydeReadsDiffer | packages/clyde/src/index.ts:47-61 | the first client's read and the provider's agree except on a missing key: the client reports `NoSuchKey` and the provider `KeyNotFound` |
| Variants.CountCapped | packages/clyve/src/adapters/s3.ts:78-92 | the adapter and the first client count at most 1000 keys, while the provider counts all. They agree exactly when the collection holds at most 1000 keys |
| Variants.AllAgreesOnOnePage | packages/clyve/src/adapters/s3.ts:94-97 | on at most 1000 keys, the adapter's all reads what the operations layer reads |
| Variants.S3AdapterDeleteAllKeeps | packages/clyve/src/adapters/s3.ts:174-179 | as written, deleteAll succeeds on a collection in the key scheme but deletes nothing |
| Variants.ClydeDeleteAllKeeps | packages/clyde/src/index.ts:179-182 | as written, the first client's deleteAll deletes nothing from such a collection either |
| Variants.FlatTarget | packages/clyve/src/adapters/file-system.ts:116-119 | unlinking `collection/collection/<name>.json`, for a file name such as `x.json`, in a flat collection changes nothing and fails: with `ENOTDIR` when a file lies above that path, with `ENOENT` otherwise |
| Variants.FsAdapterDeleteAllFails | packages/clyve/src/adapters/file-system.ts:137-145 | as written, deleteAll on a non-empty flat collection fails and deletes nothing: with `ENOTDIR` when a file lies on the path `collection/collection/`, with `ENOENT` otherwise |
| Variants.DeleteAllKeysFs | packages/clyve/src/operations.ts:83-85 | deleting distinct stored ids from the filesystem unlinks each file in turn and succeeds |
| Variants.DeleteAllFs | packages/clyve/src/operations.ts:74-86 | the operations layer's deleteAll over the filesystem empties a collection in the key scheme and leaves every other key |
| Variants.ClydeDeleteManyKeeps | packages/clyde/src/index.ts:163-177 | as written, deleteMany fails with `DuplicateKey` exactly when some id is stored, and never changes the stored records |
| Variants.DeleteAbsentS3 | packages/clyve/src/providers/s3.ts:111-118 | deleting unstored keys from object storage succeeds and changes nothing |
| Variants.ClydeCreateMany | packages/clyde/src/index.ts:138-152 | on every batch, the first client's createMany fails or succeeds exactly as the operations layer's, with the same error and final store |
| Variants.ClydeRepeatedCreate | packages/clyde/src/index.ts:151 | a batch repeating one unstored id succeeds and writes both records in turn, because both checks ran before either write |
| Variants.ClydeCreateInTurn | packages/clyde/src/index.ts:116-125 | the same two records created one after the other: the second create is refused with `DuplicateKey` |
| Variants.ClydeExistsAgrees | packages/clyde/src/index.ts:67-82 | the first client's existence check gives the same answer or the same error as the operations layer over the object-storage provider: a missing object is `false`, any other native error propagates |
| Variants.ClydeUpsertAgrees | packages/clyde/src/index.ts:105-114 | the first client's upsert writes the same object and fails with the same error as the operations layer's upsert, returning nothing |
| Variants.ClydeDeleteAgrees | packages/clyde/src/index.ts:154-161 | the first client's deleteObject has the same result and final store as the operations layer's delete |
| Variants.ClydeChecksAgree | packages/clyde/src/index.ts:116-136 | the first client's create and update refuse on the same existence check, with the same error and final store, as the operations layer's create and update |
| Variants.RepeatedIdDelete | packages/clyve/src/operations.ts:56-72 | deleteMany with a repeated stored id succeeds on object storage but fails on the filesystem after deleting the record, with `ENOENT` whenever the store is one a filesystem can hold |

## Left out

- I/O, the network and the filesystem are the `Store` value. Clients, buckets, base paths and `path.resolve` are not modelled, and keys are used as paths unchanged.
- `JSON.parse` and `JSON.stringify` are not modelled. A stored body is a record, or `None` for content that does not parse (filesystem) or an object without a body (object storage).
- Concurrency: the calls of a `Promise.all` resume in input order. The parts before the first `await` all see the starting state only where they read it: the reads of `all`, and the checks of the first client's createMany. Other completion orders, and so other orders of the cache's pushes, are not modelled. Which rejection settles first is taken to be the first in input order.
- Cache.GetByKey: its invariant holds for a read awaited on its own. Under `all`, reads overlap, and as written the store can leave the invariant (CacheCoherence.AllOverfills).
- CacheFacts.AtMostTwo: needs the one-entry-per-length invariant, which single calls keep and `all` can break (CacheCoherence.AllOverfills). The bound is therefore not a property of every run of the program.
- CacheCoherence.AllCoherent: requires every stored key to follow the scheme. A key outside it aliases another id's path (CacheCoherence.ForeignKeyAliases).
- The proxy client surface of `clyde` (property access, the read-only `set` trap) and the `bun-s3` provider are not modelled. The example application is not modelled either.
- Logging (`console.log` of cache hits and misses) is not modelled.
- `debugGetStore` is the `entries` field of `Cache.Cached`.
- A listing entry without a `Key` is modelled in the page type. The backend itself never produces one.
- The service's default page size of 1000 keys when no `MaxKeys` is sent is a constant of `ObjectStore`.
- A continuation token is modelled as the position it resumes from.
- FsProvider.InCollection: joins with a plain '/'. `path.posix.join` also normalises, so the two differ for an empty collection, `.`, `..` or a name ending in '/'; with an empty collection the source lists `x.json`, whose missing '/' makes allIds throw.
- CacheCoherence.UpsertCoherent: the cache facts about coherence are stated over the object-storage provider only.
- CacheCoherence.ReadTransparent: requires the key to be `toKey(c, id)` of a supported pair, because other keys decode to other pairs.
- OperationsFacts.CreateManyS3: requires that no key of the batch fails. The same holds for the other batch lemmas over object storage: UpsertAllS3, DeleteAllKeysS3, ExistsAllS3 and DeleteManyS3.
- OperationsFacts.AllS3: requires that no listed key fails natively. Such a failure would simply propagate.
- OperationsFacts.DeleteAllS3: requires every key under the collection to be `toKey(collection, id)` with an id free of '/' and '.'. Other keys lose their tail in allIds.
- Variants.DeleteAllFs: requires the same key scheme, and no failure under the collection.
- Variants.FsAdapterDeleteAllFails: states the failure only for flat, non-empty collections with no injected failures.
- Storage.Put: a new key is listed after every key already stored, so listings return keys in the order they were first written. Object storage and `readdir` list keys sorted. Every listing-order claim (`all`, `keys`, `allIds`, the directory listing and the cache's listings) is therefore about write order, not sorted order.
- Disk.Readdir: a collection path that is itself a file reads as a missing directory, so `keys` lists it as empty where Node's readdir fails with `ENOTDIR`.
- Disk.Unlink: `EISDIR` on a directory is what Linux reports; macOS reports `EPERM`.
- Variants.RepeatedIdDelete: the `ENOENT` of the second unlink is stated for stores with no file beneath another (`Disk.Tree`), the only stores a filesystem can hold; for any store it states that the call fails after the record is gone.

## Findings

| source | as written | input that shows it | evidently intended | confidence | as-written member | corrected member |
|---|---|---|---|---|---|---|
| packages/clyve/src/cache/index.ts:43-51 | `entry.key.every((keyPart, index) => keyPart === entry.key[index])` compares the entry's key with itself, so any entry of the same key length matches | cached `users/a`, then `getByKey("users/b.json")` returns the record of `users/a` | compare with `key[index]`, so that only the same path matches | not executed | CacheCoherence.StaleRead | CacheCoherence.ReadTransparent |
| packages/clyve/src/cache/index.ts:29-36 | the exact branch of `invalidate` keeps the entries that match (and, with the self-comparison, every entry of that length) instead of dropping them | a cached `posts` listing plus a `users/a` record, then clearing the `posts` listing, keeps the listing and drops the record | keep the entries that do not match the key | not executed | CacheFacts.ExactInvalidateKeepsTarget | CacheFacts.IntendedUpsertKeepsOthers |
| packages/clyve/src/adapters/s3.ts:174-179 | deleteAll passes each listed key, `c/x.json`, as an id, so deleteObject deletes `c/c/x.json.json` | a collection holding `c/x.json`: deleteAll succeeds and `c/x.json` remains | pass the id read from each key, as the operations layer does | not executed | Variants.S3AdapterDeleteAllKeeps | OperationsFacts.DeleteAllS3 |
| packages/clyde/src/index.ts:179-182 | deleteAll passes each listed key, `c/x.json`, as an id, so deleteObject deletes `c/c/x.json.json` | a collection holding `c/x.json`: deleteAll succeeds and `c/x.json` remains | pass the id read from each key, as the operations layer does | not executed | Variants.ClydeDeleteAllKeeps | OperationsFacts.DeleteAllS3 |
| packages/clyve/src/adapters/file-system.ts:137-145 | deleteAll passes `collection/<name>` as the id, so for a file `x.json` it unlinks `collection/collection/x.json.json`, which does not exist | a collection directory holding `x.json`: deleteAll fails with `ENOENT` (`ENOTDIR` when a file lies on `collection/collection/`) | pass the file's stem as the id | not executed | Variants.FsAdapterDeleteAllFails | Variants.DeleteAllFs |
| packages/clyde/src/index.ts:163-177 | deleteMany refuses a batch when some id exists, with `DuplicateKey`; so it only ever deletes ids that are not stored | `deleteMany("users", ["a"])` with `users/a` stored fails and `users/a` remains | refuse unless every id exists, with `KeyNotFound` | not executed | Variants.ClydeDeleteManyKeeps | OperationsFacts.DeleteManyS3 |
| packages/clyve/src/adapters/s3.ts:78-92 | listEntries sends one request and ignores truncation, so count and all see at most the service's first page | a collection of 1001 records counts 1000 | follow the continuation tokens, as the provider does | not executed | Variants.CountCapped | OperationsFacts.CountS3 |

=== FILE: base.dfy ===
/** Values shared by every layer of the document-store client: records,
    the error taxonomy, raw backend outcomes and the result of one call. */
module Base {

  datatype Option<+T> = None | Some(value: T)

  /** A stored document: its mandatory `id` field and, kept opaque, the rest
      of its JSON fields. JSON encoding is not modelled, so a record written
      is the record read back. */
  datatype Record = Record(id: string, payload: string)

  /** An error raised by a backend SDK or by the JavaScript runtime, before
      the core decides whether to translate it. */
  datatype Fault =
    | NoSuchKey            // object storage: GetObject on a missing key
    | NotFound             // object storage: HeadObject on a missing key
    | Enoent               // filesystem: no such file or directory
    | Eisdir               // filesystem: a file call on a directory
    | Enotdir              // filesystem: a path component that must be a directory is a file
    | Eexist               // filesystem: recursive mkdir of a directory that is a file
    | SyntaxError          // JSON.parse on text that is not a document
    | Other(code: string)  // any other backend failure (network, permissions, ...)

  /** The errors the core raises. `Native` is a backend fault that the core
      propagates unchanged. */
  datatype Error =
    | KeyNotFound     // KeyDoesNotExistError
    | DuplicateKey    // DuplicateKeyError
    | NoBody          // NoBodyError: a successful read without a payload
    | InvalidKey      // parseKey: an empty collection or id
    | NoFileSegment   // parseKey: the TypeError raised when a key has no '/'
    | Native(fault: Fault)

  /** The settled value of one asynchronous call: a value or a thrown error. */
  datatype Result<+T> = Ok(value: T) | Err(error: Error) {

    predicate IsFailure() {
      Err?
    }

    function PropagateFailure<U>(): Result<U>
      requires Err?
    {
      Err(error)
    }

    function Extract(): T
      requires Ok?
    {
      value
    }
  }

  /** What a raw backend call produced, before any translation. */
  datatype Outcome<+T> = Done(value: T) | Threw(fault: Fault)

  /** A call's settled result together with the state it leaves behind. */
  datatype Step<+T, S> = Step(result: Result<T>, state: S)

  /** A non-empty sequence is its head followed by its tail. */
  lemma HeadTail<T>(xs: seq<T>)
    requires |xs| > 0
    ensures [xs[0]] + xs[1..] == xs
  {
  }
}

=== FILE: cache.dfy ===
/** The caching decorator: a provider that wraps another provider and keeps
    an in-memory list of entries, one per cached `getByKey` record or `keys`
    listing, each addressed by a key path.

    `Revision` selects between the decorator as written, whose "exact"
    comparisons compare an entry's path with itself and whose exact
    invalidation keeps the matches, and the decorator as its method names
    describe it. */
module Cache {
  import opened Base
  import opened Providers
  import opened Key

  datatype Revision = AsWritten | Intended

  /** A cached value: a record read through `getByKey`, or a collection's
      `keys` listing. */
  datatype CacheEntry =
    | Retrieve(collection: string, id: string, record: Record)
    | Listing(collection: string, keys: seq<string>)

  function RetrieveKey(collection: string, id: string): seq<string> {
    [collection, "retrieve", id]
  }

  function KeysKey(collection: string): seq<string> {
    [collection, "keys"]
  }

  /** The key path an entry is stored under. */
  function Path(e: CacheEntry): (path: seq<string>)
    ensures |path| == if e.Retrieve? then 3 else 2
  {
    match e
    case Retrieve(collection, id, _) => RetrieveKey(collection, id)
    case Listing(collection, _) => KeysKey(collection)
  }

  /** `xs.every((x, index) => x === ys[index])`; an index past the end of
      `ys` reads `undefined`, which equals no string. */
  predicate Every(xs: seq<string>, ys: seq<string>) {
    forall i | 0 <= i < |xs| :: i < |ys| && xs[i] == ys[i]
  }

  /** The test both `invalidate` (exact) and `getCachedValueByKey` apply to
      an entry: equal lengths and element-wise equality. As written, the
      element-wise test compares the entry's path with itself. */
  predicate ExactMatch(rev: Revision, e: CacheEntry, key: seq<string>) {
    |Path(e)| == |key| && (if rev == AsWritten then Every(Path(e), Path(e)) else Every(Path(e), key))
  }

  /** Whether `invalidate(key, exact)` keeps entry `e`. The exact branch as
      written returns the match itself; the prefix branch returns its
      negation. */
  predicate Keep(rev: Revision, e: CacheEntry, key: seq<string>, exact: bool) {
    if exact then
      if rev == AsWritten then ExactMatch(rev, e, key) else !ExactMatch(rev, e, key)
    else !Every(key, Path(e))
  }

  /** invalidate: filters the entries through `Keep`, in order. */
  function Invalidate(rev: Revision, entries: seq<CacheEntry>, key: seq<string>, exact: bool): (r: seq<CacheEntry>)
    ensures forall e :: e in r <==> e in entries && Keep(rev, e, key, exact)
    ensures |r| <= |entries|
  {
    if |entries| == 0 then []
    else (if Keep(rev, entries[0], key, exact) then [entries[0]] else []) + Invalidate(rev, entries[1..], key, exact)
  }

  /** The position of the first entry that matches `key`; `|entries|` when
      none does. */
  function FirstMatch(rev: Revision, entries: seq<CacheEntry>, key: seq<string>): (i: nat)
    ensures i <= |entries|
    ensures i < |entries| ==> ExactMatch(rev, entries[i], key)
    ensures forall j | 0 <= j < i :: !ExactMatch(rev, entries[j], key)
  {
    if |entries| == 0 then 0
    else if ExactMatch(rev, entries[0], key) then 0
    else
      var i := FirstMatch(rev, entries[1..], key);
      assert forall j | 1 <= j < i + 1 :: entries[j] == entries[1..][j - 1];
      i + 1
  }

  /** getCachedValueByKey: the first entry that matches `key`. */
  function Lookup(rev: Revision, entries: seq<CacheEntry>, key: seq<string>): (r: Option<CacheEntry>)
    ensures r.None? <==> forall e | e in entries :: !ExactMatch(rev, e, key)
    ensures r.Some? ==> exists i | 0 <= i < |entries| ::
      entries[i] == r.value && ExactMatch(rev, r.value, key)
      && forall j | 0 <= j < i :: !ExactMatch(rev, entries[j], key)
  {
    var i := FirstMatch(rev, entries, key);
    if i < |entries| then Some(entries[i])
    else
      assert forall e | e in entries :: !ExactMatch(rev, e, key) by {
        forall e | e in entries ensures !ExactMatch(rev, e, key) {
          var j :| 0 <= j < |entries| && entries[j] == e;
        }
      }
      None
  }

  /** getCachedRetrieveValue: the value of the entry the lookup finds, read
      as a record. */
  function CachedRecord(rev: Revision, entries: seq<CacheEntry>, collection: string, id: string): Option<Record> {
    match Lookup(rev, entries, RetrieveKey(collection, id))
    case Some(Retrieve(_, _, record)) => Some(record)
    case _ => None
  }

  /** getCachedKeysValue: the value of the entry the lookup finds, read as a
      listing. */
  function CachedKeys(rev: Revision, entries: seq<CacheEntry>, collection: string): Option<seq<string>> {
    match Lookup(rev, entries, KeysKey(collection))
    case Some(Listing(_, keys)) => Some(keys)
    case _ => None
  }

  /** setCachedRetrieveValue */
  function SetRetrieve(rev: Revision, entries: seq<CacheEntry>, collection: string, id: string, record: Record): seq<CacheEntry> {
    Invalidate(rev, entries, RetrieveKey(collection, id), true) + [Retrieve(collection, id, record)]
  }

  /** clearCachedRetrieveValue */
  function ClearRetrieve(rev: Revision, entries: seq<CacheEntry>, collection: string, id: string): seq<CacheEntry> {
    Invalidate(rev, entries, RetrieveKey(collection, id), true)
  }

  /** setCachedKeysValue */
  function SetKeys(rev: Revision, entries: seq<CacheEntry>, collection: string, keys: seq<string>): seq<CacheEntry> {
    Invalidate(rev, entries, KeysKey(collection), true) + [Listing(collection, keys)]
  }

  /** clearCachedKeysValue */
  function ClearKeys(rev: Revision, entries: seq<CacheEntry>, collection: string): seq<CacheEntry> {
    Invalidate(rev, entries, KeysKey(collection), true)
  }

  /** As written, the store never holds two entries whose paths have the
      same length. */
  predicate OnePerLength(entries: seq<CacheEntry>) {
    forall i, j | 0 <= i < j < |entries| :: |Path(entries[i])| != |Path(entries[j])|
  }

  /** As intended, the store never holds two entries under one path. */
  predicate DistinctPaths(entries: seq<CacheEntry>) {
    forall i, j | 0 <= i < j < |entries| :: Path(entries[i]) != Path(entries[j])
  }

  /** The invariant each revision keeps. The constructor starts from the
      empty store, which satisfies both. */
  predicate Invariant(rev: Revision, entries: seq<CacheEntry>) {
    if rev == AsWritten then OnePerLength(entries) else DistinctPaths(entries)
  }

  /** The decorator's state: its entries (what debugGetStore returns) and
      the wrapped provider's state. */
  datatype Cached<S> = Cached(entries: seq<CacheEntry>, inner: S)

  /** Appending an entry that no present entry matches keeps the invariant. */
  lemma AppendUnmatched(rev: Revision, entries: seq<CacheEntry>, e: CacheEntry)
    ensures Invariant(rev, entries) && (forall x | x in entries :: !ExactMatch(rev, x, Path(e)))
      ==> Invariant(rev, entries + [e])
  {
    var r := entries + [e];
    if !Invariant(rev, entries) || exists x | x in entries :: ExactMatch(rev, x, Path(e)) {
      return;
    }
    forall i, j | 0 <= i < j < |r|
      ensures if rev == AsWritten then |Path(r[i])| != |Path(r[j])| else Path(r[i]) != Path(r[j])
    {
      if j == |entries| {
        assert r[i] in entries;
        assert !ExactMatch(rev, r[i], Path(e));
      } else {
        assert r[i] == entries[i] && r[j] == entries[j];
      }
    }
  }

  /** Two entries the invariant of `rev` forbids side by side. */
  predicate Clash(rev: Revision, a: CacheEntry, b: CacheEntry) {
    if rev == AsWritten then |Path(a)| == |Path(b)| else Path(a) == Path(b)
  }

  /** The invariant of `rev`: no two entries clash. */
  lemma InvariantNoClash(rev: Revision, entries: seq<CacheEntry>)
    ensures Invariant(rev, entries) <==> forall i, j | 0 <= i < j < |entries| :: !Clash(rev, entries[i], entries[j])
  {
  }

  /** The invariant holds of an entry followed by others exactly when it
      holds of the others and the entry clashes with none of them. */
  lemma InvariantCons(rev: Revision, e: CacheEntry, rest: seq<CacheEntry>)
    ensures Invariant(rev, [e] + rest) <==> (forall x | x in rest :: !Clash(rev, e, x)) && Invariant(rev, rest)
  {
    var r := [e] + rest;
    InvariantNoClash(rev, r);
    InvariantNoClash(rev, rest);
    if Invariant(rev, r) {
      ConsSplit(rev, e, rest);
    }
    if (forall x | x in rest :: !Clash(rev, e, x)) && Invariant(rev, rest) {
      ConsJoin(rev, e, rest);
    }
  }

  lemma ConsSplit(rev: Revision, e: CacheEntry, rest: seq<CacheEntry>)
    requires forall i, j | 0 <= i < j < |[e] + rest| :: !Clash(rev, ([e] + rest)[i], ([e] + rest)[j])
    ensures forall x | x in rest :: !Clash(rev, e, x)
    ensures forall i, j | 0 <= i < j < |rest| :: !Clash(rev, rest[i], rest[j])
  {
    var r := [e] + rest;
    forall x | x in rest ensures !Clash(rev, e, x) {
      var j :| 0 <= j < |rest| && rest[j] == x;
      assert r[0] == e && r[j + 1] == x;
    }
    forall i, j | 0 <= i < j < |rest| ensures !Clash(rev, rest[i], rest[j]) {
      assert r[i + 1] == rest[i] && r[j + 1] == rest[j];
    }
  }

  lemma ConsJoin(rev: Revision, e: CacheEntry, rest: seq<CacheEntry>)
    requires forall x | x in rest :: !Clash(rev, e, x)
    requires forall i, j | 0 <= i < j < |rest| :: !Clash(rev, rest[i], rest[j])
    ensures forall i, j | 0 <= i < j < |[e] + rest| :: !Clash(rev, ([e] + rest)[i], ([e] + rest)[j])
  {
    var r := [e] + rest;
    forall i, j | 0 <= i < j < |r| ensures !Clash(rev, r[i], r[j]) {
      assert r[j] == rest[j - 1];
      if i > 0 {
        assert r[i] == rest[i - 1];
      } else {
        assert r[j] in rest;
      }
    }
  }

  /** Invalidation keeps a subsequence, so it keeps the invariant. */
  lemma {:induction false} InvalidateInvariant(rev: Revision, entries: seq<CacheEntry>, key: seq<string>, exact: bool)
    ensures Invariant(rev, entries) ==> Invariant(rev, Invalidate(rev, entries, key, exact))
    decreases |entries|
  {
    if Invariant(rev, entries) && |entries| > 0 {
      var tail := entries[1..];
      assert entries == [entries[0]] + tail;
      InvariantCons(rev, entries[0], tail);
      InvalidateInvariant(rev, tail, key, exact);
      var rest := Invalidate(rev, tail, key, exact);
      if Keep(rev, entries[0], key, exact) {
        InvariantCons(rev, entries[0], rest);
      }
    }
  }

  /** A store whose entries all match `key` keeps none of them once an exact
      invalidation as written filters them by another length. */
  lemma InvalidateOtherLength(rev: Revision, entries: seq<CacheEntry>, key: seq<string>, other: seq<string>)
    ensures rev == AsWritten && (forall e | e in entries :: |Path(e)| == |key|) && |key| != |other|
      ==> Invalidate(rev, entries, other, true) == []
  {
    var r := Invalidate(rev, entries, other, true);
    if rev == AsWritten && r != [] {
      assert r[0] in r;
    }
  }

  /** getByKey up to its `await` (lines 105-112): a malformed key fails in
      parseKey, a cached record settles the call, and a miss goes on to the
      wrapped provider. */
  function ReadSettled<S>(rev: Revision, cs: Cached<S>, key: string): (r: Option<Result<Record>>)
    ensures ParseKey(key).Err? ==> r == Some(Err(ParseKey(key).error))
    ensures r.None? ==>
      ParseKey(key).Ok? && CachedRecord(rev, cs.entries, ParseKey(key).value.collection, ParseKey(key).value.id).None?
  {
    match ParseKey(key)
    case Err(e) => Some(Err(e))
    case Ok(Parsed(collection, id)) =>
      match CachedRecord(rev, cs.entries, collection, id)
      case Some(record) => Some(Ok(record))
      case None => None
  }

  /** getByKey after its `await` (lines 113-116): the wrapped provider's
      read is returned and, when it succeeds, pushed under the key's
      retrieve path, with no look at what the entries hold by then. */
  function ReadAwaited<S>(p: Provider<S>, cs: Cached<S>, key: string): (r: Step<Record, Cached<S>>)
    ensures ParseKey(key).Ok? ==>
      var fetched := Read(p, cs.inner, key);
      var parsed := ParseKey(key).value;
      && r.result == fetched.result
      && r.state.inner == fetched.state
      && r.state.entries == if fetched.result.Err? then cs.entries
         else cs.entries + [Retrieve(parsed.collection, parsed.id, fetched.result.value)]
  {
    match ParseKey(key)
    case Err(e) => Step(Err(e), cs)  // not reached: the part before the await failed already
    case Ok(Parsed(collection, id)) =>
      var fetched := Read(p, cs.inner, key);
      match fetched.result
      case Err(e) => Step(Err(e), Cached(cs.entries, fetched.state))
      case Ok(record) => Step(Ok(record), Cached(cs.entries + [Retrieve(collection, id, record)], fetched.state))
  }

  /** getByKey awaited on its own: a malformed key fails in parseKey before
      anything else; a cached record is returned without calling the inner
      provider; on a miss the inner result is returned and, when it
      succeeds, appended to the store. A read on its own keeps the
      invariant, because its push follows its own miss. */
  function GetByKey<S>(rev: Revision, p: Provider<S>, cs: Cached<S>, key: string): (r: Step<Record, Cached<S>>)
    ensures ParseKey(key).Err? ==> r == Step(Err(ParseKey(key).error), cs)
    ensures r.result.Err? ==> r.state.entries == cs.entries
    ensures Invariant(rev, cs.entries) ==> Invariant(rev, r.state.entries)
  {
    match ReadSettled(rev, cs, key)
    case Some(settled) => Step(settled, cs)
    case None =>
      var parsed := ParseKey(key).value;
      var r := ReadAwaited(p, cs, key);
      RecordMiss(rev, cs.entries, parsed.collection, parsed.id);
      if r.result.Ok? then
        AppendUnmatched(rev, cs.entries, Retrieve(parsed.collection, parsed.id, r.result.value));
        r
      else r
  }

  /** A record lookup misses only when no entry matches the retrieve path. */
  lemma RecordMiss(rev: Revision, entries: seq<CacheEntry>, collection: string, id: string)
    ensures CachedRecord(rev, entries, collection, id).None? <==>
      forall e | e in entries :: !ExactMatch(rev, e, RetrieveKey(collection, id))
  {
    var found := Lookup(rev, entries, RetrieveKey(collection, id));
    if found.Some? {
      assert |Path(found.value)| == 3;
    }
  }

  /** A listing lookup misses only when no entry matches the keys path. */
  lemma ListingMiss(rev: Revision, entries: seq<CacheEntry>, collection: string)
    ensures CachedKeys(rev, entries, collection).None? <==>
      forall e | e in entries :: !ExactMatch(rev, e, KeysKey(collection))
  {
    var found := Lookup(rev, entries, KeysKey(collection));
    if found.Some? {
      assert |Path(found.value)| == 2;
    }
  }

  /** deleteObject: deletes through the inner provider, then drops the
      cached record and the collection's cached listing. As written every
      entry is dropped. */
  function DeleteObject<S>(rev: Revision, p: Provider<S>, cs: Cached<S>, collection: string, id: string): (r: Step<(), Cached<S>>)
    ensures r.result == p.deleteObject(cs.inner, collection, id).result
    ensures r.state.inner == p.deleteObject(cs.inner, collection, id).state
    ensures r.result.Err? ==> r.state.entries == cs.entries
    ensures r.result.Ok? ==> forall e | e in r.state.entries ::
      e in cs.entries && Path(e) != RetrieveKey(collection, id) && Path(e) != KeysKey(collection)
    ensures rev == AsWritten && r.result.Ok? ==> r.state.entries == []
    ensures Invariant(rev, cs.entries) ==> Invariant(rev, r.state.entries)
  {
    var deleted := p.deleteObject(cs.inner, collection, id);
    if deleted.result.Err? then Step(deleted.result, Cached(cs.entries, deleted.state))
    else
      var once := ClearRetrieve(rev, cs.entries, collection, id);
      var twice := ClearKeys(rev, once, collection);
      InvalidateOtherLength(rev, once, RetrieveKey(collection, id), KeysKey(collection));
      InvalidateInvariant(rev, cs.entries, RetrieveKey(collection, id), true);
      InvalidateInvariant(rev, once, KeysKey(collection), true);
      Step(deleted.result, Cached(twice, deleted.state))
  }

  /** exists: always delegates; the store is neither read nor changed. */
  function Exists<S>(rev: Revision, p: Provider<S>, cs: Cached<S>, collection: string, id: string): (r: Step<bool, Cached<S>>)
    ensures r.result == p.objectExists(cs.inner, collection, id).result
    ensures r.state == Cached(cs.entries, p.objectExists(cs.inner, collection, id).state)
  {
    var asked := p.objectExists(cs.inner, collection, id);
    Step(asked.result, Cached(cs.entries, asked.state))
  }

  /** upsert: writes through the inner provider, then drops the collection's
      cached listing and caches the written record. As written the store is
      left holding that record alone. */
  function Upsert<S>(rev: Revision, p: Provider<S>, cs: Cached<S>, collection: string, data: Record): (r: Step<Record, Cached<S>>)
    ensures r.result == p.upsert(cs.inner, collection, data).result
    ensures r.state.inner == p.upsert(cs.inner, collection, data).state
    ensures r.result.Err? ==> r.state.entries == cs.entries
    ensures r.result.Ok? ==>
      |r.state.entries| > 0 && r.state.entries[|r.state.entries| - 1] == Retrieve(collection, data.id, data)
    ensures r.result.Ok? ==> forall e | e in r.state.entries[..|r.state.entries| - 1] ::
      e in cs.entries && Path(e) != RetrieveKey(collection, data.id) && Path(e) != KeysKey(collection)
    ensures rev == AsWritten && r.result.Ok? ==> r.state.entries == [Retrieve(collection, data.id, data)]
    ensures Invariant(rev, cs.entries) ==> Invariant(rev, r.state.entries)
  {
    var written := p.upsert(cs.inner, collection, data);
    if written.result.Err? then Step(written.result, Cached(cs.entries, written.state))
    else
      var cleared := ClearKeys(rev, cs.entries, collection);
      var kept := Invalidate(rev, cleared, RetrieveKey(collection, data.id), true);
      var added := Retrieve(collection, data.id, data);
      InvalidateOtherLength(rev, cleared, KeysKey(collection), RetrieveKey(collection, data.id));
      InvalidateInvariant(rev, cs.entries, KeysKey(collection), true);
      InvalidateInvariant(rev, cleared, RetrieveKey(collection, data.id), true);
      AppendUnmatched(rev, kept, added);
      assert (kept + [added])[..|kept|] == kept;
      Step(written.result, Cached(SetRetrieve(rev, cleared, collection, data.id, data), written.state))
  }

  /** keys: a cached listing is returned without calling the inner
      provider; on a miss the inner listing is returned and, when it
      succeeds, cached in place of any earlier listing of the collection. */
  function Keys<S>(rev: Revision, p: Provider<S>, cs: Cached<S>, collection: string): (r: Step<seq<string>, Cached<S>>)
    ensures r.result.Err? ==> r.state.entries == cs.entries
    ensures Invariant(rev, cs.entries) ==> Invariant(rev, r.state.entries)
  {
    match CachedKeys(rev, cs.entries, collection)
    case Some(keys) => Step(Ok(keys), cs)
    case None =>
      var listed := p.keys(cs.inner, collection);
      match listed.result
      case Err(e) => Step(Err(e), Cached(cs.entries, listed.state))
      case Ok(keys) =>
        var kept := Invalidate(rev, cs.entries, KeysKey(collection), true);
        InvalidateInvariant(rev, cs.entries, KeysKey(collection), true);
        ListingMiss(rev, cs.entries, collection);
        AppendUnmatched(rev, kept, Listing(collection, keys));
        Step(Ok(keys), Cached(SetKeys(rev, cs.entries, collection, keys), listed.state))
  }

  /** The decorator as a provider in its own right. */
  function AsProvider<S>(rev: Revision, p: Provider<S>): Provider<Cached<S>> {
    Provider(
      (cs, key) => ReadSettled(rev, cs, key),
      (cs, key) => ReadAwaited(p, cs, key),
      (cs, collection, id) => Exists(rev, p, cs, collection, id),
      (cs, collection) => Keys(rev, p, cs, collection),
      (cs, collection, data) => Upsert(rev, p, cs, collection, data),
      (cs, collection, id) => DeleteObject(rev, p, cs, collection, id))
  }

  /** The decorator's read, awaited on its own, is `GetByKey`. */
  lemma ReadIsGetByKey<S>(rev: Revision, p: Provider<S>, cs: Cached<S>, key: string)
    ensures Read(AsProvider(rev, p), cs, key) == GetByKey(rev, p, cs, key)
  {
  }
}

=== FILE: cache_coherence.dfy ===
/** The decorator in front of the object-storage provider, when it is the
    only writer: every entry it stores agrees with the backend, in both
    revisions; the intended lookup therefore answers exactly what the
    backend would, while the lookup as written can answer with a value
    stored for another id. */
module CacheCoherence {
  import opened Base
  import opened Storage
  import opened Key
  import opened Providers
  import opened Cache
  import opened CacheFacts
  import S3Provider
  import Operations

  /** An entry agrees with what the provider would answer now. */
  predicate EntryCoherent(st: Store, e: CacheEntry) {
    match e
    case Retrieve(collection, id, record) =>
      '/' !in collection && S3Provider.GetByKey(st, ToKey(collection, id)) == Ok(record)
    case Listing(collection, keys) =>
      '/' !in collection && S3Provider.Keys(st, collection) == Ok(keys)
  }

  predicate Coherent(st: Store, entries: seq<CacheEntry>) {
    forall e | e in entries :: EntryCoherent(st, e)
  }

  /** Two '/'-free collection names prefix each other's keys only when they
      are equal. */
  lemma CollectionPrefix(collection: string, other: string, rest: string)
    requires '/' !in collection && '/' !in other
    ensures other + "/" <= collection + "/" + rest ==> other == collection
  {
    var key := collection + "/" + rest;
    if other + "/" <= key {
      assert key[|other|] == '/';
      assert |other| <= |collection| ==> key[|other|] == (collection + "/")[|other|];
      assert |collection| <= |other| ==> key[|collection|] == (other + "/")[|collection|];
      assert other == key[..|other|];
      assert collection == key[..|collection|];
    }
  }

  /** An entry under another path than the written or deleted record's and
      the collection's listing stays coherent across a write or delete of
      that record. */
  lemma OtherEntryStays(st: Store, after: Store, collection: string, id: string, e: CacheEntry)
    requires '/' !in collection
    requires after.faults == st.faults
    requires forall k | k != ToKey(collection, id) :: (k in Contents(after) <==> k in Contents(st))
    requires forall k | k != ToKey(collection, id) && k in Contents(st) :: Contents(after)[k] == Contents(st)[k]
    requires forall prefix | !(prefix <= ToKey(collection, id)) :: Under(after.objects, prefix) == Under(st.objects, prefix)
    requires EntryCoherent(st, e)
    requires Path(e) != RetrieveKey(collection, id) && Path(e) != KeysKey(collection)
    ensures EntryCoherent(after, e)
  {
    match e
    case Retrieve(c, i, record) =>
      if ToKey(c, i) == ToKey(collection, id) {
        ToKeyInjective(c, i, collection, id);
      }
    case Listing(c, keys) =>
      assert ToKey(collection, id) == collection + "/" + (id + ".json");
      CollectionPrefix(collection, c, id + ".json");
  }

  /** A successful upsert through the decorator keeps the store coherent,
      in both revisions. */
  lemma UpsertCoherent(rev: Revision, st: Store, entries: seq<CacheEntry>, collection: string, data: Record)
    requires '/' !in collection && Coherent(st, entries)
    ensures var r := Upsert(rev, S3Provider.Instance(), Cached(entries, st), collection, data);
      Coherent(r.state.inner, r.state.entries)
  {
    var r := Upsert(rev, S3Provider.Instance(), Cached(entries, st), collection, data);
    var key := ToKey(collection, data.id);
    if key !in st.faults {
      var after := Write(st, key, Some(data));
      WriteKeepsListings(st, key, Some(data));
      WrittenCoherent(st, collection, data);
      var n := |r.state.entries| - 1;
      forall e | e in r.state.entries[..n] ensures EntryCoherent(after, e) {
        OtherEntryStays(st, after, collection, data.id, e);
      }
      assert r.state.entries == r.state.entries[..n] + [r.state.entries[n]];
    }
  }

  /** A write leaves the listing of every prefix of other keys alone. */
  lemma WriteKeepsListings(st: Store, key: string, body: Option<Record>)
    ensures forall prefix | !(prefix <= key) :: Under(Write(st, key, body).objects, prefix) == Under(st.objects, prefix)
  {
    forall prefix | !(prefix <= key) ensures Under(Write(st, key, body).objects, prefix) == Under(st.objects, prefix) {
      UnderPut(st.objects, key, body, prefix);
    }
  }

  /** The entry an upsert stores agrees with the backend it wrote. */
  lemma WrittenCoherent(st: Store, collection: string, data: Record)
    requires '/' !in collection && ToKey(collection, data.id) !in st.faults
    ensures EntryCoherent(Write(st, ToKey(collection, data.id), Some(data)), Retrieve(collection, data.id, data))
  {
  }

  /** A successful delete through the decorator keeps the store coherent,
      in both revisions. */
  lemma DeleteCoherent(rev: Revision, st: Store, entries: seq<CacheEntry>, collection: string, id: string)
    requires '/' !in collection && Coherent(st, entries)
    ensures var r := DeleteObject(rev, S3Provider.Instance(), Cached(entries, st), collection, id);
      Coherent(r.state.inner, r.state.entries)
  {
    var key := ToKey(collection, id);
    if key !in st.faults {
      var after := Erase(st, key);
      forall prefix | !(prefix <= key) ensures Under(after.objects, prefix) == Under(st.objects, prefix) {
        UnderRemove(st.objects, key, prefix);
      }
      var r := DeleteObject(rev, S3Provider.Instance(), Cached(entries, st), collection, id);
      forall e | e in r.state.entries ensures EntryCoherent(after, e) {
        OtherEntryStays(st, after, collection, id, e);
      }
    }
  }

  /** As intended, a read through a coherent decorator answers exactly what
      the provider answers, and the store stays coherent; as written, the
      store stays coherent too. */
  lemma ReadTransparent(rev: Revision, st: Store, entries: seq<CacheEntry>, collection: string, id: string)
    requires collection != "" && '/' !in collection && id != "" && '/' !in id && '.' !in id
    requires Coherent(st, entries)
    ensures var r := GetByKey(rev, S3Provider.Instance(), Cached(entries, st), ToKey(collection, id));
      && r.state.inner == st
      && Coherent(st, r.state.entries)
      && (rev == Intended ==> r.result == S3Provider.GetByKey(st, ToKey(collection, id)))
  {
    ParseSupported(collection, id);
    IntendedLookupExact(entries, collection, id);
  }

  /** As intended, a cached listing is the listing of the collection asked
      for. */
  lemma IntendedListingExact(entries: seq<CacheEntry>, collection: string)
    ensures CachedKeys(Intended, entries, collection).Some? ==>
      Listing(collection, CachedKeys(Intended, entries, collection).value) in entries
  {
    var found := Lookup(Intended, entries, KeysKey(collection));
    if found.Some? {
      ExactMatchIntended(found.value, KeysKey(collection));
    }
  }

  /** As intended, a listing through a coherent decorator answers exactly
      what the provider answers, and the store stays coherent; as written,
      the store stays coherent too. */
  lemma ListingTransparent(rev: Revision, st: Store, entries: seq<CacheEntry>, collection: string)
    requires '/' !in collection && Coherent(st, entries)
    ensures var r := Keys(rev, S3Provider.Instance(), Cached(entries, st), collection);
      && r.state.inner == st
      && Coherent(st, r.state.entries)
      && (rev == Intended ==> r.result == S3Provider.Keys(st, collection))
  {
    IntendedListingExact(entries, collection);
  }

  /** A backend holding two records of one collection. */
  function TwoRecords(ra: Record, rb: Record): Store {
    var a, b := ToKey("users", "a"), ToKey("users", "b");
    assert a[6] == 'a' && b[6] == 'b';
    Store([Obj(a, Some(ra)), Obj(b, Some(rb))], map[])
  }

  lemma TwoRecordsReads(ra: Record, rb: Record)
    ensures S3Provider.GetByKey(TwoRecords(ra, rb), ToKey("users", "a")) == Ok(ra)
    ensures S3Provider.GetByKey(TwoRecords(ra, rb), ToKey("users", "b")) == Ok(rb)
  {
    var a, b := ToKey("users", "a"), ToKey("users", "b");
    assert a[6] == 'a' && b[6] == 'b';
    var st := TwoRecords(ra, rb);
    assert st.objects[1..] == [Obj(b, Some(rb))];
    assert st.objects[1..][1..] == [];
    assert View(st.objects[1..]) == map[b := Some(rb)];
    assert Contents(st) == map[b := Some(rb)][a := Some(ra)];
  }

  /** As written, a coherent store still answers a read of `users/b` with
      the record of `users/a`. */
  lemma StaleRead(ra: Record, rb: Record)
    requires ra != rb
    ensures var st := TwoRecords(ra, rb);
      && Coherent(st, [Retrieve("users", "a", ra)])
      && S3Provider.GetByKey(st, ToKey("users", "b")) == Ok(rb)
      && GetByKey(AsWritten, S3Provider.Instance(), Cached([Retrieve("users", "a", ra)], st), ToKey("users", "b")).result
         == Ok(ra)
  {
    var st := TwoRecords(ra, rb);
    TwoRecordsReads(ra, rb);
    TwoRecordsCoherent(ra, rb);
    ServedFromA(st, ra);
  }

  lemma TwoRecordsCoherent(ra: Record, rb: Record)
    ensures Coherent(TwoRecords(ra, rb), [Retrieve("users", "a", ra)])
  {
    TwoRecordsReads(ra, rb);
    assert '/' !in "users";
    assert EntryCoherent(TwoRecords(ra, rb), Retrieve("users", "a", ra));
  }

  lemma ServedFromA(st: Store, ra: Record)
    ensures GetByKey(AsWritten, S3Provider.Instance(), Cached([Retrieve("users", "a", ra)], st), ToKey("users", "b")).result
         == Ok(ra)
  {
    OtherIdServed(S3Provider.Instance(), st, "users", "a", ra, "users", "b");
  }

  /** Through the decorator over object storage, in both revisions: a
      record written is read back from the store, and after it is deleted a
      read reaches the backend and finds nothing. */
  lemma WriteReadDelete(rev: Revision, st: Store, entries: seq<CacheEntry>, collection: string, data: Record)
    requires collection != "" && '/' !in collection && data.id != "" && '/' !in data.id && '.' !in data.id
    requires ToKey(collection, data.id) !in st.faults
    ensures var p := S3Provider.Instance();
      var written := Upsert(rev, p, Cached(entries, st), collection, data).state;
      var deleted := DeleteObject(rev, p, written, collection, data.id).state;
      && GetByKey(rev, p, written, ToKey(collection, data.id)) == Step(Ok(data), written)
      && GetByKey(rev, p, deleted, ToKey(collection, data.id)).result == Err(KeyNotFound)
  {
    var p := S3Provider.Instance();
    var written := Upsert(rev, p, Cached(entries, st), collection, data).state;
    UpsertThenGet(rev, p, p, Cached(entries, st), collection, data);
    DeletedMisses(rev, written, collection, data.id);
  }

  /** After a successful delete through the decorator, a read of the
      deleted id reaches the backend and finds nothing. */
  lemma DeletedMisses(rev: Revision, cs: Cached<Store>, collection: string, id: string)
    requires collection != "" && '/' !in collection && id != "" && '/' !in id && '.' !in id
    requires ToKey(collection, id) !in cs.inner.faults
    ensures var p := S3Provider.Instance();
      var deleted := DeleteObject(rev, p, cs, collection, id).state;
      GetByKey(rev, p, deleted, ToKey(collection, id)).result == Err(KeyNotFound)
  {
    var p := S3Provider.Instance();
    var key := ToKey(collection, id);
    DeleteThenMiss(rev, p, cs, collection, id);
    var deleted := DeleteObject(rev, p, cs, collection, id).state;
    assert deleted.inner == Erase(cs.inner, key);
    ParseSupported(collection, id);
    MissAsksInner(rev, p, deleted, key);
  }

  /** A key the listing can hand to a read and the read caches under the
      same key: it parses, and the key built back from the parsed
      collection and id is the key itself. */
  predicate Canonical(key: string) {
    ParseKey(key).Ok? && ToKey(ParseKey(key).value.collection, ParseKey(key).value.id) == key
  }

  /** Every key the backend holds is canonical. */
  predicate CanonicalStore(st: Store) {
    forall k | k in KeyList(st.objects) :: Canonical(k)
  }

  /** all() through the decorator over object storage, in both revisions:
      the reads of one `Promise.all` leave the backend alone and cache only
      what the backend holds, so a coherent store stays coherent; as
      intended, the records are exactly those the provider alone returns. */
  lemma AllCoherent(rev: Revision, st: Store, entries: seq<CacheEntry>, collection: string)
    requires '/' !in collection && Coherent(st, entries) && CanonicalStore(st)
    ensures var r := Operations.All(AsProvider(rev, S3Provider.Instance()), Cached(entries, st), collection);
      && r.state.inner == st
      && Coherent(st, r.state.entries)
      && (rev == Intended ==> r.result == Operations.All(S3Provider.Instance(), st, collection).result)
  {
    var p := AsProvider(rev, S3Provider.Instance());
    var listed := p.keys(Cached(entries, st), collection);
    ListingTransparent(rev, st, entries, collection);
    if listed.result.Ok? {
      ListedCanonical(rev, st, entries, collection);
      ReadAllCoherent(rev, listed.state, listed.state, listed.result.value);
      if rev == Intended {
        assert Operations.All(S3Provider.Instance(), st, collection).result
            == FanOut(st, listed.result.value, ReadFrom(S3Provider.Instance(), st)).result;
      }
    }
  }

  /** Every key the decorator lists for a coherent store over a canonical
      backend is canonical: a listing from the cache is one the backend
      gave. */
  lemma ListedCanonical(rev: Revision, st: Store, entries: seq<CacheEntry>, collection: string)
    requires '/' !in collection && Coherent(st, entries) && CanonicalStore(st)
    ensures var listed := Keys(rev, S3Provider.Instance(), Cached(entries, st), collection);
      listed.result.Ok? ==> forall k | k in listed.result.value :: Canonical(k)
  {
    var found := Lookup(rev, entries, KeysKey(collection));
    if found.Some? && found.value.Listing? {
      assert EntryCoherent(st, found.value);
    }
  }

  /** The reads of one fan-out through a coherent decorator over a
      canonical listing: the induction behind `AllCoherent`. */
  lemma {:induction false} ReadAllCoherent(rev: Revision, start: Cached<Store>, cs: Cached<Store>, keys: seq<string>)
    requires cs.inner == start.inner
    requires Coherent(start.inner, start.entries) && Coherent(cs.inner, cs.entries)
    requires forall k | k in keys :: Canonical(k)
    ensures var r := FanOut(cs, keys, ReadFrom(AsProvider(rev, S3Provider.Instance()), start));
      && r.state.inner == start.inner
      && Coherent(start.inner, r.state.entries)
      && (rev == Intended ==>
            r.result == FanOut(start.inner, keys, ReadFrom(S3Provider.Instance(), start.inner)).result)
    decreases |keys|
  {
    if |keys| > 0 {
      var call := ReadFrom(AsProvider(rev, S3Provider.Instance()), start);
      ReadFromCoherent(rev, start, cs, keys[0]);
      ReadAllCoherent(rev, start, call(cs, keys[0]).state, keys[1..]);
    }
  }

  /** One read of the fan-out: it caches only what the backend holds under
      the key read, and as intended it answers what the backend answers. */
  lemma ReadFromCoherent(rev: Revision, start: Cached<Store>, cs: Cached<Store>, key: string)
    requires cs.inner == start.inner
    requires Coherent(start.inner, start.entries) && Coherent(cs.inner, cs.entries)
    requires Canonical(key)
    ensures var r := ReadFrom(AsProvider(rev, S3Provider.Instance()), start)(cs, key);
      && r.state.inner == start.inner
      && Coherent(start.inner, r.state.entries)
      && (rev == Intended ==> r.result == S3Provider.GetByKey(start.inner, key))
  {
    var parsed := ParseKey(key).value;
    IntendedLookupExact(start.entries, parsed.collection, parsed.id);
    var cached := CachedRecord(rev, start.entries, parsed.collection, parsed.id);
    if rev == Intended && cached.Some? {
      assert EntryCoherent(start.inner, Retrieve(parsed.collection, parsed.id, cached.value));
    }
  }

  /** As written, all() over the two-record backend from an empty store
      returns both records, but leaves the listing and two cached records
      behind: the two reads missed before either was cached, so the store
      ends up with two entries of one path length. */
  lemma AllOverfills(ra: Record, rb: Record)
    ensures var a, b := ToKey("users", "a"), ToKey("users", "b");
      var r := Operations.All(AsProvider(AsWritten, S3Provider.Instance()), Cached([], TwoRecords(ra, rb)), "users");
      && r.result == Ok([ra, rb])
      && r.state == Cached([Listing("users", [a, b]), Retrieve("users", "a", ra), Retrieve("users", "b", rb)],
                           TwoRecords(ra, rb))
      && !Invariant(AsWritten, r.state.entries)
  {
    var a, b := ToKey("users", "a"), ToKey("users", "b");
    var st := TwoRecords(ra, rb);
    var p := AsProvider(AsWritten, S3Provider.Instance());
    var listing := Listing("users", [a, b]);
    var cs1 := Cached([listing], st);
    var cs3 := Cached([listing, Retrieve("users", "a", ra), Retrieve("users", "b", rb)], st);
    assert p.keys(Cached([], st), "users") == Step(Ok([a, b]), cs1) by {
      TwoRecordsListing(ra, rb);
      ListingMissed(AsWritten, st, "users", [a, b]);
    }
    TwoRecordsReads(ra, rb);
    BothMiss(st, "users", "a", "b", ra, rb);
    assert |Path(cs3.entries[1])| == |Path(cs3.entries[2])|;
  }

  /** The two reads of the overfilling fan-out, over any backend holding
      the two records: both miss the listing-only store they started from,
      so both records are pushed. */
  lemma BothMiss(st: Store, collection: string, x: string, y: string, rx: Record, ry: Record)
    requires collection != "" && '/' !in collection
    requires x != "" && '/' !in x && '.' !in x && y != "" && '/' !in y && '.' !in y
    requires S3Provider.GetByKey(st, ToKey(collection, x)) == Ok(rx)
    requires S3Provider.GetByKey(st, ToKey(collection, y)) == Ok(ry)
    ensures var listing := Listing(collection, [ToKey(collection, x), ToKey(collection, y)]);
      var start := Cached([listing], st);
      FanOut(start, [ToKey(collection, x), ToKey(collection, y)], ReadFrom(AsProvider(AsWritten, S3Provider.Instance()), start))
        == Step(Ok([rx, ry]), Cached([listing, Retrieve(collection, x, rx), Retrieve(collection, y, ry)], st))
  {
    var listing := Listing(collection, [ToKey(collection, x), ToKey(collection, y)]);
    var cs1 := Cached([listing], st);
    var cs2 := Cached([listing, Retrieve(collection, x, rx)], st);
    var cs3 := Cached([listing, Retrieve(collection, x, rx), Retrieve(collection, y, ry)], st);
    var call := ReadFrom(AsProvider(AsWritten, S3Provider.Instance()), cs1);
    ListingsPush(cs1, cs1, collection, x, rx);
    assert cs1.entries + [Retrieve(collection, x, rx)] == cs2.entries;
    ListingsPush(cs1, cs2, collection, y, ry);
    assert cs2.entries + [Retrieve(collection, y, ry)] == cs3.entries;
    FanOutPair(cs1, ToKey(collection, x), ToKey(collection, y), call);
  }

  /** A read that starts from a store holding only listings misses, and
      pushes the record the backend returns. */
  lemma ListingsPush(start: Cached<Store>, cs: Cached<Store>, collection: string, id: string, record: Record)
    requires collection != "" && '/' !in collection && id != "" && '/' !in id && '.' !in id
    requires forall e | e in start.entries :: e.Listing?
    requires S3Provider.GetByKey(cs.inner, ToKey(collection, id)) == Ok(record)
    ensures ReadFrom(AsProvider(AsWritten, S3Provider.Instance()), start)(cs, ToKey(collection, id))
      == Step(Ok(record), Cached(cs.entries + [Retrieve(collection, id, record)], cs.inner))
  {
    ListingsMiss(AsWritten, start.entries, collection, id);
    MissPushes(AsWritten, start, cs, collection, id, record);
  }

  /** A store holding only listings answers no record lookup. */
  lemma ListingsMiss(rev: Revision, entries: seq<CacheEntry>, collection: string, id: string)
    requires forall e | e in entries :: e.Listing?
    ensures CachedRecord(rev, entries, collection, id).None?
  {
    RecordMiss(rev, entries, collection, id);
  }

  /** A listing asked of an empty store comes from the backend and is the
      one entry the store then holds. */
  lemma ListingMissed(rev: Revision, st: Store, collection: string, keys: seq<string>)
    requires S3Provider.Keys(st, collection) == Ok(keys)
    ensures Keys(rev, S3Provider.Instance(), Cached([], st), collection) == Step(Ok(keys), Cached([Listing(collection, keys)], st))
  {
    ListingMiss(rev, [], collection);
    assert CachedKeys(rev, [], collection).None?;
    assert S3Provider.Instance().keys(st, collection) == Step(Ok(keys), st);
    assert Invalidate(rev, [], KeysKey(collection), true) == [];
    assert SetKeys(rev, [], collection, keys) == [Listing(collection, keys)];
  }

  /** A read of the fan-out that missed in the store it started from asks
      the backend and appends what it got to the current store. */
  lemma MissPushes(rev: Revision, start: Cached<Store>, cs: Cached<Store>, collection: string, id: string, record: Record)
    requires collection != "" && '/' !in collection && id != "" && '/' !in id && '.' !in id
    requires CachedRecord(rev, start.entries, collection, id).None?
    requires S3Provider.GetByKey(cs.inner, ToKey(collection, id)) == Ok(record)
    ensures ReadFrom(AsProvider(rev, S3Provider.Instance()), start)(cs, ToKey(collection, id))
      == Step(Ok(record), Cached(cs.entries + [Retrieve(collection, id, record)], cs.inner))
  {
    ParseSupported(collection, id);
  }

  lemma TwoRecordsListing(ra: Record, rb: Record)
    ensures S3Provider.Keys(TwoRecords(ra, rb), "users") == Ok([ToKey("users", "a"), ToKey("users", "b")])
  {
    var a, b := ToKey("users", "a"), ToKey("users", "b");
    var st := TwoRecords(ra, rb);
    assert "users" + "/" == "users/";
    UnderPrefixed("users/", "a.json", "b.json", Some(ra), Some(rb));
    assert a == "users/" + "a.json" && b == "users/" + "b.json";
  }

  /** The listing of two objects that both start with the prefix. */
  lemma UnderPrefixed(prefix: string, x: string, y: string, bx: Option<Record>, bodyY: Option<Record>)
    ensures Under([Obj(prefix + x, bx), Obj(prefix + y, bodyY)], prefix) == [prefix + x, prefix + y]
  {
    var objs := [Obj(prefix + x, bx), Obj(prefix + y, bodyY)];
    assert (prefix + x)[..|prefix|] == prefix && (prefix + y)[..|prefix|] == prefix;
    assert objs[1..] == [Obj(prefix + y, bodyY)];
    assert objs[1..][1..] == [];
    assert prefix <= prefix + x && prefix <= prefix + y;
    assert Under(objs[1..][1..], prefix) == [];
    assert Under(objs[1..], prefix) == [prefix + y] + [];
  }

  /** A key outside the naming scheme is cached under the key of another
      id: all() over a backend holding only `collection/id.ext`, for an
      extension other than `json`, caches its record under the retrieve path
      of `id`, and a later read of `collection/id.json`, which the backend
      does not hold, answers with it. */
  lemma ForeignKeyAliases(rev: Revision, collection: string, id: string, ext: string, rc: Record)
    requires collection != "" && '/' !in collection && id != "" && '/' !in id && '.' !in id
    requires '/' !in ext && ext != "json"
    ensures var foreign := collection + "/" + (id + ['.'] + ext);
      var st := Store([Obj(foreign, Some(rc))], map[]);
      var after := Operations.All(AsProvider(rev, S3Provider.Instance()), Cached([], st), collection).state;
      && !Canonical(foreign)
      && S3Provider.GetByKey(st, ToKey(collection, id)) == Err(KeyNotFound)
      && GetByKey(rev, S3Provider.Instance(), after, ToKey(collection, id)).result == Ok(rc)
  {
    var foreign := collection + "/" + (id + ['.'] + ext);
    var st := Store([Obj(foreign, Some(rc))], map[]);
    var p := AsProvider(rev, S3Provider.Instance());
    var listing := Listing(collection, [foreign]);
    var cs1 := Cached([listing], st);
    var cs2 := Cached([listing, Retrieve(collection, id, rc)], st);
    ParseWithExtension(collection, id, ext);
    ForeignIsNotToKey(collection, id, ext);
    assert p.keys(Cached([], st), collection) == Step(Ok([foreign]), cs1) by {
      SingleListing(collection, id + ['.'] + ext, Some(rc));
      ListingMissed(rev, st, collection, [foreign]);
    }
    assert ReadFrom(p, cs1)(cs1, foreign) == Step(Ok(rc), cs2) by {
      SingleRead(st, rc, foreign);
      ListingsMiss(rev, cs1.entries, collection, id);
      ParsedPushes(rev, cs1, cs1, foreign, rc);
      assert cs1.entries + [Retrieve(collection, id, rc)] == cs2.entries;
    }
    FanOutSingle(cs1, foreign, ReadFrom(p, cs1));
    SingleRead(st, rc, foreign);
    RecordAfterListing(rev, listing, collection, id, rc, st);
  }

  /** A key with an extension other than `json` is not the key of its id. */
  lemma ForeignIsNotToKey(collection: string, id: string, ext: string)
    requires ext != "json"
    ensures ToKey(collection, id) != collection + "/" + (id + ['.'] + ext)
  {
    var head := collection + "/" + (id + ['.']);
    assert ToKey(collection, id) == head + "json";
    assert collection + "/" + (id + ['.'] + ext) == head + ext;
    assert (head + "json")[|head|..] == "json" && (head + ext)[|head|..] == ext;
  }

  /** The listing of a one-object backend whose key is in the collection. */
  lemma SingleListing(collection: string, rest: string, body: Option<Record>)
    ensures S3Provider.Keys(Store([Obj(collection + "/" + rest, body)], map[]), collection) == Ok([collection + "/" + rest])
  {
    var prefix := collection + "/";
    var objs := [Obj(prefix + rest, body)];
    assert (prefix + rest)[..|prefix|] == prefix;
    assert objs[1..] == [];
    assert Under(objs, prefix) == [prefix + rest] + [];
  }

  /** A one-object backend answers a read of its key with the body. */
  lemma SingleRead(st: Store, rc: Record, key: string)
    requires st == Store([Obj(key, Some(rc))], map[])
    ensures S3Provider.GetByKey(st, key) == Ok(rc)
    ensures forall other | other != key :: S3Provider.GetByKey(st, other) == Err(KeyNotFound)
  {
    assert st.objects[1..] == [];
    assert Contents(st) == map[key := Some(rc)];
  }

  /** A read of the fan-out that missed in the store it started from asks
      the backend and appends what it got under the path the key parses to,
      whatever the key's own form. */
  lemma ParsedPushes(rev: Revision, start: Cached<Store>, cs: Cached<Store>, key: string, record: Record)
    requires ParseKey(key).Ok?
    requires CachedRecord(rev, start.entries, ParseKey(key).value.collection, ParseKey(key).value.id).None?
    requires S3Provider.GetByKey(cs.inner, key) == Ok(record)
    ensures var parsed := ParseKey(key).value;
      ReadFrom(AsProvider(rev, S3Provider.Instance()), start)(cs, key)
        == Step(Ok(record), Cached(cs.entries + [Retrieve(parsed.collection, parsed.id, record)], cs.inner))
  {
  }

  /** A listing followed by a record: a read of the record's key is served
      from the store, in both revisions. */
  lemma RecordAfterListing(rev: Revision, listing: CacheEntry, collection: string, id: string, rc: Record, inner: Store)
    requires listing.Listing?
    requires collection != "" && '/' !in collection && id != "" && '/' !in id && '.' !in id
    ensures GetByKey(rev, S3Provider.Instance(), Cached([listing, Retrieve(collection, id, rc)], inner), ToKey(collection, id)).result
      == Ok(rc)
  {
    ParseSupported(collection, id);
    FoundAfterListing(rev, listing, collection, id, rc);
  }

  lemma FoundAfterListing(rev: Revision, listing: CacheEntry, collection: string, id: string, rc: Record)
    requires listing.Listing?
    ensures CachedRecord(rev, [listing, Retrieve(collection, id, rc)], collection, id) == Some(rc)
  {
    var entries := [listing, Retrieve(collection, id, rc)];
    assert entries[1..] == [Retrieve(collection, id, rc)];
    assert !ExactMatch(rev, entries[0], RetrieveKey(collection, id));
    assert FirstMatch(rev, entries, RetrieveKey(collection, id)) == 1;
  }
}

=== FILE: cache_facts.dfy ===
/** What the caching decorator does, as written and as intended: how its
    comparisons behave, what each operation leaves in the store, and when
    the wrapped provider is consulted. */
module CacheFacts {
  import opened Base
  import opened Providers
  import opened Key
  import opened Cache

  /** As written, an exact match is a length test: the element-wise test
      compares the entry's path with itself. */
  lemma ExactMatchAsWritten(e: CacheEntry, key: seq<string>)
    ensures ExactMatch(AsWritten, e, key) <==> |Path(e)| == |key|
  {
  }

  /** As intended, an exact match is path equality. */
  lemma ExactMatchIntended(e: CacheEntry, key: seq<string>)
    ensures ExactMatch(Intended, e, key) <==> Path(e) == key
  {
    if |Path(e)| == |key| && Every(Path(e), key) {
      assert forall i | 0 <= i < |key| :: Path(e)[i] == key[i];
    }
  }

  /** The prefix form of `invalidate` drops exactly the entries whose path
      starts with `key`, in both revisions. */
  lemma PrefixInvalidate(rev: Revision, entries: seq<CacheEntry>, key: seq<string>)
    ensures forall e :: e in Invalidate(rev, entries, key, false) <==> e in entries && !(key <= Path(e))
  {
    forall e: CacheEntry ensures Every(key, Path(e)) <==> key <= Path(e) {
      EveryIsPrefix(key, Path(e));
    }
  }

  /** The element-wise test of `key` against a path is the prefix test. */
  lemma EveryIsPrefix(xs: seq<string>, ys: seq<string>)
    ensures Every(xs, ys) <==> xs <= ys
  {
    if Every(xs, ys) {
      if |xs| > 0 {
        var last := |xs| - 1;
        assert xs[last] in xs;
        assert last < |ys|;
      }
      assert |xs| <= |ys|;
      assert xs == ys[..|xs|];
    }
  }

  /** Invalidation filters each part of the store separately, so it keeps
      the survivors in their original order. */
  lemma {:induction false} InvalidateAppend(rev: Revision, a: seq<CacheEntry>, b: seq<CacheEntry>, key: seq<string>, exact: bool)
    ensures Invalidate(rev, a + b, key, exact) == Invalidate(rev, a, key, exact) + Invalidate(rev, b, key, exact)
    decreases |a|
  {
    if |a| == 0 {
      assert a + b == b;
    } else {
      assert (a + b)[0] == a[0];
      assert (a + b)[1..] == a[1..] + b;
      InvalidateAppend(rev, a[1..], b, key, exact);
    }
  }

  /** As written, exact invalidation keeps precisely the entries whose path
      has the key's length; as intended, it drops precisely the entries
      under the key. */
  lemma ExactInvalidate(rev: Revision, entries: seq<CacheEntry>, key: seq<string>)
    ensures rev == AsWritten ==>
      forall e :: e in Invalidate(rev, entries, key, true) <==> e in entries && |Path(e)| == |key|
    ensures rev == Intended ==>
      forall e :: e in Invalidate(rev, entries, key, true) <==> e in entries && Path(e) != key
  {
    forall e: CacheEntry {
      ExactMatchIntended(e, key);
    }
  }

  /** Clearing a collection's listing as written keeps that very listing
      and drops every record. */
  lemma ExactInvalidateKeepsTarget(ks: seq<string>, ra: Record)
    ensures ClearKeys(AsWritten, [Listing("posts", ks), Retrieve("users", "a", ra)], "posts")
         == [Listing("posts", ks)]
    ensures ClearKeys(Intended, [Listing("posts", ks), Retrieve("users", "a", ra)], "posts")
         == [Retrieve("users", "a", ra)]
  {
    var es := [Listing("posts", ks), Retrieve("users", "a", ra)];
    assert es[1..] == [Retrieve("users", "a", ra)];
    assert es[1..][1..] == [];
    assert ExactMatch(AsWritten, es[0], KeysKey("posts"));
    assert !ExactMatch(AsWritten, es[1], KeysKey("posts"));
    ExactMatchIntended(es[0], KeysKey("posts"));
    ExactMatchIntended(es[1], KeysKey("posts"));
    assert Invalidate(AsWritten, es[1..], KeysKey("posts"), true) == [];
    assert Invalidate(AsWritten, es, KeysKey("posts"), true) == [es[0]];
    assert Invalidate(Intended, es[1..], KeysKey("posts"), true) == [es[1]];
    assert Invalidate(Intended, es, KeysKey("posts"), true) == [es[1]];
  }

  /** As written the store holds at most one entry per path length, so at
      most two entries and never two under one path. */
  lemma AtMostTwo(entries: seq<CacheEntry>)
    requires OnePerLength(entries)
    ensures |entries| <= 2
    ensures DistinctPaths(entries)
  {
    Pigeonhole(entries);
  }

  /** Among any three entries two have paths of one length. */
  lemma Pigeonhole(entries: seq<CacheEntry>)
    ensures |entries| > 2 ==>
      || |Path(entries[0])| == |Path(entries[1])|
      || |Path(entries[0])| == |Path(entries[2])|
      || |Path(entries[1])| == |Path(entries[2])|
  {
  }

  /** As written, a lookup cannot tell two key paths of one length apart. */
  lemma {:induction false} LookupByLength(entries: seq<CacheEntry>, key: seq<string>, other: seq<string>)
    requires |key| == |other|
    ensures Lookup(AsWritten, entries, key) == Lookup(AsWritten, entries, other)
    decreases |entries|
  {
    if |entries| > 0 {
      LookupByLength(entries[1..], key, other);
    }
  }

  /** As intended, a lookup finds only an entry stored under the very path
      asked for, and a cached record is the one stored for that id. */
  lemma IntendedLookupExact(entries: seq<CacheEntry>, collection: string, id: string)
    ensures Lookup(Intended, entries, RetrieveKey(collection, id)).Some? ==>
      Path(Lookup(Intended, entries, RetrieveKey(collection, id)).value) == RetrieveKey(collection, id)
    ensures CachedRecord(Intended, entries, collection, id).Some? ==>
      Retrieve(collection, id, CachedRecord(Intended, entries, collection, id).value) in entries
  {
    var found := Lookup(Intended, entries, RetrieveKey(collection, id));
    if found.Some? {
      ExactMatchIntended(found.value, RetrieveKey(collection, id));
    }
  }

  /** As written, a cached record answers a read of any other id, in any
      collection, and the wrapped provider is never asked. */
  lemma OtherIdServed<S>(p: Provider<S>, s: S, cached: string, cachedId: string, ra: Record,
                         collection: string, id: string)
    requires collection != "" && '/' !in collection && id != "" && '/' !in id && '.' !in id
    ensures var cs := Cached([Retrieve(cached, cachedId, ra)], s);
      GetByKey(AsWritten, p, cs, ToKey(collection, id)) == Step(Ok(ra), cs)
  {
    ParseSupported(collection, id);
    var e := Retrieve(cached, cachedId, ra);
    ExactMatchAsWritten(e, RetrieveKey(collection, id));
    assert Lookup(AsWritten, [e], RetrieveKey(collection, id)) == Some(e);
  }

  /** As written, a cached listing answers a listing of any other
      collection. */
  lemma OtherListingServed<S>(p: Provider<S>, s: S, cached: string, ks: seq<string>, collection: string)
    ensures var cs := Cached([Listing(cached, ks)], s);
      Keys(AsWritten, p, cs, collection) == Step(Ok(ks), cs)
  {
    var e := Listing(cached, ks);
    ExactMatchAsWritten(e, KeysKey(collection));
    assert Lookup(AsWritten, [e], KeysKey(collection)) == Some(e);
  }

  /** A lookup that finds nothing in the store finds an appended entry
      that matches. */
  lemma {:induction false} LookupAppend(rev: Revision, entries: seq<CacheEntry>, e: CacheEntry, key: seq<string>)
    requires forall x | x in entries :: !ExactMatch(rev, x, key)
    requires ExactMatch(rev, e, key)
    ensures Lookup(rev, entries + [e], key) == Some(e)
    decreases |entries|
  {
    if |entries| == 0 {
      assert entries + [e] == [e];
    } else {
      assert (entries + [e])[1..] == entries[1..] + [e];
      LookupAppend(rev, entries[1..], e, key);
    }
  }

  /** A cached record is served without the wrapped provider: any two
      providers give the same answer, and nothing changes. */
  lemma HitIgnoresInner<S>(rev: Revision, p1: Provider<S>, p2: Provider<S>, cs: Cached<S>, key: string)
    requires ParseKey(key).Ok?
    requires CachedRecord(rev, cs.entries, ParseKey(key).value.collection, ParseKey(key).value.id).Some?
    ensures GetByKey(rev, p1, cs, key) == GetByKey(rev, p2, cs, key)
    ensures GetByKey(rev, p1, cs, key).state == cs
  {
  }

  /** On a miss the wrapped provider is asked once: its result is returned,
      a success is appended to the store, and a failure leaves the store
      as it was. */
  lemma MissAsksInner<S>(rev: Revision, p: Provider<S>, cs: Cached<S>, key: string)
    requires ParseKey(key).Ok?
    requires CachedRecord(rev, cs.entries, ParseKey(key).value.collection, ParseKey(key).value.id).None?
    ensures var fetched := Read(p, cs.inner, key);
      var r := GetByKey(rev, p, cs, key);
      && r.result == fetched.result
      && r.state.inner == fetched.state
      && r.state.entries == if fetched.result.Err? then cs.entries
         else cs.entries + [Retrieve(ParseKey(key).value.collection, ParseKey(key).value.id, fetched.result.value)]
  {
  }

  /** A successful read is remembered: reading the same key again, through
      any wrapped provider, returns the same record and changes nothing. */
  lemma GetByKeyRemembers<S>(rev: Revision, p: Provider<S>, p2: Provider<S>, cs: Cached<S>, key: string)
    requires GetByKey(rev, p, cs, key).result.Ok?
    ensures var first := GetByKey(rev, p, cs, key);
      GetByKey(rev, p2, first.state, key) == first
  {
    var parsed := ParseKey(key).value;
    var c, id := parsed.collection, parsed.id;
    if CachedRecord(rev, cs.entries, c, id).None? {
      var first := GetByKey(rev, p, cs, key);
      var added := Retrieve(c, id, first.result.value);
      RecordMiss(rev, cs.entries, c, id);
      LookupAppend(rev, cs.entries, added, RetrieveKey(c, id));
      assert first.state.entries == cs.entries + [added];
    }
  }

  /** A successful listing is remembered in the same way; as written, a
      listing that missed leaves the store holding that listing alone. */
  lemma KeysRemembers<S>(rev: Revision, p: Provider<S>, p2: Provider<S>, cs: Cached<S>, collection: string)
    requires Keys(rev, p, cs, collection).result.Ok?
    ensures var first := Keys(rev, p, cs, collection);
      Keys(rev, p2, first.state, collection) == first
    ensures CachedKeys(rev, cs.entries, collection).None? && rev == AsWritten ==>
      Keys(rev, p, cs, collection).state.entries == [Listing(collection, Keys(rev, p, cs, collection).result.value)]
  {
    if CachedKeys(rev, cs.entries, collection).None? {
      var first := Keys(rev, p, cs, collection);
      var added := Listing(collection, first.result.value);
      var kept := Invalidate(rev, cs.entries, KeysKey(collection), true);
      ListingMiss(rev, cs.entries, collection);
      LookupAppend(rev, kept, added, KeysKey(collection));
      KeepNone(rev, cs.entries, KeysKey(collection));
    }
  }

  /** As written, exact invalidation by a key no entry matches empties the
      store. */
  lemma KeepNone(rev: Revision, entries: seq<CacheEntry>, key: seq<string>)
    ensures rev == AsWritten && (forall x | x in entries :: !ExactMatch(rev, x, key)) ==>
      Invalidate(rev, entries, key, true) == []
  {
    var r := Invalidate(rev, entries, key, true);
    if r != [] {
      assert r[0] in r;
    }
  }

  /** After a successful upsert the written record is served from the
      store, whatever provider is wrapped, in both revisions. */
  lemma UpsertThenGet<S>(rev: Revision, p: Provider<S>, p2: Provider<S>, cs: Cached<S>, collection: string, data: Record)
    requires collection != "" && '/' !in collection && data.id != "" && '/' !in data.id && '.' !in data.id
    requires Upsert(rev, p, cs, collection, data).result.Ok?
    ensures var after := Upsert(rev, p, cs, collection, data).state;
      GetByKey(rev, p2, after, ToKey(collection, data.id)) == Step(Ok(data), after)
  {
    UpsertCaches(rev, p, cs, collection, data);
    ParseSupported(collection, data.id);
  }

  /** After a successful upsert the lookup of the written id finds the
      entry just stored. */
  lemma UpsertCaches<S>(rev: Revision, p: Provider<S>, cs: Cached<S>, collection: string, data: Record)
    requires Upsert(rev, p, cs, collection, data).result.Ok?
    ensures var after := Upsert(rev, p, cs, collection, data).state;
      Lookup(rev, after.entries, RetrieveKey(collection, data.id)) == Some(Retrieve(collection, data.id, data))
  {
    var after := Upsert(rev, p, cs, collection, data).state;
    var key := RetrieveKey(collection, data.id);
    var n := |after.entries| - 1;
    var kept := after.entries[..n];
    assert after.entries == kept + [after.entries[n]];
    forall x | x in kept ensures !ExactMatch(rev, x, key) {
      ExactMatchIntended(x, key);
    }
    LookupAppend(rev, kept, Retrieve(collection, data.id, data), key);
  }

  /** After a successful delete neither the record nor the collection's
      listing is cached, so the next read and the next listing reach the
      wrapped provider, in both revisions. */
  lemma DeleteThenMiss<S>(rev: Revision, p: Provider<S>, cs: Cached<S>, collection: string, id: string)
    requires DeleteObject(rev, p, cs, collection, id).result.Ok?
    ensures var after := DeleteObject(rev, p, cs, collection, id).state;
      CachedRecord(rev, after.entries, collection, id).None? && CachedKeys(rev, after.entries, collection).None?
  {
    var after := DeleteObject(rev, p, cs, collection, id).state;
    forall x | x in after.entries
      ensures !ExactMatch(rev, x, RetrieveKey(collection, id)) && !ExactMatch(rev, x, KeysKey(collection))
    {
      ExactMatchIntended(x, RetrieveKey(collection, id));
      ExactMatchIntended(x, KeysKey(collection));
    }
    RecordMiss(rev, after.entries, collection, id);
    ListingMiss(rev, after.entries, collection);
  }

  /** As intended, an upsert drops only the written id's record and the
      collection's listing; every other entry survives. */
  lemma IntendedUpsertKeepsOthers<S>(p: Provider<S>, cs: Cached<S>, collection: string, data: Record)
    requires Upsert(Intended, p, cs, collection, data).result.Ok?
    ensures forall e | e in cs.entries && Path(e) != RetrieveKey(collection, data.id) && Path(e) != KeysKey(collection) ::
      e in Upsert(Intended, p, cs, collection, data).state.entries
  {
    var cleared := ClearKeys(Intended, cs.entries, collection);
    ExactInvalidate(Intended, cs.entries, KeysKey(collection));
    ExactInvalidate(Intended, cleared, RetrieveKey(collection, data.id));
  }

  /** As intended, a delete drops only that id's record and the collection's
      listing; every other entry survives. */
  lemma IntendedDeleteKeepsOthers<S>(p: Provider<S>, cs: Cached<S>, collection: string, id: string)
    requires DeleteObject(Intended, p, cs, collection, id).result.Ok?
    ensures forall e | e in cs.entries && Path(e) != RetrieveKey(collection, id) && Path(e) != KeysKey(collection) ::
      e in DeleteObject(Intended, p, cs, collection, id).state.entries
  {
    var once := ClearRetrieve(Intended, cs.entries, collection, id);
    ExactInvalidate(Intended, cs.entries, RetrieveKey(collection, id));
    ExactInvalidate(Intended, once, KeysKey(collection));
  }

  /** As written, writing one record discards every other cached value,
      even another collection's listing. */
  lemma UpsertDropsOthers<S>(p: Provider<S>, s: S, ks: seq<string>, data: Record)
    requires p.upsert(s, "posts", data).result.Ok?
    ensures Listing("users", ks) !in Upsert(AsWritten, p, Cached([Listing("users", ks)], s), "posts", data).state.entries
  {
  }
}

=== FILE: clyde.dfy ===
/** The first client, over object storage: the same operations as closures
    over one bucket. Its read does not translate a missing key, its writes
    return nothing, createMany creates each record through create, and
    deleteMany refuses ids that exist. */
module Clyde {
  import opened Base
  import opened Storage
  import opened ObjectStore
  import opened Providers
  import opened Key
  import Operations
  import S3Provider
  import S3Adapter

  /** getByKey: a stored body is parsed, an object without a body is
      `NoBody`, and every failure, a missing key included, propagates. */
  function GetByKey(st: Store, key: string): (r: Result<Record>)
    ensures r.Ok? <==> key !in st.faults && key in Contents(st) && Contents(st)[key].Some?
    ensures r.Ok? ==> Contents(st)[key] == Some(r.value)
    ensures key in st.faults ==> r == Err(Native(st.faults[key]))
    ensures key !in st.faults && key !in Contents(st) ==> r == Err(Native(NoSuchKey))
    ensures r == Err(NoBody) <==> key !in st.faults && key in Contents(st) && Contents(st)[key].None?
  {
    match GetObject(st, key)
    case Threw(f) => Err(Native(f))
    case Done(None) => Err(NoBody)
    case Done(Some(record)) => Ok(record)
  }

  function GetById(st: Store, collection: string, id: string): (r: Result<Record>)
    ensures r == GetByKey(st, ToKey(collection, id))
  {
    GetByKey(st, collection + "/" + id + ".json")
  }

  /** exists: the provider's check; `NotFound` is `false`. */
  function Exists(st: Store, collection: string, id: string): (r: Result<bool>)
    ensures var key := ToKey(collection, id);
      if key !in st.faults then r == Ok(key in Contents(st))
      else if st.faults[key] == NotFound then r == Ok(false)
      else r == Err(Native(st.faults[key]))
  {
    S3Provider.Exists(st, collection, id)
  }

  /** count: the length of one un-paginated listing. */
  function Count(st: Store, collection: string): (r: Result<nat>)
    ensures var all := Under(st.objects, collection + "/");
      if collection + "/" in st.faults then r == Err(Native(st.faults[collection + "/"]))
      else r == Ok(S3Adapter.Capped(|all|))
  {
    var keys :- S3Adapter.ListEntries(st, collection);
    Ok(|keys|)
  }

  function ReadCall(): (Store, string) -> Step<Record, Store> {
    (s, key) => Step(GetByKey(s, key), s)
  }

  /** all: reads every key of one un-paginated listing. No read settles
      before it awaits `GetObject`, and none changes the store, so the
      reads one after another are the reads overlapped. */
  function All(st: Store, collection: string): (r: Step<seq<Record>, Store>)
    ensures r.state == st
    ensures S3Adapter.ListEntries(st, collection).Err? ==> r.result == Err(S3Adapter.ListEntries(st, collection).error)
    ensures r.result.Ok? ==> |r.result.value| == |S3Adapter.ListEntries(st, collection).value|
  {
    match S3Adapter.ListEntries(st, collection)
    case Err(e) => Step(Err(e), st)
    case Ok(keys) =>
      FanOutPure(st, keys, ReadCall());
      FanOut(st, keys, ReadCall())
  }

  /** upsert: writes the record and returns nothing. */
  function Upsert(st: Store, collection: string, data: Record): (r: Step<(), Store>)
    ensures var key := ToKey(collection, data.id);
      if key in st.faults then r == Step(Err(Native(st.faults[key])), st)
      else r == Step(Ok(()), Write(st, key, Some(data)))
  {
    match PutObject(st, collection + "/" + data.id + ".json", data)
    case Effect(Done(_), after) => Step(Ok(()), after)
    case Effect(Threw(f), after) => Step(Err(Native(f)), after)
  }

  /** create: `DuplicateKey` when the id exists, otherwise an upsert. */
  function Create(st: Store, collection: string, data: Record): Step<(), Store>
  {
    match Exists(st, collection, data.id)
    case Err(e) => Step(Err(e), st)
    case Ok(true) => Step(Err(DuplicateKey), st)
    case Ok(false) => Upsert(st, collection, data)
  }

  /** update: `KeyNotFound` when the id does not exist, otherwise an upsert. */
  function Update(st: Store, collection: string, data: Record): Step<(), Store>
  {
    match Exists(st, collection, data.id)
    case Err(e) => Step(Err(e), st)
    case Ok(false) => Step(Err(KeyNotFound), st)
    case Ok(true) => Upsert(st, collection, data)
  }

  function ExistsCall(collection: string): (Store, string) -> Step<bool, Store> {
    (s, id) => Step(Exists(s, collection, id), s)
  }

  function RecordExistsCall(collection: string): (Store, Record) -> Step<bool, Store> {
    (s, data: Record) => Step(Exists(s, collection, data.id), s)
  }

  /** One `create` of `Promise.all(data.map(data => create(collection,
      data)))` that began on store `start`. Its existence check is awaited
      before its write is sent, and every check goes out before any write,
      so every check sees `start`; the write, or the refusal, then runs on
      the store current when the check returns. */
  function CreateFrom(start: Store, collection: string): (Store, Record) -> Step<(), Store> {
    (s, data: Record) =>
      match Exists(start, collection, data.id)
      case Err(e) => Step(Err(e), s)
      case Ok(true) => Step(Err(DuplicateKey), s)
      case Ok(false) => Upsert(s, collection, data)
  }

  function DeleteCall(collection: string): (Store, string) -> Step<(), Store> {
    (s, id) => DeleteObject(s, collection, id)
  }

  /** createMany: `DuplicateKey` when any id exists, otherwise creates every
      record, each through `create`, in one `Promise.all`. */
  function CreateMany(st: Store, collection: string, data: seq<Record>): Step<(), Store>
  {
    var asked := FanOut(st, data, RecordExistsCall(collection));
    match asked.result
    case Err(e) => Step(Err(e), asked.state)
    case Ok(flags) =>
      if Operations.AnyTrue(flags) then Step(Err(DuplicateKey), asked.state)
      else Operations.Discard(FanOut(asked.state, data, CreateFrom(asked.state, collection)))
  }

  /** deleteObject: the provider's delete. */
  function DeleteObject(st: Store, collection: string, id: string): (r: Step<(), Store>)
    ensures var key := ToKey(collection, id);
      if key in st.faults then r == Step(Err(Native(st.faults[key])), st)
      else r.result == Ok(()) && r.state == Erase(st, key)
  {
    S3Provider.DeleteObject(st, collection, id)
  }

  /** deleteMany: `DuplicateKey` when any id exists, otherwise deletes every
      id. */
  function DeleteMany(st: Store, collection: string, ids: seq<string>): Step<(), Store>
  {
    var asked := FanOut(st, ids, ExistsCall(collection));
    match asked.result
    case Err(e) => Step(Err(e), asked.state)
    case Ok(flags) =>
      if Operations.AnyTrue(flags) then Step(Err(DuplicateKey), asked.state)
      else Operations.Discard(FanOut(asked.state, ids, DeleteCall(collection)))
  }

  /** deleteAll: for every listed key, deletes `collection/<key>.json`. */
  function DeleteAll(st: Store, collection: string): Step<(), Store>
  {
    match S3Adapter.ListEntries(st, collection)
    case Err(e) => Step(Err(e), st)
    case Ok(keys) => Operations.Discard(FanOut(st, keys, DeleteCall(collection)))
  }
}

=== FILE: disk.dfy ===
/** The filesystem as the `fs` calls observe it. Directories are implicit: a
    directory exists while some stored path lies beneath it. A call on a path
    listed in the store's faults throws that fault. */
module Disk {
  import opened Base
  import opened Text
  import opened Storage

  /** What a path names on the filesystem the store stands for. A stored
      key is a file, and a directory exists while some stored path lies
      beneath it. A path that runs through a file names nothing, and calls
      on it fail with `Enotdir`. */
  datatype Node = File(body: Option<Record>) | Directory | BelowFile | Missing

  /** The text of `path` before its '/' at position `i` is a stored file. */
  predicate FileAbove(st: Store, path: string, i: int) {
    0 <= i < |path| && path[i] == '/' && path[..i] in Contents(st)
  }

  /** Some proper prefix of `path` that ends before a '/' is a stored file. */
  predicate ThroughFile(st: Store, path: string) {
    exists i | 0 <= i < |path| :: FileAbove(st, path, i)
  }

  function At(st: Store, path: string): (n: Node)
    ensures n.File? <==> path in Contents(st)
    ensures n.File? ==> n.body == Contents(st)[path]
    ensures n.BelowFile? <==> path !in Contents(st) && ThroughFile(st, path)
    ensures n.Directory? ==> Under(st.objects, path + "/") != []
    ensures n.Missing? ==> Under(st.objects, path + "/") == []
  {
    if path in Contents(st) then File(Contents(st)[path])
    else if ThroughFile(st, path) then BelowFile
    else if Under(st.objects, path + "/") != [] then Directory
    else Missing
  }

  /** A store a filesystem can hold: no stored file lies below another. */
  ghost predicate Tree(st: Store) {
    forall k | k in Contents(st) :: !ThroughFile(st, k)
  }

  /** In a tree, a stored file has no file above it and nothing below it. */
  lemma TreeFileAlone(st: Store, key: string)
    requires Tree(st) && key in Contents(st)
    ensures !ThroughFile(st, key) && Under(st.objects, key + "/") == []
  {
    var below := Under(st.objects, key + "/");
    if below != [] {
      NothingBelowFile(st, key, below[0]);
    }
  }

  /** In a tree, no stored path lies beneath a stored file. */
  lemma NothingBelowFile(st: Store, key: string, k: string)
    requires Tree(st) && key in Contents(st)
    ensures k in Contents(st) ==> !(key + "/" <= k)
  {
    if key + "/" <= k {
      assert k[..|key| + 1] == key + "/";
      assert k[..|key|] == key;
      assert |key| < |k| && k[|key|] == '/';
      assert k in Contents(st) ==> FileAbove(st, k, |key|);
    }
  }

  /** Writing a path with no file above it and nothing below it keeps the
      store a tree. */
  lemma WriteKeepsTree(st: Store, path: string, body: Option<Record>)
    requires Tree(st) && !ThroughFile(st, path) && Under(st.objects, path + "/") == []
    ensures Tree(Write(st, path, body))
  {
    forall k | k in Contents(Write(st, path, body)) ensures !ThroughFile(Write(st, path, body), k) {
      WrittenStaysClear(st, path, body, k);
    }
  }

  lemma WrittenStaysClear(st: Store, path: string, body: Option<Record>, k: string)
    requires Tree(st) && !ThroughFile(st, path) && Under(st.objects, path + "/") == []
    requires k in Contents(Write(st, path, body))
    ensures !ThroughFile(Write(st, path, body), k)
  {
    forall i | 0 <= i < |k| && k[i] == '/' ensures !FileAbove(Write(st, path, body), k, i) {
      NoWrittenFileAbove(st, path, body, k, i);
    }
  }

  /** After the write, the text of a stored path before one of its '/' is
      not a stored file. */
  lemma NoWrittenFileAbove(st: Store, path: string, body: Option<Record>, k: string, i: int)
    requires Tree(st) && !ThroughFile(st, path) && Under(st.objects, path + "/") == []
    requires 0 <= i < |k| && k[i] == '/'
    ensures k in Contents(Write(st, path, body)) ==> k[..i] !in Contents(Write(st, path, body))
  {
    if k[..i] == path {
      assert k[..i + 1] == path + "/";
      assert k !in Under(st.objects, path + "/");
    } else if k == path {
      assert !FileAbove(st, path, i);
    } else {
      assert k in Contents(st) ==> !FileAbove(st, k, i);
    }
  }

  /** In a tree, once a stored file is removed nothing is at its path. */
  lemma ErasedFileMissing(st: Store, key: string)
    requires Tree(st) && key in Contents(st)
    ensures At(Erase(st, key), key).Missing?
  {
    var gone := Erase(st, key);
    TreeFileAlone(st, key);
    forall i | 0 <= i < |key| ensures !FileAbove(gone, key, i) {
      assert !FileAbove(st, key, i);
    }
    assert !ThroughFile(gone, key);
    var below := Under(gone.objects, key + "/");
    if below != [] {
      ErasedHoldsNothingBelow(st, key, below[0]);
    }
    assert below == [];
  }

  lemma ErasedHoldsNothingBelow(st: Store, key: string, k: string)
    requires Under(st.objects, key + "/") == []
    ensures k in Contents(Erase(st, key)) ==> !(key + "/" <= k)
  {
    if k in Contents(Erase(st, key)) {
      assert k in Contents(st);
      assert k !in Under(st.objects, key + "/");
    }
  }

  /** Removing a file keeps the store a tree. */
  lemma EraseKeepsTree(st: Store, path: string)
    requires Tree(st)
    ensures Tree(Erase(st, path))
  {
    var after := Erase(st, path);
    forall k | k in Contents(after) ensures !ThroughFile(after, k) {
      if i :| 0 <= i < |k| && FileAbove(after, k, i) {
        assert FileAbove(st, k, i);
      }
    }
  }

  /** The text before the last '/' of `path`, the directory `path.dirname`
      gives for a path that does not end in '/'. */
  function Dirname(path: string): Option<string> {
    if |path| == 0 then None
    else if path[|path| - 1] == '/' then Some(path[..|path| - 1])
    else Dirname(path[..|path| - 1])
  }

  /** The fault a file call raises on a path that names no file. */
  function NoFile(n: Node): Fault {
    match n
    case Directory => Eisdir
    case BelowFile => Enotdir
    case _ => Enoent
  }

  /** readFile: the file's content; `Eisdir` on a directory, `Enotdir`
      below a file and `Enoent` when nothing is there. */
  function ReadFile(st: Store, path: string): Outcome<Option<Record>> {
    if path in st.faults then Threw(st.faults[path])
    else match At(st, path)
      case File(body) => Done(body)
      case other => Threw(NoFile(other))
  }

  /** access: succeeds when a file or a directory is at the path. */
  function Access(st: Store, path: string): Outcome<()> {
    if path in st.faults then Threw(st.faults[path])
    else match At(st, path)
      case File(_) => Done(())
      case Directory => Done(())
      case other => Threw(NoFile(other))
  }

  /** mkdir of the parent directory with `recursive`, then writeFile. The
      mkdir fails with `Eexist` when the parent is itself a file and with
      `Enotdir` when a file lies further up; writeFile fails with `Eisdir`
      on a directory. */
  function WriteFile(st: Store, path: string, record: Record): Effect<()> {
    if path in st.faults then Effect(Threw(st.faults[path]), st)
    else match At(st, path)
      case BelowFile =>
        var parent := Dirname(path);
        Effect(Threw(if parent.Some? && parent.value in Contents(st) then Eexist else Enotdir), st)
      case Directory => Effect(Threw(Eisdir), st)
      case _ => Effect(Done(()), Write(st, path, Some(record)))
  }

  /** unlink: removes the file; `Eisdir` on a directory (as on Linux),
      `Enotdir` below a file and `Enoent` when nothing is there. */
  function Unlink(st: Store, path: string): Effect<()> {
    if path in st.faults then Effect(Threw(st.faults[path]), st)
    else match At(st, path)
      case File(_) => Effect(Done(()), Erase(st, path))
      case other => Effect(Threw(NoFile(other)), st)
  }

  /** One directory entry as readdir's `withFileTypes` reports it. */
  datatype Dirent = Dirent(name: string, isDirectory: bool)

  /** The entries of the directory whose paths start with `prefix`, in
      listing order: a file for every path directly inside it, and each
      subdirectory once, where the first path beneath it appears. */
  function Entries(objs: seq<Obj>, prefix: string, seen: set<string>): seq<Dirent>
  {
    if |objs| == 0 then []
    else if !(prefix <= objs[0].key) then Entries(objs[1..], prefix, seen)
    else
      var rest := objs[0].key[|prefix|..];
      match IndexOf(rest, '/')
      case None => [Dirent(rest, false)] + Entries(objs[1..], prefix, seen)
      case Some(i) =>
        if rest[..i] in seen then Entries(objs[1..], prefix, seen)
        else [Dirent(rest[..i], true)] + Entries(objs[1..], prefix, seen + {rest[..i]})
  }

  /** readdir: the entries of directory `dir`, `Enoent` when it does not exist. */
  function Readdir(st: Store, dir: string): Outcome<seq<Dirent>> {
    if dir in st.faults then Threw(st.faults[dir])
    else if Under(st.objects, dir + "/") == [] then Threw(Enoent)
    else Done(Entries(st.objects, dir + "/", {}))
  }
}

=== FILE: fs_adapter.dfy ===
/** The older filesystem adapter. Its existence check, writes, deletes and
    listing filter are the provider's, and its create, update, createMany
    and deleteMany follow the same rules as the operations layer; its read
    does not translate a missing file, and its deleteAll passes each
    listed path as an id. */
module FsAdapter {
  import opened Base
  import opened Storage
  import opened Disk
  import opened Providers
  import Operations
  import FsProvider

  /** getByKey: reads and parses the file; every failure propagates as the
      filesystem or JSON.parse raised it. */
  function GetByKey(st: Store, key: string): (r: Result<Record>)
    ensures r.Ok? <==> key !in st.faults && key in Contents(st) && Contents(st)[key].Some?
    ensures r.Ok? ==> Contents(st)[key] == Some(r.value)
    ensures key in st.faults ==> r == Err(Native(st.faults[key]))
    ensures key !in st.faults && key !in Contents(st) ==> r == Err(Native(NoFile(At(st, key))))
    ensures key !in st.faults && key in Contents(st) && Contents(st)[key].None? ==> r == Err(Native(SyntaxError))
  {
    match ReadFile(st, key)
    case Threw(f) => Err(Native(f))
    case Done(None) => Err(Native(SyntaxError))
    case Done(Some(record)) => Ok(record)
  }

  /** listEntries: the names of the non-directory entries of the
      collection's directory; a missing directory lists nothing. */
  function ListEntries(st: Store, collection: string): (r: Result<seq<string>>)
    ensures collection !in st.faults ==> r == Ok(FsProvider.DirectFiles(st.objects, collection + "/"))
    ensures collection in st.faults ==>
      r == if st.faults[collection] == Enoent then Ok([]) else Err(Native(st.faults[collection]))
  {
    match Readdir(st, collection)
    case Threw(Enoent) =>
      FsProvider.NoFilesWhenEmpty(st.objects, collection + "/");
      Ok([])
    case Threw(f) => Err(Native(f))
    case Done(entries) =>
      FsProvider.EntriesFiles(st.objects, collection + "/", {});
      Ok(FsProvider.FileNames(entries))
  }

  /** The adapter's primitives in the provider shape; `all` reads
      `collection/<name>` for every listed name, which is the provider's
      listing. */
  function Instance(): (p: Provider<Store>)
    ensures p.objectExists == FsProvider.Instance().objectExists
    ensures p.keys == FsProvider.Instance().keys
    ensures p.upsert == FsProvider.Instance().upsert
    ensures p.deleteObject == FsProvider.Instance().deleteObject
    ensures p.readSettled == FsProvider.Instance().readSettled
    ensures forall st, key :: p.readAwaited(st, key) == Step(GetByKey(st, key), st)
  {
    FsProvider.Instance().(readAwaited := (st, key) => Step(GetByKey(st, key), st))
  }

  /** deleteAll: for every listed name, deletes the record whose id is
      `collection/<name>`, that is the file `collection/collection/<name>.json`
      (for `x.json`, `collection/collection/x.json.json`). */
  function DeleteAll(st: Store, collection: string): Step<(), Store>
  {
    match ListEntries(st, collection)
    case Err(e) => Step(Err(e), st)
    case Ok(names) =>
      var ids := FsProvider.InCollection(collection, names);
      Operations.Discard(FanOut(st, ids, Operations.DeleteCall(Instance(), collection)))
  }
}

=== FILE: fs_provider.dfy ===
/** The filesystem provider: each record is a file `collection/id.json`
    under the base directory, and a collection is a directory. */
module FsProvider {
  import opened Base
  import opened Storage
  import opened Disk
  import opened Providers
  import opened Key

  /** getByKey: a missing file is `KeyNotFound`, any other read failure
      (a directory at the path, a file above it) propagates, and content
      that does not parse as a document makes JSON.parse throw. */
  function GetByKey(st: Store, key: string): (r: Result<Record>)
    ensures r.Ok? <==> key !in st.faults && key in Contents(st) && Contents(st)[key].Some?
    ensures r.Ok? ==> Contents(st)[key] == Some(r.value)
    ensures r == Err(KeyNotFound) <==>
      if key in st.faults then st.faults[key] == Enoent else At(st, key).Missing?
    ensures key !in st.faults && At(st, key).Directory? ==> r == Err(Native(Eisdir))
    ensures key !in st.faults && At(st, key).BelowFile? ==> r == Err(Native(Enotdir))
    ensures r == Err(Native(SyntaxError)) <==>
      if key in st.faults then st.faults[key] == SyntaxError
      else key in Contents(st) && Contents(st)[key].None?
    ensures key in st.faults && st.faults[key] != Enoent ==> r == Err(Native(st.faults[key]))
  {
    match ReadFile(st, key)
    case Threw(Enoent) => Err(KeyNotFound)
    case Threw(f) => Err(Native(f))
    case Done(None) => Err(Native(SyntaxError))
    case Done(Some(record)) => Ok(record)
  }

  /** exists: `true` when access succeeds and `false` on any failure, so
      this call never fails. A directory at the path counts as existing. */
  function Exists(st: Store, collection: string, id: string): (r: Result<bool>)
    ensures var key := ToKey(collection, id);
      r == Ok(key !in st.faults && (key in Contents(st) || At(st, key).Directory?))
  {
    match Access(st, ToKey(collection, id))
    case Done(_) => Ok(true)
    case Threw(_) => Ok(false)
  }

  /** The names of the entries that are not directories, in order. */
  function FileNames(entries: seq<Dirent>): (names: seq<string>)
    ensures forall n :: n in names <==> Dirent(n, false) in entries
  {
    if |entries| == 0 then []
    else (if entries[0].isDirectory then [] else [entries[0].name]) + FileNames(entries[1..])
  }

  /** The names of the files directly inside the directory whose paths
      start with `prefix`, in listing order. */
  function DirectFiles(objs: seq<Obj>, prefix: string): (names: seq<string>)
    ensures forall n :: n in names <==> '/' !in n && prefix + n in KeyList(objs)
  {
    if |objs| == 0 then []
    else
      var key := objs[0].key;
      var rest := DirectFiles(objs[1..], prefix);
      KeyListCons(objs);
      assert forall n :: prefix + n == key <==> prefix <= key && n == key[|prefix|..];
      if prefix <= key && '/' !in key[|prefix|..] then [key[|prefix|..]] + rest else rest
  }

  /** Whatever directories were already reported, the file entries of a
      listing are exactly the files directly inside the directory. */
  lemma {:induction false} EntriesFiles(objs: seq<Obj>, prefix: string, seen: set<string>)
    ensures FileNames(Entries(objs, prefix, seen)) == DirectFiles(objs, prefix)
    decreases |objs|
  {
    if |objs| > 0 {
      var key := objs[0].key;
      if prefix <= key {
        var rest := key[|prefix|..];
        match Text.IndexOf(rest, '/')
        case None =>
          EntriesFiles(objs[1..], prefix, seen);
          var es := Entries(objs[1..], prefix, seen);
          assert ([Dirent(rest, false)] + es)[1..] == es;
        case Some(i) =>
          if rest[..i] in seen {
            EntriesFiles(objs[1..], prefix, seen);
          } else {
            EntriesFiles(objs[1..], prefix, seen + {rest[..i]});
            var es := Entries(objs[1..], prefix, seen + {rest[..i]});
            assert ([Dirent(rest[..i], true)] + es)[1..] == es;
          }
      } else {
        EntriesFiles(objs[1..], prefix, seen);
      }
    }
  }

  /** A directory with nothing beneath it holds no files. */
  lemma NoFilesWhenEmpty(objs: seq<Obj>, prefix: string)
    ensures Under(objs, prefix) == [] ==> DirectFiles(objs, prefix) == []
  {
    var names := DirectFiles(objs, prefix);
    if names != [] {
      assert prefix + names[0] in Under(objs, prefix);
    }
  }

  /** `collection + "/" + name` for each name: what `path.posix.join`
      gives for a plain collection name, one that is not empty, not `.` or
      `..`, and does not end in '/'. */
  function InCollection(collection: string, names: seq<string>): (keys: seq<string>)
    ensures |keys| == |names|
    ensures forall i | 0 <= i < |names| :: keys[i] == collection + "/" + names[i]
  {
    if |names| == 0 then [] else [collection + "/" + names[0]] + InCollection(collection, names[1..])
  }

  /** keys: reads the collection's directory; a missing directory is an
      empty collection, and subdirectories are skipped. */
  function Keys(st: Store, collection: string): (r: Result<seq<string>>)
    ensures collection !in st.faults ==>
      r == Ok(InCollection(collection, DirectFiles(st.objects, collection + "/")))
    ensures collection in st.faults ==>
      r == if st.faults[collection] == Enoent then Ok([]) else Err(Native(st.faults[collection]))
  {
    match Readdir(st, collection)
    case Threw(Enoent) => Ok([])
    case Threw(f) => Err(Native(f))
    case Done(entries) =>
      EntriesFiles(st.objects, collection + "/", {});
      Ok(InCollection(collection, FileNames(entries)))
  }

  /** The keys the filesystem lists are the stored keys directly inside the
      collection's directory; nested paths are not listed. */
  lemma KeysMembership(st: Store, collection: string, key: string)
    requires collection !in st.faults
    ensures key in Keys(st, collection).value <==>
      key in Contents(st) && collection + "/" <= key && '/' !in key[|collection| + 1..]
  {
    var prefix := collection + "/";
    var names := DirectFiles(st.objects, prefix);
    assert Keys(st, collection).value == InCollection(collection, names);
    InCollectionMembership(collection, names, key);
    if prefix <= key {
      var n := key[|prefix|..];
      assert prefix + n == key;
      assert n in names <==> '/' !in n && key in KeyList(st.objects);
    }
  }

  lemma InCollectionMembership(collection: string, names: seq<string>, key: string)
    ensures key in InCollection(collection, names) <==>
      collection + "/" <= key && key[|collection| + 1..] in names
  {
    var prefix := collection + "/";
    var keys := InCollection(collection, names);
    if key in keys {
      var i :| 0 <= i < |keys| && keys[i] == key;
      assert key == prefix + names[i];
      assert key[|prefix|..] == names[i];
    }
    if prefix <= key && key[|prefix|..] in names {
      var i :| 0 <= i < |names| && names[i] == key[|prefix|..];
      assert keys[i] == prefix + key[|prefix|..] == key;
    }
  }

  /** When no key under the collection lies in a subdirectory, the
      directory listing names exactly the keys a prefix listing returns, in
      the same order. */
  lemma {:induction false} FlatListing(objs: seq<Obj>, collection: string)
    requires forall k | k in Under(objs, collection + "/") :: '/' !in k[|collection| + 1..]
    ensures InCollection(collection, DirectFiles(objs, collection + "/")) == Under(objs, collection + "/")
    decreases |objs|
  {
    var prefix := collection + "/";
    if |objs| > 0 {
      KeyListCons(objs);
      forall k | k in Under(objs[1..], prefix) ensures k in Under(objs, prefix) {
        assert k in KeyList(objs[1..]);
      }
      FlatListing(objs[1..], collection);
      var key := objs[0].key;
      if prefix <= key {
        assert key in Under(objs, prefix);
        assert prefix + key[|prefix|..] == key;
      }
    }
  }

  /** upsert: creates the directories and writes the file. It fails,
      changing nothing, when a directory is at the path or a file lies above
      it. */
  function Upsert(st: Store, collection: string, data: Record): (r: Step<Record, Store>)
    ensures var key := ToKey(collection, data.id);
      if key in st.faults then r == Step(Err(Native(st.faults[key])), st)
      else if At(st, key).Directory? then r == Step(Err(Native(Eisdir)), st)
      else if At(st, key).BelowFile? then
        var parent := Dirname(key);
        r == Step(Err(Native(if parent.Some? && parent.value in Contents(st) then Eexist else Enotdir)), st)
      else r.result == Ok(data) && r.state == Write(st, key, Some(data))
  {
    match WriteFile(st, ToKey(collection, data.id), data)
    case Effect(Done(_), after) => Step(Ok(data), after)
    case Effect(Threw(f), after) => Step(Err(Native(f)), after)
  }

  /** deleteObject: unlinks the file; unlike object storage, a missing file
      is an error, and so is a directory or a file above the path. */
  function DeleteObject(st: Store, collection: string, id: string): (r: Step<(), Store>)
    ensures var key := ToKey(collection, id);
      if key in st.faults then r == Step(Err(Native(st.faults[key])), st)
      else if At(st, key).Missing? then r == Step(Err(Native(Enoent)), st)
      else if At(st, key).Directory? then r == Step(Err(Native(Eisdir)), st)
      else if At(st, key).BelowFile? then r == Step(Err(Native(Enotdir)), st)
      else r.result == Ok(()) && r.state == Erase(st, key)
  {
    match Unlink(st, ToKey(collection, id))
    case Effect(Done(_), after) => Step(Ok(()), after)
    case Effect(Threw(f), after) => Step(Err(Native(f)), after)
  }

  /** upsert keeps the store a tree: it writes only a path that is a file
      or holds nothing. */
  lemma UpsertKeepsTree(st: Store, collection: string, data: Record)
    requires Tree(st)
    ensures Tree(Upsert(st, collection, data).state)
  {
    var key := ToKey(collection, data.id);
    if key !in st.faults && !At(st, key).Directory? && !At(st, key).BelowFile? {
      if key in Contents(st) {
        TreeFileAlone(st, key);
      }
      WriteKeepsTree(st, key, Some(data));
    }
  }

  /** deleteObject keeps the store a tree. */
  lemma DeleteKeepsTree(st: Store, collection: string, id: string)
    requires Tree(st)
    ensures Tree(DeleteObject(st, collection, id).state)
  {
    EraseKeepsTree(st, ToKey(collection, id));
  }

  /** The provider over the filesystem. Reads leave the store unchanged, and
      none settles before it awaits `readFile`. */
  function Instance(): Provider<Store> {
    Provider(
      (st, key) => None,
      (st, key) => Step(GetByKey(st, key), st),
      (st, collection, id) => Step(Exists(st, collection, id), st),
      (st, collection) => Step(Keys(st, collection), st),
      (st, collection, data) => Upsert(st, collection, data),
      (st, collection, id) => DeleteObject(st, collection, id))
  }
}

=== FILE: key.dfy ===
/** The `collection/id.json` key scheme. */
module Key {
  import opened Base
  import opened Text

  /** The storage key of record `id` in `collection`. */
  function ToKey(collection: string, id: string): string {
    collection + "/" + id + ".json"
  }

  datatype Parsed = Parsed(collection: string, id: string)

  /** Decodes a key. The collection is the text before the first '/'; the id
      is the second '/'-separated segment cut at its first '.'. A key with no
      '/' has no second segment, and reading it throws a TypeError
      (`NoFileSegment`); an empty collection or id is `InvalidKey`. */
  function ParseKey(key: string): (r: Result<Parsed>)
    ensures r.Err? ==> r.error in {NoFileSegment, InvalidKey}
    ensures r == Err(NoFileSegment) <==> '/' !in key
    ensures r.Ok? ==> r.value.collection != "" && '/' !in r.value.collection
    ensures r.Ok? ==> r.value.id != "" && '/' !in r.value.id && '.' !in r.value.id
    ensures r.Ok? ==> r.value.collection + "/" <= key
  {
    var segments := Split(key, '/');
    if |segments| < 2 then Err(NoFileSegment)
    else
      var collection := segments[0];
      var id := Split(segments[1], '.')[0];
      assert key == collection + "/" + Join(segments[1..], '/');
      assert '/' !in id by {
        assert Join(Split(segments[1], '.'), '.') == segments[1];
        JoinHead(Split(segments[1], '.'), '.');
      }
      if collection == "" || id == "" then Err(InvalidKey)
      else Ok(Parsed(collection, id))
  }

  /** The first piece is a prefix of the joined text. */
  lemma JoinHead(parts: seq<string>, sep: char)
    requires |parts| >= 1
    ensures parts[0] <= Join(parts, sep)
  {
  }

  /** Decoding a key with exactly one '/'. */
  lemma {:induction false} ParseOneSlash(collection: string, file: string)
    requires '/' !in collection && '/' !in file
    ensures var id := Split(file, '.')[0];
      ParseKey(collection + "/" + file)
        == if collection == "" || id == "" then Err(InvalidKey) else Ok(Parsed(collection, id))
  {
    var key := collection + "/" + file;
    assert key == collection + ['/'] + file;
    SplitAt(collection, '/', file);
    SplitWithout(file, '/');
    assert Split(key, '/') == [collection, file];
  }

  /** Decoding inverts encoding exactly for the pairs the scheme supports: a
      non-empty collection without '/', and a non-empty id with neither '/'
      nor '.'. Every other pair decodes to an error or to a different pair. */
  lemma {:induction false} ParseToKey(collection: string, id: string)
    ensures ParseKey(ToKey(collection, id)) == Ok(Parsed(collection, id))
        <==> collection != "" && '/' !in collection && id != "" && '/' !in id && '.' !in id
  {
    if collection != "" && '/' !in collection && id != "" && '/' !in id && '.' !in id {
      ParseSupported(collection, id);
    }
  }

  lemma {:induction false} ParseSupported(collection: string, id: string)
    requires collection != "" && '/' !in collection && id != "" && '/' !in id && '.' !in id
    ensures ParseKey(ToKey(collection, id)) == Ok(Parsed(collection, id))
  {
    assert ToKey(collection, id) == collection + "/" + (id + ['.'] + "json");
    ParseWithExtension(collection, id, "json");
  }

  lemma {:induction false} ParseWithExtension(collection: string, id: string, ext: string)
    requires collection != "" && '/' !in collection && id != "" && '/' !in id && '.' !in id
    requires '/' !in ext
    ensures ParseKey(collection + "/" + (id + ['.'] + ext)) == Ok(Parsed(collection, id))
  {
    var file := id + ['.'] + ext;
    ParseOneSlash(collection, file);
    SplitAt(id, '.', ext);
  }

  /** Only the first two segments matter: anything after a second '/' is
      ignored. */
  lemma {:induction false} ParseKeyIgnoresTail(key: string, tail: string)
    requires '/' in key
    ensures ParseKey(key + "/" + tail) == ParseKey(key)
  {
    var i := IndexOf(key, '/').value;
    var a, b := key[..i], key[i + 1..];
    var longer := key + "/" + tail;
    assert key == a + ['/'] + b;
    SplitAt(a, '/', b);
    assert longer == a + ['/'] + (b + ['/'] + tail);
    SplitAt(a, '/', b + ['/'] + tail);
    SplitHead(b, '/', tail);
    assert Split(longer, '/')[1] == Split(key, '/')[1];
    ParseBySegments(longer, key);
  }

  /** A key decodes from its first two segments alone. */
  lemma ParseBySegments(k1: string, k2: string)
    requires |Split(k1, '/')| >= 2 && |Split(k2, '/')| >= 2
    requires Split(k1, '/')[0] == Split(k2, '/')[0] && Split(k1, '/')[1] == Split(k2, '/')[1]
    ensures ParseKey(k1) == ParseKey(k2)
  {
  }

  /** A key `collection/file` is rejected as invalid exactly when the
      collection is empty or the file name is empty or starts with '.'. */
  lemma {:induction false} ParseKeyInvalid(collection: string, file: string)
    requires '/' !in collection && '/' !in file
    ensures ParseKey(collection + "/" + file) == Err(InvalidKey)
        <==> collection == "" || file == "" || file[0] == '.'
  {
    ParseOneSlash(collection, file);
    if file != "" && file[0] == '.' {
      assert file == [] + ['.'] + file[1..];
      SplitAt([], '.', file[1..]);
    } else if file != "" {
      match IndexOf(file, '.')
      case None =>
      case Some(i) =>
        assert i > 0;
        assert file == file[..i] + ['.'] + file[i + 1..];
        SplitAt(file[..i], '.', file[i + 1..]);
    }
  }

  /** An id containing '.' loses everything from its first '.' on: the key
      of `stem.rest` decodes to `stem`. */
  lemma DottedIdIsTruncated(collection: string, stem: string, rest: string)
    requires collection != "" && '/' !in collection && stem != "" && '/' !in stem && '.' !in stem
    requires '/' !in rest
    ensures ParseKey(ToKey(collection, stem + "." + rest)) == Ok(Parsed(collection, stem))
  {
    var ext := rest + ".json";
    assert ToKey(collection, stem + "." + rest) == collection + "/" + (stem + ['.'] + ext);
    assert '/' !in ext by {
      assert forall i | 0 <= i < |ext| :: ext[i] == if i < |rest| then rest[i] else ".json"[i - |rest|];
    }
    ParseWithExtension(collection, stem, ext);
  }

  /** Distinct supported pairs get distinct keys. */
  lemma ToKeyInjective(c1: string, id1: string, c2: string, id2: string)
    requires '/' !in c1 && '/' !in c2
    requires ToKey(c1, id1) == ToKey(c2, id2)
    ensures c1 == c2 && id1 == id2
  {
    var k := ToKey(c1, id1);
    assert k == c1 + ['/'] + (id1 + ".json");
    assert k == c2 + ['/'] + (id2 + ".json");
    SplitAt(c1, '/', id1 + ".json");
    SplitAt(c2, '/', id2 + ".json");
    assert c1 == Split(k, '/')[0] == c2;
    assert id1 + ".json" == k[|c1| + 1..] == id2 + ".json";
    assert id1 == (id1 + ".json")[..|id1|];
  }
}

=== FILE: object_store.dfy ===
/** The object-storage service as the SDK's commands observe it. Each command
    on a path listed in the store's faults throws that fault. */
module ObjectStore {
  import opened Base
  import opened Storage

  /** GetObject: the body, `NoSuchKey` when nothing is stored at `key`. */
  function GetObject(st: Store, key: string): Outcome<Option<Record>> {
    if key in st.faults then Threw(st.faults[key])
    else if key in Contents(st) then Done(Contents(st)[key])
    else Threw(NoSuchKey)
  }

  /** HeadObject: succeeds when an object exists, `NotFound` otherwise. */
  function HeadObject(st: Store, key: string): Outcome<()> {
    if key in st.faults then Threw(st.faults[key])
    else if key in Contents(st) then Done(())
    else Threw(NotFound)
  }

  /** PutObject: creates or replaces the object. */
  function PutObject(st: Store, key: string, record: Record): Effect<()> {
    if key in st.faults then Effect(Threw(st.faults[key]), st)
    else Effect(Done(()), Write(st, key, Some(record)))
  }

  /** DeleteObject: removes the object; deleting a missing key succeeds. */
  function DeleteObject(st: Store, key: string): Effect<()> {
    if key in st.faults then Effect(Threw(st.faults[key]), st)
    else Effect(Done(()), Erase(st, key))
  }

  /** One ListObjectsV2 response. `contents` is absent when the page is
      empty; an entry's key may be absent. `next` is the continuation token. */
  datatype Page = Page(contents: Option<seq<Option<string>>>, truncated: bool, next: Option<nat>)

  /** The page size ListObjectsV2 uses when the request names none. */
  const DefaultMaxKeys: nat := 1000

  function Defined(keys: seq<string>): (entries: seq<Option<string>>)
    ensures |entries| == |keys|
    ensures forall i | 0 <= i < |keys| :: entries[i] == Some(keys[i])
  {
    if |keys| == 0 then []
    else
      var rest := Defined(keys[1..]);
      assert forall i | 1 <= i < |keys| :: keys[i] == keys[1..][i - 1];
      [Some(keys[0])] + rest
  }

  /** The position a continuation token resumes from, within `total` keys. */
  function Resume(token: Option<nat>, total: nat): (start: nat)
    ensures start <= total
  {
    match token
    case None => 0
    case Some(t) => if t <= total then t else total
  }

  /** Where a page of at most `maxKeys` keys from `start` ends, within
      `total` keys. */
  function PageEnd(start: nat, maxKeys: nat, total: nat): (end: nat)
    requires start <= total
    ensures start <= end <= total
    ensures end == total || end == start + maxKeys
    ensures end < total ==> end == start + maxKeys
    ensures start + maxKeys <= total ==> end == start + maxKeys
  {
    if start + maxKeys <= total then start + maxKeys else total
  }

  /** The page of `all` that a request from `token` for at most `maxKeys`
      keys receives; a truncated page carries the token of the next. */
  function PageOf(all: seq<string>, token: Option<nat>, maxKeys: nat): (page: Page)
    requires maxKeys > 0
  {
    var start := Resume(token, |all|);
    var end := PageEnd(start, maxKeys, |all|);
    var chunk := all[start..end];
    Page(if chunk == [] then None else Some(Defined(chunk)),
         end < |all|,
         if end < |all| then Some(end) else None)
  }

  /** ListObjectsV2: at most `maxKeys` of the keys under `prefix`, resuming
      where `token` says. */
  function ListObjectsV2(st: Store, prefix: string, token: Option<nat>, maxKeys: nat): (o: Outcome<Page>)
    requires maxKeys > 0
  {
    if prefix in st.faults then Threw(st.faults[prefix])
    else Done(PageOf(Under(st.objects, prefix), token, maxKeys))
  }
}

=== FILE: operations.dfy ===
/** The backend-agnostic CRUD layer: every cross-record rule (duplicate and
    missing-key checks, all-or-nothing batches, listing-based bulk calls)
    written once over any provider. */
module Operations {
  import opened Base
  import opened Text
  import opened Providers
  import opened Key

  /** The per-element calls the fan-outs issue. */
  function ExistsCall<S>(p: Provider<S>, collection: string): (S, string) -> Step<bool, S> {
    (s, id) => p.objectExists(s, collection, id)
  }

  function RecordExistsCall<S>(p: Provider<S>, collection: string): (S, Record) -> Step<bool, S> {
    (s, data: Record) => p.objectExists(s, collection, data.id)
  }

  function UpsertCall<S>(p: Provider<S>, collection: string): (S, Record) -> Step<Record, S> {
    (s, data) => p.upsert(s, collection, data)
  }

  function DeleteCall<S>(p: Provider<S>, collection: string): (S, string) -> Step<(), S> {
    (s, id) => p.deleteObject(s, collection, id)
  }

  /** getById: reads `collection/id.json`, the key `toKey` builds. */
  function GetById<S>(p: Provider<S>, s: S, collection: string, id: string): Step<Record, S> {
    Read(p, s, ToKey(collection, id))
  }

  /** get: the same read as getById. */
  function Get<S>(p: Provider<S>, s: S, collection: string, id: string): Step<Record, S> {
    GetById(p, s, collection, id)
  }

  /** all: lists the collection, then reads every listed key in one
      `Promise.all`. */
  function All<S>(p: Provider<S>, s: S, collection: string): (r: Step<seq<Record>, S>)
    ensures p.keys(s, collection).result.Err? ==> r == Step(Err(p.keys(s, collection).result.error), p.keys(s, collection).state)
    ensures r.result.Ok? ==> |r.result.value| == |p.keys(s, collection).result.value|
  {
    var listed := p.keys(s, collection);
    match listed.result
    case Err(e) => Step(Err(e), listed.state)
    case Ok(keys) => ReadAll(p, listed.state, keys)
  }

  /** create: `DuplicateKey` when the id exists, otherwise an upsert. */
  function Create<S>(p: Provider<S>, s: S, collection: string, data: Record): Step<Record, S>
  {
    var asked := p.objectExists(s, collection, data.id);
    match asked.result
    case Err(e) => Step(Err(e), asked.state)
    case Ok(true) => Step(Err(DuplicateKey), asked.state)
    case Ok(false) => p.upsert(asked.state, collection, data)
  }

  /** `flags.some(x => x)` */
  predicate AnyTrue(flags: seq<bool>) {
    exists i | 0 <= i < |flags| :: flags[i]
  }

  /** `flags.every(x => x)` */
  predicate AllTrue(flags: seq<bool>) {
    forall i | 0 <= i < |flags| :: flags[i]
  }

  /** createMany: asks whether each id exists; if any does, fails with
      `DuplicateKey` before writing anything; otherwise upserts every item. */
  function CreateMany<S>(p: Provider<S>, s: S, collection: string, data: seq<Record>): (r: Step<seq<Record>, S>)
    ensures var asked := FanOut(s, data, RecordExistsCall(p, collection));
      && (asked.result.Ok? && AnyTrue(asked.result.value) ==> r == Step(Err(DuplicateKey), asked.state))
      && (r.result.Ok? ==> |r.result.value| == |data|)
  {
    var asked := FanOut(s, data, RecordExistsCall(p, collection));
    match asked.result
    case Err(e) => Step(Err(e), asked.state)
    case Ok(flags) =>
      if AnyTrue(flags) then Step(Err(DuplicateKey), asked.state)
      else FanOut(asked.state, data, UpsertCall(p, collection))
  }

  /** deleteObject: delegates. */
  function DeleteObject<S>(p: Provider<S>, s: S, collection: string, id: string): Step<(), S> {
    p.deleteObject(s, collection, id)
  }

  /** The settled result of a fan-out whose values are discarded. */
  function Discard<T, S>(step: Step<seq<T>, S>): Step<(), S>
  {
    match step.result
    case Err(e) => Step(Err(e), step.state)
    case Ok(_) => Step(Ok(()), step.state)
  }

  /** deleteMany: asks whether each id exists; unless all do, fails with
      `KeyNotFound` before deleting anything; otherwise deletes every id. */
  function DeleteMany<S>(p: Provider<S>, s: S, collection: string, ids: seq<string>): Step<(), S>
  {
    var asked := FanOut(s, ids, ExistsCall(p, collection));
    match asked.result
    case Err(e) => Step(Err(e), asked.state)
    case Ok(flags) =>
      if !AllTrue(flags) then Step(Err(KeyNotFound), asked.state)
      else Discard(FanOut(asked.state, ids, DeleteCall(p, collection)))
  }

  /** `key.split("/")[1].split(".")[0]`: the file stem of a key's second
      segment; a key without '/' has no second segment and reading it throws. */
  function IdOf(key: string): (r: Result<string>)
    ensures r.Err? <==> '/' !in key
    ensures r.Err? ==> r.error == NoFileSegment
    ensures r.Ok? ==> '/' !in r.value && '.' !in r.value
  {
    var segments := Split(key, '/');
    if |segments| < 2 then Err(NoFileSegment)
    else Ok(Split(segments[1], '.')[0])
  }

  /** The ids of `keys`, in order; the first key without '/' throws. */
  function IdsOf(keys: seq<string>): (r: Result<seq<string>>)
    ensures r.Ok? <==> forall i | 0 <= i < |keys| :: '/' in keys[i]
    ensures r.Ok? ==> |r.value| == |keys| && forall i | 0 <= i < |keys| :: Ok(r.value[i]) == IdOf(keys[i])
  {
    if |keys| == 0 then Ok([])
    else
      var rest := IdsOf(keys[1..]);
      SlashedCons(keys);
      match IdOf(keys[0])
      case Err(e) => Err(e)
      case Ok(first) =>
        match rest
        case Err(e) => Err(e)
        case Ok(ids) =>
          IdsCons(keys, first, ids);
          Ok([first] + ids)
  }

  /** Every key holds a '/' exactly when the first does and every later
      one does. */
  lemma SlashedCons(keys: seq<string>)
    requires |keys| > 0
    ensures (forall i | 0 <= i < |keys| :: '/' in keys[i])
        <==> '/' in keys[0] && forall i | 0 <= i < |keys[1..]| :: '/' in keys[1..][i]
  {
    assert forall i | 1 <= i < |keys| :: keys[i] == keys[1..][i - 1];
  }

  /** The ids of the first key and of the rest, joined, are the ids of
      every key. */
  lemma IdsCons(keys: seq<string>, first: string, ids: seq<string>)
    requires |keys| > 0 && IdOf(keys[0]) == Ok(first)
    requires |ids| == |keys| - 1 && forall i | 0 <= i < |ids| :: Ok(ids[i]) == IdOf(keys[1..][i])
    ensures forall i | 0 <= i < |keys| :: Ok(([first] + ids)[i]) == IdOf(keys[i])
  {
    assert forall i | 1 <= i < |keys| :: keys[i] == keys[1..][i - 1] && ([first] + ids)[i] == ids[i - 1];
  }

  /** allIds: the ids of the listed keys. */
  function AllIds<S>(p: Provider<S>, s: S, collection: string): Step<seq<string>, S>
  {
    var listed := p.keys(s, collection);
    match listed.result
    case Err(e) => Step(Err(e), listed.state)
    case Ok(keys) => Step(IdsOf(keys), listed.state)
  }

  /** deleteAll: deletes every listed id, with no existence check. */
  function DeleteAll<S>(p: Provider<S>, s: S, collection: string): Step<(), S>
  {
    var listed := AllIds(p, s, collection);
    match listed.result
    case Err(e) => Step(Err(e), listed.state)
    case Ok(ids) => Discard(FanOut(listed.state, ids, DeleteCall(p, collection)))
  }

  /** count: the length of the listing. */
  function Count<S>(p: Provider<S>, s: S, collection: string): Step<nat, S>
  {
    var listed := p.keys(s, collection);
    match listed.result
    case Err(e) => Step(Err(e), listed.state)
    case Ok(keys) => Step(Ok(|keys|), listed.state)
  }

  /** exists: delegates. */
  function Exists<S>(p: Provider<S>, s: S, collection: string, id: string): Step<bool, S> {
    p.objectExists(s, collection, id)
  }

  /** upsert: delegates, with no existence check. */
  function Upsert<S>(p: Provider<S>, s: S, collection: string, data: Record): Step<Record, S> {
    p.upsert(s, collection, data)
  }

  /** update: `KeyNotFound` when the id does not exist, otherwise an upsert. */
  function Update<S>(p: Provider<S>, s: S, collection: string, data: Record): Step<Record, S>
  {
    var asked := Exists(p, s, collection, data.id);
    match asked.result
    case Err(e) => Step(Err(e), asked.state)
    case Ok(false) => Step(Err(KeyNotFound), asked.state)
    case Ok(true) => Upsert(p, asked.state, collection, data)
  }

  /** edit: reads the record, applies `transform` (which may itself fail),
      and updates with the result, under the id the result carries. */
  function Edit<S>(p: Provider<S>, s: S, collection: string, id: string, transform: Record -> Result<Record>): Step<Record, S>
  {
    var current := GetById(p, s, collection, id);
    match current.result
    case Err(e) => Step(Err(e), current.state)
    case Ok(data) =>
      match transform(data)
      case Err(e) => Step(Err(e), current.state)
      case Ok(modified) => Update(p, current.state, collection, modified)
  }
}

=== FILE: operations_facts.dfy ===
/** The operations layer over the object-storage provider: the batch rules
    stated against reference folds of single writes and deletes, the
    listing-based bulk calls, and the lifecycle of a collection. */
module OperationsFacts {
  import opened Base
  import opened Text
  import opened Storage
  import opened Key
  import opened Providers
  import opened Operations
  import ObjectStore
  import S3Provider

  /** The keys of `ids` in `collection`. */
  function KeySet(collection: string, ids: seq<string>): (ks: set<string>)
    ensures forall i | 0 <= i < |ids| :: ToKey(collection, ids[i]) in ks
    ensures forall k | k in ks :: exists i | 0 <= i < |ids| :: k == ToKey(collection, ids[i])
  {
    set i | 0 <= i < |ids| :: ToKey(collection, ids[i])
  }

  lemma KeySetCons(collection: string, ids: seq<string>)
    requires |ids| > 0
    ensures KeySet(collection, ids) == {ToKey(collection, ids[0])} + KeySet(collection, ids[1..])
  {
    forall k | k in KeySet(collection, ids) && k != ToKey(collection, ids[0])
      ensures k in KeySet(collection, ids[1..])
    {
      var i :| 0 <= i < |ids| && k == ToKey(collection, ids[i]);
      assert ids[i] == ids[1..][i - 1];
    }
    forall k | k in KeySet(collection, ids[1..]) ensures k in KeySet(collection, ids) {
      var i :| 0 <= i < |ids[1..]| && k == ToKey(collection, ids[1..][i]);
      assert ids[1..][i] == ids[i + 1];
    }
  }

  /** The ids of a batch of records, in order. */
  function IdsIn(data: seq<Record>): (ids: seq<string>)
    ensures |ids| == |data| && forall i | 0 <= i < |data| :: ids[i] == data[i].id
  {
    if |data| == 0 then [] else [data[0].id] + IdsIn(data[1..])
  }

  lemma IdsInCons(data: seq<Record>)
    requires |data| > 0
    ensures IdsIn(data)[0] == data[0].id && IdsIn(data)[1..] == IdsIn(data[1..])
  {
  }

  /** Within one collection, distinct ids have distinct keys. */
  lemma ToKeyCancel(collection: string, a: string, b: string)
    requires ToKey(collection, a) == ToKey(collection, b)
    ensures a == b
  {
    var n := |collection| + 1;
    assert ToKey(collection, a)[n..n + |a|] == a;
    assert ToKey(collection, b)[n..n + |b|] == b;
  }

  /** Position `i` holds the last record of the batch with its id. */
  predicate LastWithId(data: seq<Record>, i: int) {
    0 <= i < |data| && forall j | i < j < |data| :: data[j].id != data[i].id
  }

  /** The reference for a batch of writes: each record written after the
      other, first to last. */
  function WriteAll(st: Store, collection: string, data: seq<Record>): Store
    decreases |data|
  {
    if |data| == 0 then st
    else WriteAll(Write(st, ToKey(collection, data[0].id), Some(data[0])), collection, data[1..])
  }

  /** The reference for a batch of deletes: each key erased after the other. */
  function EraseAll(st: Store, collection: string, ids: seq<string>): Store
    decreases |ids|
  {
    if |ids| == 0 then st
    else EraseAll(Erase(st, ToKey(collection, ids[0])), collection, ids[1..])
  }

  /** A batch of writes injects no failure. */
  lemma {:induction false} WriteAllFaults(st: Store, collection: string, data: seq<Record>)
    ensures WriteAll(st, collection, data).faults == st.faults
    decreases |data|
  {
    if |data| > 0 {
      WriteAllFaults(Write(st, ToKey(collection, data[0].id), Some(data[0])), collection, data[1..]);
    }
  }

  /** After a batch of writes the store holds the old keys and the batch's
      keys, and every key outside the batch keeps its body. */
  lemma {:induction false} WriteAllKeys(st: Store, collection: string, data: seq<Record>)
    ensures var after := WriteAll(st, collection, data);
      && (forall k :: k in Contents(after) <==> k in Contents(st) || k in KeySet(collection, IdsIn(data)))
      && (forall k | k in Contents(st) && k !in KeySet(collection, IdsIn(data)) :: Contents(after)[k] == Contents(st)[k])
    decreases |data|
  {
    if |data| > 0 {
      var mid := Write(st, ToKey(collection, data[0].id), Some(data[0]));
      WriteAllKeys(mid, collection, data[1..]);
      IdsInCons(data);
      KeySetCons(collection, IdsIn(data));
    }
  }

  /** After a batch of writes each key holds the last record written under
      it. */
  lemma {:induction false} WriteAllLast(st: Store, collection: string, data: seq<Record>, i: int)
    requires LastWithId(data, i)
    ensures var after := WriteAll(st, collection, data);
      ToKey(collection, data[i].id) in Contents(after) && Contents(after)[ToKey(collection, data[i].id)] == Some(data[i])
    decreases |data|
  {
    var mid := Write(st, ToKey(collection, data[0].id), Some(data[0]));
    var rest := data[1..];
    assert WriteAll(st, collection, data) == WriteAll(mid, collection, rest);
    if i == 0 {
      FirstNotRewritten(collection, data);
      WriteAllKeys(mid, collection, rest);
    } else {
      assert data[i] == rest[i - 1];
      assert LastWithId(rest, i - 1) by {
        assert forall j | i - 1 < j < |rest| :: rest[j] == data[j + 1];
      }
      WriteAllLast(mid, collection, rest, i - 1);
    }
  }

  /** The first record's key is not written again later in the batch when
      no later record has its id. */
  lemma FirstNotRewritten(collection: string, data: seq<Record>)
    requires LastWithId(data, 0)
    ensures ToKey(collection, data[0].id) !in KeySet(collection, IdsIn(data[1..]))
  {
    var rest := data[1..];
    forall j | 0 <= j < |rest| ensures ToKey(collection, IdsIn(rest)[j]) != ToKey(collection, data[0].id) {
      assert data[j + 1] == rest[j];
      if ToKey(collection, rest[j].id) == ToKey(collection, data[0].id) {
        ToKeyCancel(collection, rest[j].id, data[0].id);
      }
    }
  }

  /** After a batch of deletes the store holds exactly the old keys that are
      not the batch's. */
  lemma {:induction false} EraseAllContents(st: Store, collection: string, ids: seq<string>)
    ensures Contents(EraseAll(st, collection, ids)) == Contents(st) - KeySet(collection, ids)
    ensures EraseAll(st, collection, ids).faults == st.faults
    decreases |ids|
  {
    if |ids| > 0 {
      var k0 := ToKey(collection, ids[0]);
      var mid := Erase(st, k0);
      assert EraseAll(st, collection, ids) == EraseAll(mid, collection, ids[1..]);
      EraseAllContents(mid, collection, ids[1..]);
      KeySetCons(collection, ids);
      MinusTwice(Contents(st), {k0}, KeySet(collection, ids[1..]));
    }
  }

  lemma MinusTwice<K, V>(m: map<K, V>, a: set<K>, b: set<K>)
    ensures m - a - b == m - (a + b)
  {
  }

  /** Upserting a batch to object storage, when no key fails, writes every
      record in order and returns the batch. */
  lemma {:induction false} UpsertAllS3(st: Store, collection: string, data: seq<Record>)
    requires forall i | 0 <= i < |data| :: ToKey(collection, data[i].id) !in st.faults
    ensures FanOut(st, data, UpsertCall(S3Provider.Instance(), collection))
      == Step(Ok(data), WriteAll(st, collection, data))
    decreases |data|
  {
    if |data| > 0 {
      var mid := Write(st, ToKey(collection, data[0].id), Some(data[0]));
      UpsertStepS3(st, collection, data[0]);
      assert forall i | 1 <= i < |data| :: data[i] == data[1..][i - 1];
      UpsertAllS3(mid, collection, data[1..]);
      FanOutCons(st, data, UpsertCall(S3Provider.Instance(), collection));
      HeadTail(data);
    }
  }

  /** One upsert to object storage at an unfaulted key writes the record. */
  lemma UpsertStepS3(st: Store, collection: string, data: Record)
    requires ToKey(collection, data.id) !in st.faults
    ensures UpsertCall(S3Provider.Instance(), collection)(st, data)
         == Step(Ok(data), Write(st, ToKey(collection, data.id), Some(data)))
  {
  }

  /** Deleting a batch from object storage, when no key fails, erases every
      key in order and succeeds. */
  lemma {:induction false} DeleteAllKeysS3(st: Store, collection: string, ids: seq<string>)
    requires forall i | 0 <= i < |ids| :: ToKey(collection, ids[i]) !in st.faults
    ensures var r := FanOut(st, ids, DeleteCall(S3Provider.Instance(), collection));
      r.result.Ok? && r.state == EraseAll(st, collection, ids)
    decreases |ids|
  {
    if |ids| > 0 {
      var mid := Erase(st, ToKey(collection, ids[0]));
      assert forall i | 1 <= i < |ids| :: ids[i] == ids[1..][i - 1];
      DeleteAllKeysS3(mid, collection, ids[1..]);
    }
  }

  /** The existence checks of a batch, when no key fails, report for each id
      whether its key is stored, and change nothing. */
  lemma ExistsAllS3(st: Store, collection: string, ids: seq<string>)
    requires forall i | 0 <= i < |ids| :: ToKey(collection, ids[i]) !in st.faults
    ensures var r := FanOut(st, ids, ExistsCall(S3Provider.Instance(), collection));
      && r.state == st && r.result.Ok?
      && (AnyTrue(r.result.value) <==> exists i | 0 <= i < |ids| :: ToKey(collection, ids[i]) in Contents(st))
      && (AllTrue(r.result.value) <==> forall i | 0 <= i < |ids| :: ToKey(collection, ids[i]) in Contents(st))
  {
    var call := ExistsCall(S3Provider.Instance(), collection);
    FanOutPure(st, ids, call);
    var r := FanOut(st, ids, call);
    assert forall i | 0 <= i < |ids| :: r.result.value[i] == (ToKey(collection, ids[i]) in Contents(st));
  }

  lemma RecordExistsAllS3(st: Store, collection: string, data: seq<Record>)
    requires forall i | 0 <= i < |data| :: ToKey(collection, data[i].id) !in st.faults
    ensures var r := FanOut(st, data, RecordExistsCall(S3Provider.Instance(), collection));
      && r.state == st && r.result.Ok?
      && (AnyTrue(r.result.value) <==> exists i | 0 <= i < |data| :: ToKey(collection, data[i].id) in Contents(st))
  {
    var call := RecordExistsCall(S3Provider.Instance(), collection);
    FanOutPure(st, data, call);
    var r := FanOut(st, data, call);
    assert forall i | 0 <= i < |data| :: r.result.value[i] == (ToKey(collection, data[i].id) in Contents(st));
  }

  /** createMany is all-or-nothing: when any record's id is stored the batch
      fails with `DuplicateKey` and nothing is written; otherwise every
      record is written, in order, and the batch is returned. */
  lemma CreateManyS3(st: Store, collection: string, data: seq<Record>)
    requires forall i | 0 <= i < |data| :: ToKey(collection, data[i].id) !in st.faults
    ensures var r := CreateMany(S3Provider.Instance(), st, collection, data);
      if exists i | 0 <= i < |data| :: ToKey(collection, data[i].id) in Contents(st)
      then r == Step(Err(DuplicateKey), st)
      else r == Step(Ok(data), WriteAll(st, collection, data))
  {
    RecordExistsAllS3(st, collection, data);
    UpsertAllS3(st, collection, data);
  }

  /** deleteMany is all-or-nothing: when any id is missing the batch fails
      with `KeyNotFound` and nothing is deleted; otherwise exactly the
      batch's keys are removed. */
  lemma DeleteManyS3(st: Store, collection: string, ids: seq<string>)
    requires forall i | 0 <= i < |ids| :: ToKey(collection, ids[i]) !in st.faults
    ensures var r := DeleteMany(S3Provider.Instance(), st, collection, ids);
      if exists i | 0 <= i < |ids| :: ToKey(collection, ids[i]) !in Contents(st)
      then r == Step(Err(KeyNotFound), st)
      else && r.result.Ok?
           && Contents(r.state) == Contents(st) - KeySet(collection, ids)
           && r.state.faults == st.faults
  {
    ExistsAllS3(st, collection, ids);
    DeleteAllKeysS3(st, collection, ids);
    EraseAllContents(st, collection, ids);
  }

  /** create writes a new record and refuses a stored id, leaving the store
      as it was. */
  lemma CreateS3(st: Store, collection: string, data: Record)
    requires ToKey(collection, data.id) !in st.faults
    ensures var key := ToKey(collection, data.id);
      var r := Create(S3Provider.Instance(), st, collection, data);
      if key in Contents(st) then r == Step(Err(DuplicateKey), st)
      else r == Step(Ok(data), Write(st, key, Some(data)))
  {
    var r := Create(S3Provider.Instance(), st, collection, data);
    assert S3Provider.Instance().objectExists(st, collection, data.id).state == st;
  }

  /** update overwrites a stored record and refuses a missing id, leaving
      the store as it was. */
  lemma UpdateS3(st: Store, collection: string, data: Record)
    requires ToKey(collection, data.id) !in st.faults
    ensures var key := ToKey(collection, data.id);
      var r := Update(S3Provider.Instance(), st, collection, data);
      if key in Contents(st) then r == Step(Ok(data), Write(st, key, Some(data)))
      else r == Step(Err(KeyNotFound), st)
  {
    assert S3Provider.Instance().objectExists(st, collection, data.id).state == st;
  }

  /** edit reads the record, and writes the transformed one only when its
      id names a stored record: a transform that keeps the id overwrites the
      record, and one that moves it to an unstored id fails with
      `KeyNotFound` and writes nothing. */
  lemma EditS3(st: Store, collection: string, id: string, transform: Record -> Result<Record>)
    ensures var current := S3Provider.GetByKey(st, ToKey(collection, id));
      var r := Edit(S3Provider.Instance(), st, collection, id, transform);
      && (current.Err? ==> r == Step(Err(current.error), st))
      && (current.Ok? && transform(current.value).Err? ==> r == Step(Err(transform(current.value).error), st))
      && (current.Ok? && transform(current.value).Ok? && ToKey(collection, transform(current.value).value.id) !in st.faults ==>
            var modified := transform(current.value).value;
            var target := ToKey(collection, modified.id);
            r == if target in Contents(st) then Step(Ok(modified), Write(st, target, Some(modified)))
                 else Step(Err(KeyNotFound), st))
    ensures var current := S3Provider.GetByKey(st, ToKey(collection, id));
      current.Ok? && transform(current.value).Ok? && transform(current.value).value.id == id ==>
        Edit(S3Provider.Instance(), st, collection, id, transform)
          == Step(Ok(transform(current.value).value), Write(st, ToKey(collection, id), Some(transform(current.value).value)))
  {
    var current := S3Provider.GetByKey(st, ToKey(collection, id));
    if current.Ok? && transform(current.value).Ok? {
      var modified := transform(current.value).value;
      if ToKey(collection, modified.id) !in st.faults {
        UpdateS3(st, collection, modified);
      }
    }
  }

  /** What create, update or upsert returned is what a read returns next. */
  lemma WriteThenGetS3(st: Store, collection: string, data: Record)
    requires ToKey(collection, data.id) !in st.faults
    ensures var written := Upsert(S3Provider.Instance(), st, collection, data);
      Get(S3Provider.Instance(), written.state, collection, data.id).result == Ok(data)
  {
  }

  /** get over object storage reads the body stored at the key `toKey`
      builds and leaves the store alone; a key that is not stored is
      `KeyNotFound`, and a stored object without a body is `NoBody`. */
  lemma GetS3(st: Store, collection: string, id: string)
    requires ToKey(collection, id) !in st.faults
    ensures var key := ToKey(collection, id);
      var r := Get(S3Provider.Instance(), st, collection, id);
      && r.state == st
      && (r.result == Err(KeyNotFound) <==> key !in Contents(st))
      && (key in Contents(st) && Contents(st)[key].Some? ==> r.result == Ok(Contents(st)[key].value))
      && (key in Contents(st) && Contents(st)[key].None? ==> r.result == Err(NoBody))
  {
  }

  /** exists and get agree: an id exists exactly when get does not answer
      `KeyNotFound`, and neither call changes the store. */
  lemma ExistsMatchesGet(st: Store, collection: string, id: string)
    requires ToKey(collection, id) !in st.faults
    ensures Exists(S3Provider.Instance(), st, collection, id)
         == Step(Ok(Get(S3Provider.Instance(), st, collection, id).result != Err(KeyNotFound)), st)
  {
    GetS3(st, collection, id);
  }

  /** deleteObject over object storage succeeds whether or not the id is
      stored; afterwards the id neither exists nor reads, and every other key
      keeps its body. */
  lemma DeleteThenAbsentS3(st: Store, collection: string, id: string)
    requires ToKey(collection, id) !in st.faults
    ensures var key := ToKey(collection, id);
      var deleted := DeleteObject(S3Provider.Instance(), st, collection, id);
      && deleted.result == Ok(())
      && Exists(S3Provider.Instance(), deleted.state, collection, id).result == Ok(false)
      && Get(S3Provider.Instance(), deleted.state, collection, id).result == Err(KeyNotFound)
      && (forall k | k != key :: k in Contents(deleted.state) <==> k in Contents(st))
      && (forall k | k != key && k in Contents(st) :: Contents(deleted.state)[k] == Contents(st)[k])
  {
  }

  /** upsert over object storage writes the record whether or not the id is
      stored, returns it, and leaves every other key alone; afterwards the id
      exists. */
  lemma UpsertS3(st: Store, collection: string, data: Record)
    requires ToKey(collection, data.id) !in st.faults
    ensures var key := ToKey(collection, data.id);
      var written := Upsert(S3Provider.Instance(), st, collection, data);
      && written.result == Ok(data)
      && Exists(S3Provider.Instance(), written.state, collection, data.id).result == Ok(true)
      && (forall k | k != key :: k in Contents(written.state) <==> k in Contents(st))
      && (forall k | k != key && k in Contents(st) :: Contents(written.state)[k] == Contents(st)[k])
  {
  }

  lemma KeySegments(collection: string, id: string)
    requires '/' !in collection && '/' !in id
    ensures Split(ToKey(collection, id), '/') == [collection, id + ".json"]
  {
    var file := id + ".json";
    assert ToKey(collection, id) == collection + ['/'] + file;
    assert '/' !in file by {
      assert forall i | 0 <= i < |file| :: file[i] == if i < |id| then id[i] else ".json"[i - |id|];
    }
    SplitWithout(file, '/');
    SplitAt(collection, '/', file);
  }

  lemma FileStem(id: string)
    requires '.' !in id
    ensures Split(id + ".json", '.') == [id, "json"]
  {
    assert id + ".json" == id + ['.'] + "json";
    SplitWithout("json", '.');
    SplitAt(id, '.', "json");
  }

  /** The id of a key in the scheme is the id it was built from. */
  lemma IdOfToKey(collection: string, id: string)
    requires '/' !in collection && '/' !in id && '.' !in id
    ensures IdOf(ToKey(collection, id)) == Ok(id)
  {
    KeySegments(collection, id);
    FileStem(id);
  }

  /** Whenever the key codec decodes a key, the operations layer reads the
      same id from it. */
  lemma IdOfAgreesWithParse(key: string)
    ensures ParseKey(key).Ok? ==> IdOf(key) == Ok(ParseKey(key).value.id)
  {
  }

  /** allIds over object storage never meets a key without '/': it reads
      one id per key under the collection, in listing order, and changes
      nothing. For keys in the scheme, each id rebuilds its key. */
  lemma AllIdsS3(st: Store, collection: string)
    requires collection + "/" !in st.faults
    ensures var r := AllIds(S3Provider.Instance(), st, collection);
      var keys := Under(st.objects, collection + "/");
      && r.state == st
      && r.result.Ok? && |r.result.value| == |keys|
      && (forall i | 0 <= i < |keys| :: Ok(r.result.value[i]) == IdOf(keys[i]))
      && ('/' !in collection && (forall k | k in keys :: InScheme(collection, k)) ==>
            forall i | 0 <= i < |keys| :: ToKey(collection, r.result.value[i]) == keys[i])
  {
    var keys := Under(st.objects, collection + "/");
    ListedHaveSlash(st.objects, collection);
    assert AllIds(S3Provider.Instance(), st, collection) == Step(IdsOf(keys), st);
    SlashedIds(collection, keys);
  }

  /** Keys that all hold a '/' have ids, one per key; keys in the scheme
      are rebuilt by theirs. */
  lemma SlashedIds(collection: string, keys: seq<string>)
    requires forall k | k in keys :: '/' in k
    ensures IdsOf(keys).Ok? && |IdsOf(keys).value| == |keys|
    ensures '/' !in collection && (forall k | k in keys :: InScheme(collection, k)) ==>
      forall i | 0 <= i < |keys| :: ToKey(collection, IdsOf(keys).value[i]) == keys[i]
  {
    assert forall i | 0 <= i < |keys| :: keys[i] in keys;
    if '/' !in collection && forall k | k in keys :: InScheme(collection, k) {
      SchemeIds(collection, keys);
    }
  }

  /** Every key under `collection/` holds a '/'. */
  lemma ListedHaveSlash(objs: seq<Obj>, collection: string)
    ensures forall k | k in Under(objs, collection + "/") :: '/' in k
  {
    var prefix := collection + "/";
    forall k | k in Under(objs, prefix) ensures '/' in k {
      assert prefix <= k && k[|collection|] == prefix[|collection|];
    }
  }

  /** create and update turn on the same existence check. When it answers,
      one of them is the provider's upsert on the state the check left and
      the other refuses on that state; when it fails, both fail with its
      error. */
  lemma CreateOrUpdate<S>(p: Provider<S>, s: S, collection: string, data: Record)
    ensures var asked := p.objectExists(s, collection, data.id);
      var created := Create(p, s, collection, data);
      var updated := Update(p, s, collection, data);
      var written := p.upsert(asked.state, collection, data);
      && (asked.result.Ok? ==>
            || (created == written && updated == Step(Err(KeyNotFound), asked.state))
            || (updated == written && created == Step(Err(DuplicateKey), asked.state)))
      && (asked.result.Err? ==> created == updated == Step(Err(asked.result.error), asked.state))
  {
  }

  /** count and all agree on the size of a collection over any provider:
      when all succeeds, count is the number of records it read, and when
      count fails, all fails the same way. */
  lemma CountMatchesAll<S>(p: Provider<S>, s: S, collection: string)
    ensures var all := All(p, s, collection);
      var count := Count(p, s, collection);
      && (all.result.Ok? ==> count.result == Ok(|all.result.value|))
      && (count.result.Err? ==> all == Step(Err(count.result.error), count.state))
  {
  }

  /** count is the number of keys under the collection's prefix, however
      many listing pages that takes. */
  lemma CountS3(st: Store, collection: string)
    requires collection + "/" !in st.faults
    ensures Count(S3Provider.Instance(), st, collection) == Step(Ok(|Under(st.objects, collection + "/")|), st)
  {
  }

  /** all reads every listed record, in listing order; a listed key without
      a body fails the whole call with `NoBody`. */
  lemma AllS3(st: Store, collection: string)
    requires collection + "/" !in st.faults
    requires forall k | k in Under(st.objects, collection + "/") :: k !in st.faults
    ensures var r := All(S3Provider.Instance(), st, collection);
      var keys := Under(st.objects, collection + "/");
      && r.state == st
      && (forall i | 0 <= i < |keys| :: keys[i] in Contents(st))
      && (r.result.Ok? <==> forall i | 0 <= i < |keys| :: Contents(st)[keys[i]].Some?)
      && (r.result.Ok? ==> forall i | 0 <= i < |keys| :: Contents(st)[keys[i]] == Some(r.result.value[i]))
      && (r.result.Err? ==> r.result.error == NoBody)
  {
    var keys := Under(st.objects, collection + "/");
    AllInTurnS3(st, collection);
    ReadEachS3(st, keys);
  }

  /** Reading stored keys one after another, none of which fails natively,
      reads each body in order and fails with `NoBody` only. */
  lemma ReadEachS3(st: Store, keys: seq<string>)
    requires forall k | k in keys :: k !in st.faults && k in KeyList(st.objects)
    ensures var r := FanOut(st, keys, ReadCall(S3Provider.Instance()));
      && r.state == st
      && (forall i | 0 <= i < |keys| :: keys[i] in Contents(st))
      && (r.result.Ok? <==> forall i | 0 <= i < |keys| :: Contents(st)[keys[i]].Some?)
      && (r.result.Ok? ==> forall i | 0 <= i < |keys| :: Contents(st)[keys[i]] == Some(r.result.value[i]))
      && (r.result.Err? ==> r.result.error == NoBody)
  {
    var call := ReadCall(S3Provider.Instance());
    assert forall i | 0 <= i < |keys| :: keys[i] in keys;
    FanOutPure(st, keys, call);
  }

  /** Over object storage the reads of all are the listed keys read one
      after another. */
  lemma AllInTurnS3(st: Store, collection: string)
    requires collection + "/" !in st.faults
    ensures All(S3Provider.Instance(), st, collection)
         == FanOut(st, Under(st.objects, collection + "/"), ReadCall(S3Provider.Instance()))
  {
    ReadAllDeferred(S3Provider.Instance(), st, Under(st.objects, collection + "/"));
  }

  /** A key of the collection in the scheme: `collection/id.json` with an id
      free of '/' and '.'. */
  ghost predicate InScheme(collection: string, key: string) {
    exists id | '/' !in id && '.' !in id :: key == ToKey(collection, id)
  }

  lemma {:induction false} NothingUnder(objs: seq<Obj>, prefix: string)
    requires forall k | k in KeyList(objs) :: !(prefix <= k)
    ensures Under(objs, prefix) == []
    decreases |objs|
  {
    if |objs| > 0 {
      KeyListCons(objs);
      assert objs[0].key in KeyList(objs);
      assert forall k | k in KeyList(objs[1..]) :: k in KeyList(objs);
      NothingUnder(objs[1..], prefix);
    }
  }

  /** The ids read from keys in the scheme rebuild those keys. */
  lemma SchemeIds(collection: string, keys: seq<string>)
    requires '/' !in collection
    requires forall k | k in keys :: InScheme(collection, k)
    ensures IdsOf(keys).Ok?
    ensures forall i | 0 <= i < |keys| :: ToKey(collection, IdsOf(keys).value[i]) == keys[i]
  {
    forall i | 0 <= i < |keys| ensures '/' in keys[i] && IdOf(keys[i]).Ok? && ToKey(collection, IdOf(keys[i]).value) == keys[i] {
      assert keys[i] in keys;
      var id :| '/' !in id && '.' !in id && keys[i] == ToKey(collection, id);
      IdOfToKey(collection, id);
    }
  }

  /** Erasing a batch that covers every key under a prefix leaves nothing
      under it, and keeps every key outside the batch. */
  lemma EraseCovering(st: Store, collection: string, ids: seq<string>, prefix: string)
    requires forall k | k in Under(st.objects, prefix) :: k in KeySet(collection, ids)
    ensures Under(EraseAll(st, collection, ids).objects, prefix) == []
  {
    var after := EraseAll(st, collection, ids);
    EraseAllContents(st, collection, ids);
    forall k | k in KeyList(after.objects) ensures !(prefix <= k) {
      assert k in Contents(after);
      assert k in Contents(st) && k !in KeySet(collection, ids);
      assert k !in Under(st.objects, prefix);
    }
    NothingUnder(after.objects, prefix);
  }

  /** deleteAll empties a collection whose keys are all in the scheme, and
      leaves every other key as it was. */
  lemma DeleteAllS3(st: Store, collection: string)
    requires '/' !in collection && collection + "/" !in st.faults
    requires forall k | k in Under(st.objects, collection + "/") :: k !in st.faults && InScheme(collection, k)
    ensures var r := DeleteAll(S3Provider.Instance(), st, collection);
      && r.result.Ok?
      && Under(r.state.objects, collection + "/") == []
      && r.state.faults == st.faults
      && (forall k | !(collection + "/" <= k) :: (k in Contents(r.state) <==> k in Contents(st)))
  {
    var prefix := collection + "/";
    var keys := Under(st.objects, prefix);
    SchemeIds(collection, keys);
    var ids := IdsOf(keys).value;
    assert AllIds(S3Provider.Instance(), st, collection) == Step(Ok(ids), st);
    ListedKeySet(collection, prefix, keys, ids);
    DeleteAllKeysS3(st, collection, ids);
    EraseCovering(st, collection, ids, prefix);
    EraseAllContents(st, collection, ids);
  }

  /** The keys `ids` name are exactly the listed `keys`, all under `prefix`. */
  lemma ListedKeySet(collection: string, prefix: string, keys: seq<string>, ids: seq<string>)
    requires |ids| == |keys|
    requires forall k | k in keys :: prefix <= k
    requires forall i | 0 <= i < |keys| :: ToKey(collection, ids[i]) == keys[i]
    ensures forall k :: k in keys <==> k in KeySet(collection, ids)
    ensures forall k | k in KeySet(collection, ids) :: prefix <= k
  {
    forall k | k in keys ensures k in KeySet(collection, ids) {
      var i :| 0 <= i < |keys| && keys[i] == k;
      assert k == ToKey(collection, ids[i]);
    }
    forall k | k in KeySet(collection, ids) ensures k in keys {
      var i :| 0 <= i < |ids| && k == ToKey(collection, ids[i]);
      assert k == keys[i];
    }
  }

  /** The number of listing requests that collect `remaining` keys. */
  function Requests(remaining: nat): (n: nat)
    ensures n >= 1
  {
    if remaining <= S3Provider.PageSize then 1
    else 1 + Requests(remaining - S3Provider.PageSize)
  }

  /** The number of requests is the number of pages of 50 keys the
      listing fills, rounded up. */
  lemma {:induction false} RequestsBound(remaining: nat)
    ensures remaining > 0 ==>
      (Requests(remaining) - 1) * S3Provider.PageSize < remaining <= Requests(remaining) * S3Provider.PageSize
  {
    if remaining > S3Provider.PageSize {
      RequestsBound(remaining - S3Provider.PageSize);
    }
  }

  /** The listing loop issues one request per page of 50 keys, and one
      request for an empty listing. */
  lemma RunRequests(st: Store, prefix: string, token: Option<nat>)
    requires prefix !in st.faults
    ensures var all := Under(st.objects, prefix);
      |S3Provider.Run(st, prefix, token)| == Requests(|all| - ObjectStore.Resume(token, |all|))
  {
    var all := Under(st.objects, prefix);
    RunRemaining(st, prefix, token, |all| - ObjectStore.Resume(token, |all|));
  }

  lemma {:induction false} RunRemaining(st: Store, prefix: string, token: Option<nat>, remaining: nat)
    requires prefix !in st.faults
    requires remaining == |Under(st.objects, prefix)| - ObjectStore.Resume(token, |Under(st.objects, prefix)|)
    ensures |S3Provider.Run(st, prefix, token)| == Requests(remaining)
    decreases remaining
  {
    var all := Under(st.objects, prefix);
    var start := ObjectStore.Resume(token, |all|);
    S3Provider.RunStep(st, prefix, token);
    if remaining > S3Provider.PageSize {
      var next := Some(start + S3Provider.PageSize);
      assert ObjectStore.Resume(next, |all|) == start + S3Provider.PageSize;
      RunRemaining(st, prefix, next, remaining - S3Provider.PageSize);
      assert Requests(remaining) == 1 + Requests(remaining - S3Provider.PageSize);
    } else {
      assert Requests(remaining) == 1;
    }
  }

  /** A collection of 150 records is listed in three requests and counted
      whole. */
  lemma ThreePages(st: Store)
    requires "users/" !in st.faults && |Under(st.objects, "users/")| == 150
    ensures |S3Provider.Run(st, "users/", None)| == 3
    ensures Count(S3Provider.Instance(), st, "users").result == Ok(150)
  {
    RunRequests(st, "users/", None);
    assert "users" + "/" == "users/";
    assert Requests(150) == 3 by {
      assert Requests(50) == 1;
      assert Requests(100) == 2;
    }
  }

  /** A record created in an empty collection is all it holds. */
  lemma CreateInEmpty(st: Store, collection: string, record: Record)
    requires '/' !in collection && '/' !in record.id && '.' !in record.id
    requires forall k | k in st.faults :: !(collection + "/" <= k)
    requires Under(st.objects, collection + "/") == []
    ensures var created := Upsert(S3Provider.Instance(), st, collection, record).state;
      && created == Write(st, ToKey(collection, record.id), Some(record))
      && Under(created.objects, collection + "/") == [ToKey(collection, record.id)]
      && Count(S3Provider.Instance(), created, collection).result == Ok(1)
      && All(S3Provider.Instance(), created, collection).result == Ok([record])
  {
    var prefix := collection + "/";
    var key := ToKey(collection, record.id);
    assert prefix <= key;
    assert key !in KeyList(st.objects) by {
      assert key !in Under(st.objects, prefix);
    }
    var created := Write(st, key, Some(record));
    UnderPutNew(st.objects, key, Some(record), prefix);
    AllOfOne(created, collection, key, record);
  }

  /** Listing a collection of one record reads that record. */
  lemma AllOfOne(st: Store, collection: string, key: string, record: Record)
    requires collection + "/" !in st.faults && key !in st.faults
    requires Under(st.objects, collection + "/") == [key]
    requires key in Contents(st) && Contents(st)[key] == Some(record)
    ensures All(S3Provider.Instance(), st, collection).result == Ok([record])
  {
    AllS3(st, collection);
    var r := All(S3Provider.Instance(), st, collection);
    assert r.result.Ok? && |r.result.value| == 1;
    assert r.result.value[0] == record;
    assert r.result.value == [record];
  }

  /** An empty collection counts nothing and reads nothing. */
  lemma EmptyCollection(st: Store, collection: string, id: string)
    requires forall k | k in st.faults :: !(collection + "/" <= k)
    requires Under(st.objects, collection + "/") == []
    ensures Count(S3Provider.Instance(), st, collection).result == Ok(0)
    ensures Get(S3Provider.Instance(), st, collection, id).result == Err(KeyNotFound)
  {
    var key := ToKey(collection, id);
    assert collection + "/" <= key;
    assert key !in Under(st.objects, collection + "/");
  }

  /** deleteAll after a record is created in an empty collection empties it
      again. */
  lemma DeleteAllAfterCreate(st: Store, collection: string, record: Record)
    requires '/' !in collection && '/' !in record.id && '.' !in record.id
    requires forall k | k in st.faults :: !(collection + "/" <= k)
    requires Under(st.objects, collection + "/") == [ToKey(collection, record.id)]
    ensures Under(DeleteAll(S3Provider.Instance(), st, collection).state.objects, collection + "/") == []
    ensures DeleteAll(S3Provider.Instance(), st, collection).state.faults == st.faults
  {
    var key := ToKey(collection, record.id);
    assert InScheme(collection, key);
    assert collection + "/" <= key;
    assert forall k | k in Under(st.objects, collection + "/") :: k == key;
    DeleteAllS3(st, collection);
  }

  /** The lifecycle of a collection: empty, one record created, listed,
      all deleted, empty again, and the record no longer readable. */
  lemma Lifecycle(st: Store, collection: string, record: Record)
    requires '/' !in collection && '/' !in record.id && '.' !in record.id
    requires forall k | k in st.faults :: !(collection + "/" <= k)
    requires Under(st.objects, collection + "/") == []
    ensures Count(S3Provider.Instance(), st, collection).result == Ok(0)
    ensures var created := Upsert(S3Provider.Instance(), st, collection, record).state;
      && Count(S3Provider.Instance(), created, collection).result == Ok(1)
      && All(S3Provider.Instance(), created, collection).result == Ok([record])
    ensures var created := Upsert(S3Provider.Instance(), st, collection, record).state;
      var emptied := DeleteAll(S3Provider.Instance(), created, collection).state;
      && Count(S3Provider.Instance(), emptied, collection).result == Ok(0)
      && Get(S3Provider.Instance(), emptied, collection, record.id).result == Err(KeyNotFound)
  {
    EmptyCollection(st, collection, record.id);
    CreateInEmpty(st, collection, record);
    var created := Upsert(S3Provider.Instance(), st, collection, record).state;
    DeleteAllAfterCreate(created, collection, record);
    var emptied := DeleteAll(S3Provider.Instance(), created, collection).state;
    EmptyCollection(emptied, collection, record.id);
  }
}

=== FILE: providers.dfy ===
/** The provider seam: the five operations every backend offers, and the
    fan-out that issues one call per element. */
module Providers {
  import opened Base

  /** A backend behind the provider interface, as functions of its state.
      Every call settles to a result and leaves a (possibly new) state.

      `getByKey` is given in two parts, because reads are the calls that
      `Promise.all` overlaps with effect: `readSettled` is what the read does
      before its first `await` (`Some` when it settles there, as a cache hit
      does), and `readAwaited` is the rest, run on the state current when
      the awaited call returns. */
  datatype Provider<!S> = Provider(
    readSettled: (S, string) -> Option<Result<Record>>,
    readAwaited: (S, string) -> Step<Record, S>,
    objectExists: (S, string, string) -> Step<bool, S>,  // the interface's `exists`
    keys: (S, string) -> Step<seq<string>, S>,
    upsert: (S, string, Record) -> Step<Record, S>,
    deleteObject: (S, string, string) -> Step<(), S>)

  /** `getByKey` awaited on its own: both parts, on the same state. */
  function Read<S>(p: Provider<S>, s: S, key: string): Step<Record, S> {
    match p.readSettled(s, key)
    case Some(settled) => Step(settled, s)
    case None => p.readAwaited(s, key)
  }

  /** One read of `Promise.all(keys.map(key => getByKey(key)))` that began on
      state `start`: the part before its first `await` looked at `start`,
      and the rest runs on the state current when it resumes. */
  function ReadFrom<S>(p: Provider<S>, start: S): (S, string) -> Step<Record, S> {
    (s, key) =>
      match p.readSettled(start, key)
      case Some(settled) => Step(settled, s)
      case None => p.readAwaited(s, key)
  }

  /** `Promise.all(keys.map(key => getByKey(key)))`. Every read runs up to
      its first `await` before any read resumes, so each of those parts sees
      the state `s` the fan-out starts from; the reads then resume one after
      another in input order. */
  function ReadAll<S>(p: Provider<S>, s: S, keys: seq<string>): (r: Step<seq<Record>, S>)
    ensures r.result.Ok? ==> |r.result.value| == |keys|
  {
    FanOut(s, keys, ReadFrom(p, s))
  }

  /** `(s, key) => getByKey(key)` */
  function ReadCall<S>(p: Provider<S>): (S, string) -> Step<Record, S> {
    (s, key) => Read(p, s, key)
  }

  /** When no read settles before its first `await`, overlapping the reads
      changes nothing: the fan-out is the reads one after another. */
  lemma ReadAllDeferred<S>(p: Provider<S>, s: S, keys: seq<string>)
    requires forall s': S, key | key in keys :: p.readSettled(s', key).None?
    ensures ReadAll(p, s, keys) == FanOut(s, keys, ReadCall(p))
  {
    FanOutAgree(s, keys, ReadFrom(p, s), ReadCall(p));
  }

  /** `Promise.all(xs.map(x => call(x)))`, one call after the other: every
      call runs, each on the state the previous one left, and the aggregate
      fails with the first failure in input order. This is exact for the
      fan-outs of existence checks, upserts and deletes: before its first
      `await` each of those calls only issues the backend request, so the
      part that can change state runs after the requests are out, and the
      cache's bookkeeping after a write or delete touches the entries only,
      never the backend. */
  function FanOut<A, T, S>(s: S, xs: seq<A>, call: (S, A) -> Step<T, S>): (r: Step<seq<T>, S>)
    ensures r.result.Ok? ==> |r.result.value| == |xs|
    decreases |xs|
  {
    if |xs| == 0 then Step(Ok([]), s)
    else
      var first := call(s, xs[0]);
      var rest := FanOut(first.state, xs[1..], call);
      var result := match first.result
        case Err(e) => Err(e)
        case Ok(v) => (match rest.result
          case Err(e) => Err(e)
          case Ok(vs) => Ok([v] + vs));
      Step(result, rest.state)
  }

  /** A fan-out of calls that leave the state alone leaves it alone too,
      succeeds exactly when every call does, returns the calls' values in
      input order, and otherwise fails with the first call's failure. */
  lemma {:induction false} FanOutPure<A, T, S>(s: S, xs: seq<A>, call: (S, A) -> Step<T, S>)
    requires forall a | a in xs :: call(s, a).state == s
    ensures FanOut(s, xs, call).state == s
    ensures FanOut(s, xs, call).result.Ok? <==> forall i | 0 <= i < |xs| :: call(s, xs[i]).result.Ok?
    ensures FanOut(s, xs, call).result.Ok? ==>
      forall i | 0 <= i < |xs| :: FanOut(s, xs, call).result.value[i] == call(s, xs[i]).result.value
    ensures FanOut(s, xs, call).result.Err? ==>
      exists i | 0 <= i < |xs| :: call(s, xs[i]).result == Err(FanOut(s, xs, call).result.error)
        && forall j | 0 <= j < i :: call(s, xs[j]).result.Ok?
    decreases |xs|
  {
    if |xs| > 0 {
      assert xs[0] in xs;
      assert forall a | a in xs[1..] :: a in xs;
      FanOutPure(s, xs[1..], call);
      var r := FanOut(s, xs, call);
      var rest := FanOut(s, xs[1..], call);
      assert forall i | 1 <= i < |xs| :: xs[i] == xs[1..][i - 1];
      if r.result.Err? && call(s, xs[0]).result.Ok? {
        var i :| 0 <= i < |xs[1..]| && call(s, xs[1..][i]).result == Err(rest.result.error)
          && forall j | 0 <= j < i :: call(s, xs[1..][j]).result.Ok?;
        assert call(s, xs[i + 1]).result == Err(r.result.error);
        forall j | 0 <= j < i + 1 ensures call(s, xs[j]).result.Ok? {
          if j > 0 {
            assert xs[j] == xs[1..][j - 1];
          }
        }
      }
    }
  }

  /** A fan-out whose first call and the fan-out of the rest both succeed
      returns the first value followed by the rest's, in the rest's final
      state. */
  lemma FanOutCons<A, T, S>(s: S, xs: seq<A>, call: (S, A) -> Step<T, S>)
    requires |xs| > 0 && call(s, xs[0]).result.Ok?
    requires FanOut(call(s, xs[0]).state, xs[1..], call).result.Ok?
    ensures var rest := FanOut(call(s, xs[0]).state, xs[1..], call);
      FanOut(s, xs, call) == Step(Ok([call(s, xs[0]).result.value] + rest.result.value), rest.state)
  {
  }

  /** A fan-out over one element is that element's call. */
  lemma FanOutSingle<A, T, S>(s: S, x: A, call: (S, A) -> Step<T, S>)
    requires call(s, x).result.Ok?
    ensures FanOut(s, [x], call) == Step(Ok([call(s, x).result.value]), call(s, x).state)
  {
    assert [x][1..] == [];
    assert [call(s, x).result.value] + [] == [call(s, x).result.value];
  }

  /** A fan-out over two elements runs the first call, then the second on
      the state the first left. */
  lemma FanOutPair<A, T, S>(s: S, x: A, y: A, call: (S, A) -> Step<T, S>)
    requires call(s, x).result.Ok? && call(call(s, x).state, y).result.Ok?
    ensures var second := call(call(s, x).state, y);
      FanOut(s, [x, y], call) == Step(Ok([call(s, x).result.value, second.result.value]), second.state)
  {
    FanOutSingle(call(s, x).state, y, call);
    assert [x, y][1..] == [y];
    FanOutCons(s, [x, y], call);
    assert [call(s, x).result.value] + [call(call(s, x).state, y).result.value]
      == [call(s, x).result.value, call(call(s, x).state, y).result.value];
  }

  /** A fan-out over two elements whose first call succeeds and whose
      second fails fails with the second's failure, in its final state. */
  lemma FanOutPairFails<A, T, S>(s: S, x: A, y: A, call: (S, A) -> Step<T, S>)
    requires call(s, x).result.Ok? && call(call(s, x).state, y).result.Err?
    ensures var second := call(call(s, x).state, y);
      FanOut(s, [x, y], call) == Step(Err(second.result.error), second.state)
  {
    var second := call(call(s, x).state, y);
    assert [x, y][1..] == [y] && [y][1..] == [];
    assert FanOut(second.state, [], call) == Step(Ok([]), second.state);
    assert FanOut(call(s, x).state, [y], call) == Step(Err(second.result.error), second.state);
  }

  /** A fan-out of calls that all fail the same way, leaving the state
      alone, fails that way. */
  lemma FanOutAllFail<A, T, S>(s: S, xs: seq<A>, call: (S, A) -> Step<T, S>, e: Error)
    requires |xs| > 0
    requires forall a | a in xs :: call(s, a) == Step(Err(e), s)
    ensures FanOut(s, xs, call) == Step(Err(e), s)
  {
    FanOutPure(s, xs, call);
    assert xs[0] in xs;
  }

  /** Fan-outs of two calls that agree on every element agree. */
  lemma {:induction false} FanOutAgree<A, T, S>(s: S, xs: seq<A>, f: (S, A) -> Step<T, S>, g: (S, A) -> Step<T, S>)
    requires forall s': S, a | a in xs :: f(s', a) == g(s', a)
    ensures FanOut(s, xs, f) == FanOut(s, xs, g)
    decreases |xs|
  {
    if |xs| > 0 {
      assert xs[0] in xs;
      assert forall a | a in xs[1..] :: a in xs;
      FanOutAgree(f(s, xs[0]).state, xs[1..], f, g);
    }
  }

  /** Two calls settle alike when they leave the same state and fail, or
      succeed, together, with the same error. */
  ghost predicate Alike<T, U, S>(a: Step<T, S>, b: Step<U, S>) {
    a.state == b.state && (a.result.Ok? <==> b.result.Ok?) && (a.result.Err? ==> a.result.error == b.result.error)
  }

  /** Fan-outs of two calls that settle alike on every element settle
      alike, whatever values each returns. */
  lemma {:induction false} FanOutAlike<A, T, U, S>(s: S, xs: seq<A>, f: (S, A) -> Step<T, S>, g: (S, A) -> Step<U, S>)
    requires forall s': S, a | a in xs :: Alike(f(s', a), g(s', a))
    ensures Alike(FanOut(s, xs, f), FanOut(s, xs, g))
    decreases |xs|
  {
    if |xs| > 0 {
      assert xs[0] in xs;
      assert forall a | a in xs[1..] :: a in xs;
      FanOutAlike(f(s, xs[0]).state, xs[1..], f, g);
    }
  }
}

=== FILE: s3_adapter.dfy ===
/** The older object-storage adapter. Its reads, existence check, writes and
    deletes are the provider's, and its create, update, createMany,
    deleteMany and edit follow the same rules as the operations layer; it
    lists a collection with one request, and its deleteAll passes each
    listed key as an id. */
module S3Adapter {
  import opened Base
  import opened Storage
  import opened ObjectStore
  import opened Providers
  import Operations
  import S3Provider

  /** The first `DefaultMaxKeys` of `n` keys. */
  function Capped(n: nat): (m: nat)
    ensures m <= n && m <= DefaultMaxKeys
    ensures n <= DefaultMaxKeys ==> m == n
    ensures n >= DefaultMaxKeys ==> m == DefaultMaxKeys
  {
    if n <= DefaultMaxKeys then n else DefaultMaxKeys
  }

  /** listEntries: one listing request with no continuation, so at most the
      service's default page of keys. */
  function ListEntries(st: Store, collection: string): (r: Result<seq<string>>)
    ensures var all := Under(st.objects, collection + "/");
      if collection + "/" in st.faults then r == Err(Native(st.faults[collection + "/"]))
      else r == Ok(all[..Capped(|all|)])
  {
    var prefix := collection + "/";
    match ListObjectsV2(st, prefix, None, DefaultMaxKeys)
    case Threw(f) => Err(Native(f))
    case Done(page) =>
      S3Provider.PageFacts(st, prefix, None, DefaultMaxKeys);
      Ok(S3Provider.PageKeys(page))
  }

  /** The adapter's primitives in the provider shape, listing with
      `ListEntries`. */
  function Instance(): (p: Provider<Store>)
    ensures p.readSettled == S3Provider.Instance().readSettled
    ensures p.readAwaited == S3Provider.Instance().readAwaited
    ensures p.objectExists == S3Provider.Instance().objectExists
    ensures p.upsert == S3Provider.Instance().upsert
    ensures p.deleteObject == S3Provider.Instance().deleteObject
    ensures forall st, collection :: p.keys(st, collection) == Step(ListEntries(st, collection), st)
  {
    S3Provider.Instance().(keys := (st, collection) => Step(ListEntries(st, collection), st))
  }

  /** deleteAll: for every listed key, deletes the record whose id is that
      whole key, that is `collection/<key>.json`. */
  function DeleteAll(st: Store, collection: string): Step<(), Store>
  {
    match ListEntries(st, collection)
    case Err(e) => Step(Err(e), st)
    case Ok(keys) => Operations.Discard(FanOut(st, keys, Operations.DeleteCall(Instance(), collection)))
  }
}

=== FILE: s3_provider.dfy ===
/** The object-storage provider: error translation on reads, a paginated
    key listing, and writes at the `collection/id.json` key. */
module S3Provider {
  import opened Base
  import opened Storage
  import opened ObjectStore
  import opened Providers
  import opened Key

  /** The `MaxKeys` each listing request asks for. */
  const PageSize: nat := 50

  /** getByKey: `NoSuchKey` becomes `KeyNotFound`, a response without a body
      is `NoBody`, and any other failure propagates unchanged. */
  function GetByKey(st: Store, key: string): (r: Result<Record>)
    ensures r.Ok? <==> key !in st.faults && key in Contents(st) && Contents(st)[key].Some?
    ensures r.Ok? ==> Contents(st)[key] == Some(r.value)
    ensures r == Err(KeyNotFound) <==>
      if key in st.faults then st.faults[key] == NoSuchKey else key !in Contents(st)
    ensures r == Err(NoBody) <==> key !in st.faults && key in Contents(st) && Contents(st)[key].None?
    ensures key in st.faults && st.faults[key] != NoSuchKey ==> r == Err(Native(st.faults[key]))
  {
    match GetObject(st, key)
    case Threw(NoSuchKey) => Err(KeyNotFound)
    case Threw(f) => Err(Native(f))
    case Done(None) => Err(NoBody)
    case Done(Some(record)) => Ok(record)
  }

  /** exists: a successful HeadObject is `true`, `NotFound` is `false`, and
      any other failure propagates. */
  function Exists(st: Store, collection: string, id: string): (r: Result<bool>)
    ensures var key := ToKey(collection, id);
      if key !in st.faults then r == Ok(key in Contents(st))
      else if st.faults[key] == NotFound then r == Ok(false)
      else r == Err(Native(st.faults[key]))
  {
    match HeadObject(st, ToKey(collection, id))
    case Done(_) => Ok(true)
    case Threw(NotFound) => Ok(false)
    case Threw(f) => Err(Native(f))
  }

  /** The defined keys among a page's entries, in order. */
  function DefinedKeys(entries: seq<Option<string>>): (ks: seq<string>)
    ensures forall k :: k in ks <==> Some(k) in entries
    ensures |ks| <= |entries|
  {
    if |entries| == 0 then []
    else (if entries[0].Some? then [entries[0].value] else []) + DefinedKeys(entries[1..])
  }

  /** `(response.Contents ?? []).filter(defined).map(key)`. */
  function PageKeys(page: Page): (ks: seq<string>)
    ensures page.contents.None? ==> ks == []
    ensures forall k :: k in ks <==> page.contents.Some? && Some(k) in page.contents.value
  {
    match page.contents
    case None => []
    case Some(entries) => DefinedKeys(entries)
  }

  /** A response that ends the listing loop: a thrown error, or a page that
      is not truncated. */
  predicate Ends(response: Outcome<Page>) {
    response.Threw? || !response.value.truncated
  }

  /** The keys of every page among `responses`, in order. */
  function Accumulated(responses: seq<Outcome<Page>>): seq<string> {
    if |responses| == 0 then []
    else (if responses[0].Done? then PageKeys(responses[0].value) else []) + Accumulated(responses[1..])
  }

  lemma {:induction false} AccumulatedSnoc(responses: seq<Outcome<Page>>, last: Outcome<Page>)
    ensures Accumulated(responses + [last])
         == Accumulated(responses) + (if last.Done? then PageKeys(last.value) else [])
    decreases |responses|
  {
    if |responses| > 0 {
      assert (responses + [last])[1..] == responses[1..] + [last];
      AccumulatedSnoc(responses[1..], last);
    }
  }

  /** The position of the response that ends the loop. */
  function FirstEnd(responses: seq<Outcome<Page>>): (n: nat)
    requires exists i | 0 <= i < |responses| :: Ends(responses[i])
    ensures n < |responses| && Ends(responses[n])
    ensures forall j | 0 <= j < n :: !Ends(responses[j])
    decreases |responses|
  {
    if Ends(responses[0]) then 0
    else
      assert exists i | 0 <= i < |responses[1..]| :: Ends(responses[1..][i]) by {
        var i :| 0 <= i < |responses| && Ends(responses[i]);
        assert responses[1..][i - 1] == responses[i];
      }
      var n := FirstEnd(responses[1..]);
      assert forall j | 1 <= j < n + 1 :: responses[j] == responses[1..][j - 1];
      n + 1
  }

  /** The continuation token a response hands to the next request. */
  function NextToken(response: Outcome<Page>): Option<nat> {
    if response.Done? then response.value.next else None
  }

  /** The tokens of the requests that produced `responses` and of the one
      after them: the first request carries none, and each later one
      carries its predecessor's continuation token. */
  function Sent(responses: seq<Outcome<Page>>): (tokens: seq<Option<nat>>)
    ensures |tokens| == |responses| + 1 && tokens[0] == None
    ensures forall k | 0 < k < |tokens| :: tokens[k] == NextToken(responses[k - 1])
  {
    if |responses| == 0 then [None]
    else
      var n := |responses| - 1;
      assert forall j | 0 <= j < n :: responses[..n][j] == responses[j];
      Sent(responses[..n]) + [NextToken(responses[n])]
  }

  /** The `keys` loop of the provider. `responses[i]` is the backend's answer
      to the i-th listing request, and `requests` records the continuation
      token each request carried. The loop stops at the first response that
      throws or is not truncated, and returns every defined key seen up to
      and including that page. */
  method CollectKeys(responses: seq<Outcome<Page>>) returns (r: Result<seq<string>>, requests: seq<Option<nat>>)
    requires exists i | 0 <= i < |responses| :: Ends(responses[i])
    ensures var n := FirstEnd(responses);
      && (responses[n].Threw? ==> r == Err(Native(responses[n].fault)))
      && (responses[n].Done? ==> r == Ok(Accumulated(responses[..n + 1])))
    ensures |requests| == FirstEnd(responses) + 1 && requests[0] == None
    ensures forall k | 0 < k < |requests| :: responses[k - 1].Done? && requests[k] == responses[k - 1].value.next
  {
    var accumulated: seq<string> := [];
    var token: Option<nat> := None;
    var i := 0;
    requests := [token];
    while true
      invariant 0 <= i <= FirstEnd(responses)
      invariant accumulated == Accumulated(responses[..i])
      invariant requests == Sent(responses[..i])
      invariant token == requests[i]
      decreases FirstEnd(responses) - i
    {
      var response := responses[i];
      if response.Threw? {
        r := Err(Native(response.fault));
        break;
      }
      PageStep(responses, i);
      accumulated := accumulated + PageKeys(response.value);
      if !response.value.truncated {
        r := Ok(accumulated);
        break;
      }
      token := response.value.next;
      requests := requests + [token];
      i := i + 1;
    }
    SentBeforeEnd(responses);
  }

  /** One more response extends what was accumulated and sent. */
  lemma PageStep(responses: seq<Outcome<Page>>, i: nat)
    requires i < |responses|
    ensures Accumulated(responses[..i + 1])
         == Accumulated(responses[..i]) + (if responses[i].Done? then PageKeys(responses[i].value) else [])
    ensures Sent(responses[..i + 1]) == Sent(responses[..i]) + [NextToken(responses[i])]
  {
    AccumulatedSnoc(responses[..i], responses[i]);
    assert responses[..i + 1] == responses[..i] + [responses[i]];
    assert responses[..i + 1][..i] == responses[..i];
  }

  /** Every request before the ending response carries the token of a page. */
  lemma SentBeforeEnd(responses: seq<Outcome<Page>>)
    requires exists i | 0 <= i < |responses| :: Ends(responses[i])
    ensures var n := FirstEnd(responses);
      forall k | 0 < k < n + 1 :: responses[k - 1].Done? && Sent(responses[..n])[k] == responses[k - 1].value.next
  {
    var n := FirstEnd(responses);
    assert forall j | 0 <= j < n :: responses[..n][j] == responses[j];
  }

  /** The responses the listing loop receives from the backend when it
      starts with `token` and passes each page's continuation token on. */
  function Run(st: Store, prefix: string, token: Option<nat>): (responses: seq<Outcome<Page>>)
    ensures |responses| >= 1 && Ends(responses[|responses| - 1])
    ensures forall j | 0 <= j < |responses| - 1 :: !Ends(responses[j])
    ensures prefix in st.faults ==> responses == [Threw(st.faults[prefix])]
    ensures prefix !in st.faults ==> forall j | 0 <= j < |responses| :: responses[j].Done?
    decreases |Under(st.objects, prefix)| - Resume(token, |Under(st.objects, prefix)|)
  {
    var response := ListObjectsV2(st, prefix, token, PageSize);
    if Ends(response) then [response]
    else
      var rest := Run(st, prefix, response.value.next);
      assert forall j | 1 <= j < |rest| + 1 :: ([response] + rest)[j] == rest[j - 1];
      [response] + rest
  }

  /** A page built from a run of keys lists exactly those keys. */
  lemma DefinedRoundTrip(keys: seq<string>)
    ensures DefinedKeys(Defined(keys)) == keys
  {
    if |keys| > 0 {
      assert Defined(keys)[1..] == Defined(keys[1..]);
      DefinedRoundTrip(keys[1..]);
    }
  }

  /** One listing request from `token` returns the next at most `maxKeys`
      keys under `prefix`; it is truncated exactly when keys remain, and then
      its token points just past them. */
  lemma PageFacts(st: Store, prefix: string, token: Option<nat>, maxKeys: nat)
    requires prefix !in st.faults && maxKeys > 0
    ensures var all := Under(st.objects, prefix);
      var start := Resume(token, |all|);
      var end := PageEnd(start, maxKeys, |all|);
      var response := ListObjectsV2(st, prefix, token, maxKeys);
      && response.Done?
      && PageKeys(response.value) == all[start..end]
      && (response.value.truncated <==> end < |all|)
      && (response.value.truncated ==> Resume(response.value.next, |all|) == end)
  {
    PageOfFacts(Under(st.objects, prefix), token, maxKeys);
  }

  /** The same facts for the page cut from any key list `all`. */
  lemma PageOfFacts(all: seq<string>, token: Option<nat>, maxKeys: nat)
    requires maxKeys > 0
    ensures var start := Resume(token, |all|);
      var end := PageEnd(start, maxKeys, |all|);
      var page := PageOf(all, token, maxKeys);
      && PageKeys(page) == all[start..end]
      && (page.truncated <==> end < |all|)
      && (page.truncated ==> Resume(page.next, |all|) == end)
  {
    var start := Resume(token, |all|);
    var end := PageEnd(start, maxKeys, |all|);
    PageOfShape(all, token, maxKeys, start, end);
    ChunkKeys(all[start..end], end < |all|, if end < |all| then Some(end) else None);
  }

  /** The page cut from `all` is the chunk between `start` and `end`. */
  lemma PageOfShape(all: seq<string>, token: Option<nat>, maxKeys: nat, start: nat, end: nat)
    requires maxKeys > 0 && start == Resume(token, |all|)
    requires end == PageEnd(start, maxKeys, |all|)
    ensures var chunk := all[start..end];
      PageOf(all, token, maxKeys) ==
        Page(if chunk == [] then None else Some(Defined(chunk)),
             end < |all|, if end < |all| then Some(end) else None)
  {
  }

  /** The keys of a page built from `chunk` are `chunk`. */
  lemma ChunkKeys(chunk: seq<string>, truncated: bool, next: Option<nat>)
    ensures PageKeys(Page(if chunk == [] then None else Some(Defined(chunk)), truncated, next)) == chunk
  {
    if chunk != [] {
      DefinedRoundTrip(chunk);
    }
  }

  /** The listing loop stops after one request when at most a page of keys
      remains; otherwise the next request resumes one page further on. */
  lemma RunStep(st: Store, prefix: string, token: Option<nat>)
    requires prefix !in st.faults
    ensures var all := Under(st.objects, prefix);
      var start := Resume(token, |all|);
      var rs := Run(st, prefix, token);
      && (|all| - start <= PageSize ==> |rs| == 1)
      && (|all| - start > PageSize ==> |rs| == 1 + |Run(st, prefix, Some(start + PageSize))|)
  {
    PageFacts(st, prefix, token, PageSize);
  }

  /** Following the continuation tokens from `token` collects every key
      under `prefix` from the token's position on, each once, in order. */
  lemma RunCollects(st: Store, prefix: string, token: Option<nat>)
    ensures var all := Under(st.objects, prefix);
      prefix !in st.faults ==> Accumulated(Run(st, prefix, token)) == all[Resume(token, |all|)..]
  {
    if prefix !in st.faults {
      var all := Under(st.objects, prefix);
      CollectsFrom(st, prefix, token, |all| - Resume(token, |all|));
    }
  }

  lemma {:induction false} CollectsFrom(st: Store, prefix: string, token: Option<nat>, remaining: nat)
    requires prefix !in st.faults
    requires remaining == |Under(st.objects, prefix)| - Resume(token, |Under(st.objects, prefix)|)
    ensures var all := Under(st.objects, prefix);
      Accumulated(Run(st, prefix, token)) == all[Resume(token, |all|)..]
    decreases remaining
  {
    var all := Under(st.objects, prefix);
    var start := Resume(token, |all|);
    var rs := Run(st, prefix, token);
    FirstPage(st, prefix, token);
    if remaining > PageSize {
      var next := Some(start + PageSize);
      assert Resume(next, |all|) == start + PageSize;
      CollectsFrom(st, prefix, next, remaining - PageSize);
      assert Accumulated(rs[1..]) == all[start + PageSize..];
      SliceJoin(all, start, start + PageSize);
    } else {
      assert Accumulated(rs[1..]) == [];
      assert all[start..|all|] == all[start..];
    }
  }

  /** The first page of the listing loop holds the next page of keys, and
      the loop goes on from just past them exactly when keys remain. */
  lemma FirstPage(st: Store, prefix: string, token: Option<nat>)
    requires prefix !in st.faults
    ensures var all := Under(st.objects, prefix);
      var start := Resume(token, |all|);
      var end := PageEnd(start, PageSize, |all|);
      var rs := Run(st, prefix, token);
      && Accumulated(rs) == all[start..end] + Accumulated(rs[1..])
      && (|all| - start <= PageSize ==> rs[1..] == [])
      && (|all| - start > PageSize ==> rs[1..] == Run(st, prefix, Some(end)))
  {
    var response := ListObjectsV2(st, prefix, token, PageSize);
    PageFacts(st, prefix, token, PageSize);
    var rs := Run(st, prefix, token);
    assert rs[0] == response;
  }

  lemma SliceJoin<T>(s: seq<T>, i: nat, j: nat)
    requires i <= j <= |s|
    ensures s[i..] == s[i..j] + s[j..]
  {
  }

  /** keys: the whole listing of the collection, page by page. */
  function Keys(st: Store, collection: string): (r: Result<seq<string>>)
    ensures collection + "/" !in st.faults ==> r == Ok(Under(st.objects, collection + "/"))
    ensures collection + "/" in st.faults ==> r == Err(Native(st.faults[collection + "/"]))
  {
    var prefix := collection + "/";
    var responses := Run(st, prefix, None);
    var last := responses[|responses| - 1];
    RunCollects(st, prefix, None);
    if last.Threw? then Err(Native(last.fault)) else Ok(Accumulated(responses))
  }

  /** keys run through the loop itself: `CollectKeys`, given the answers
      the backend returns to the requests it sends, yields the listing
      `Keys` states. */
  method KeysByLoop(st: Store, collection: string) returns (r: Result<seq<string>>)
    ensures r == Keys(st, collection)
    ensures collection + "/" !in st.faults ==> r == Ok(Under(st.objects, collection + "/"))
  {
    var responses := Run(st, collection + "/", None);
    var n := |responses| - 1;
    assert Ends(responses[n]);
    var requests;
    r, requests := CollectKeys(responses);
    assert FirstEnd(responses) == n;
    assert responses[..n + 1] == responses;
  }

  /** upsert: writes `data` at `collection/data.id.json` and returns it
      unchanged. */
  function Upsert(st: Store, collection: string, data: Record): (r: Step<Record, Store>)
    ensures var key := ToKey(collection, data.id);
      if key in st.faults then r == Step(Err(Native(st.faults[key])), st)
      else r.result == Ok(data) && r.state == Write(st, key, Some(data))
  {
    match PutObject(st, ToKey(collection, data.id), data)
    case Effect(Done(_), after) => Step(Ok(data), after)
    case Effect(Threw(f), after) => Step(Err(Native(f)), after)
  }

  /** deleteObject: removes `collection/id.json`; a missing key is no error. */
  function DeleteObject(st: Store, collection: string, id: string): (r: Step<(), Store>)
    ensures var key := ToKey(collection, id);
      if key in st.faults then r == Step(Err(Native(st.faults[key])), st)
      else r.result == Ok(()) && r.state == Erase(st, key)
  {
    match ObjectStore.DeleteObject(st, ToKey(collection, id))
    case Effect(Done(_), after) => Step(Ok(()), after)
    case Effect(Threw(f), after) => Step(Err(Native(f)), after)
  }

  /** The provider over object storage. Reads leave the store unchanged, and
      none settles before it awaits `GetObject`. */
  function Instance(): Provider<Store> {
    Provider(
      (st, key) => None,
      (st, key) => Step(GetByKey(st, key), st),
      (st, collection, id) => Step(Exists(st, collection, id), st),
      (st, collection) => Step(Keys(st, collection), st),
      (st, collection, data) => Upsert(st, collection, data),
      (st, collection, id) => DeleteObject(st, collection, id))
  }
}

=== FILE: storage.dfy ===
/** The backend state every provider and adapter works on: an ordered list of
    objects with distinct keys (the order stands for the backend's listing
    order), plus the native faults that calls touching a given path raise. */
module Storage {
  import opened Base

  /** One stored object. `body` is `None` for an object whose read returns no
      payload. */
  datatype Obj = Obj(key: string, body: Option<Record>)

  function KeyList(objs: seq<Obj>): (ks: seq<string>)
    ensures |ks| == |objs|
    ensures forall i | 0 <= i < |objs| :: ks[i] == objs[i].key
  {
    if |objs| == 0 then [] else [objs[0].key] + KeyList(objs[1..])
  }

  predicate Distinct(ks: seq<string>) {
    forall i, j | 0 <= i < j < |ks| :: ks[i] != ks[j]
  }

  lemma DistinctCons(k: string, ks: seq<string>)
    ensures Distinct([k] + ks) <==> k !in ks && Distinct(ks)
  {
    if k !in ks && Distinct(ks) {
      forall i, j | 0 <= i < j < |[k] + ks| ensures ([k] + ks)[i] != ([k] + ks)[j] {
        if i > 0 {
          assert ([k] + ks)[i] == ks[i - 1];
        }
        assert ([k] + ks)[j] == ks[j - 1];
      }
    }
    if Distinct([k] + ks) {
      forall i, j | 0 <= i < j < |ks| ensures ks[i] != ks[j] {
        assert ks[i] == ([k] + ks)[i + 1];
        assert ks[j] == ([k] + ks)[j + 1];
      }
      forall j | 0 <= j < |ks| ensures ks[j] != k {
        assert ([k] + ks)[j + 1] == ks[j];
        assert ([k] + ks)[0] == k;
      }
    }
  }

  /** The keys of a list are its first key followed by the keys of the rest. */
  lemma KeyListCons(objs: seq<Obj>)
    requires |objs| > 0
    ensures KeyList(objs) == [objs[0].key] + KeyList(objs[1..])
  {
  }

  type Objects = objs: seq<Obj> | Distinct(KeyList(objs)) witness []

  datatype Store = Store(objects: Objects, faults: map<string, Fault>)

  /** What a raw backend call produced and the store it leaves behind. */
  datatype Effect<+T> = Effect(outcome: Outcome<T>, store: Store)

  /** The store as a map from key to body. */
  function View(objs: seq<Obj>): (m: map<string, Option<Record>>)
    ensures forall k :: k in m <==> k in KeyList(objs)
  {
    if |objs| == 0 then map[] else View(objs[1..])[objs[0].key := objs[0].body]
  }

  function Contents(st: Store): map<string, Option<Record>> {
    View(st.objects)
  }

  /** Writes `body` at `key`: an existing object keeps its place in the
      listing order, a new one goes last. */
  function Put(objs: seq<Obj>, key: string, body: Option<Record>): (r: seq<Obj>)
    ensures View(r) == View(objs)[key := body]
    ensures KeyList(r) == if key in KeyList(objs) then KeyList(objs) else KeyList(objs) + [key]
  {
    if |objs| == 0 then [Obj(key, body)]
    else if objs[0].key == key then
      var r := [Obj(key, body)] + objs[1..];
      assert r[1..] == objs[1..];
      UpdateTwice(View(objs[1..]), key, objs[0].body, body);
      r
    else
      var r := [objs[0]] + Put(objs[1..], key, body);
      assert r[1..] == Put(objs[1..], key, body);
      UpdateCommutes(View(objs[1..]), objs[0].key, objs[0].body, key, body);
      r
  }

  lemma UpdateTwice<K, V>(m: map<K, V>, k: K, v: V, w: V)
    ensures m[k := v][k := w] == m[k := w]
  {
  }

  lemma UpdateCommutes<K, V>(m: map<K, V>, k: K, v: V, key: K, w: V)
    requires k != key
    ensures m[key := w][k := v] == m[k := v][key := w]
  {
  }

  /** Deletes every object at `key`, keeping the others in order. */
  function Remove(objs: seq<Obj>, key: string): (r: seq<Obj>)
    ensures View(r) == View(objs) - {key}
  {
    if |objs| == 0 then []
    else
      var rest := Remove(objs[1..], key);
      if objs[0].key == key then
        UpdateThenDrop(View(objs[1..]), key, objs[0].body);
        rest
      else
        var r := [objs[0]] + rest;
        assert r[1..] == rest;
        DropCommutes(View(objs[1..]), objs[0].key, objs[0].body, key);
        r
  }

  /** Deleting a key that is not stored changes nothing. */
  lemma {:induction false} RemoveAbsent(objs: seq<Obj>, key: string)
    requires key !in KeyList(objs)
    ensures Remove(objs, key) == objs
    decreases |objs|
  {
    if |objs| > 0 {
      KeyListCons(objs);
      RemoveAbsent(objs[1..], key);
      assert objs == [objs[0]] + objs[1..];
    }
  }

  lemma UpdateThenDrop<K, V>(m: map<K, V>, k: K, v: V)
    ensures m[k := v] - {k} == m - {k}
  {
    var a, b := m[k := v] - {k}, m - {k};
    assert a.Keys == b.Keys;
    assert forall x | x in a :: a[x] == b[x];
  }

  lemma DropCommutes<K, V>(m: map<K, V>, k: K, v: V, key: K)
    requires k != key
    ensures m[k := v] - {key} == (m - {key})[k := v]
  {
    var a, b := m[k := v] - {key}, (m - {key})[k := v];
    assert a.Keys == b.Keys;
    assert forall x | x in a :: a[x] == b[x];
  }

  lemma {:induction false} PutDistinct(objs: seq<Obj>, key: string, body: Option<Record>)
    requires Distinct(KeyList(objs))
    ensures Distinct(KeyList(Put(objs, key, body)))
  {
    if key !in KeyList(objs) {
      var ks := KeyList(objs);
      assert forall i | 0 <= i < |ks| :: (ks + [key])[i] == ks[i];
    }
  }

  lemma {:induction false} RemoveDistinct(objs: seq<Obj>, key: string)
    requires Distinct(KeyList(objs))
    ensures Distinct(KeyList(Remove(objs, key)))
  {
    if |objs| > 0 {
      KeyListCons(objs);
      DistinctCons(objs[0].key, KeyList(objs[1..]));
      RemoveDistinct(objs[1..], key);
      if objs[0].key != key {
        var r := [objs[0]] + Remove(objs[1..], key);
        KeyListCons(r);
        assert r[1..] == Remove(objs[1..], key);
        DistinctCons(objs[0].key, KeyList(r[1..]));
      }
    }
  }

  /** The keys starting with `prefix`, in listing order. */
  function Under(objs: seq<Obj>, prefix: string): (ks: seq<string>)
    ensures forall k :: k in ks <==> k in KeyList(objs) && prefix <= k
  {
    if |objs| == 0 then []
    else
      KeyListCons(objs);
      var rest := Under(objs[1..], prefix);
      if prefix <= objs[0].key then [objs[0].key] + rest
      else rest
  }

  /** The listing of a prefix repeats no key. */
  lemma {:induction false} UnderDistinct(objs: seq<Obj>, prefix: string)
    requires Distinct(KeyList(objs))
    ensures Distinct(Under(objs, prefix))
    decreases |objs|
  {
    if |objs| > 0 {
      KeyListCons(objs);
      DistinctCons(objs[0].key, KeyList(objs[1..]));
      UnderDistinct(objs[1..], prefix);
      if prefix <= objs[0].key {
        DistinctCons(objs[0].key, Under(objs[1..], prefix));
      }
    }
  }

  /** Writing outside a prefix leaves the listing under it unchanged. */
  lemma {:induction false} UnderPut(objs: seq<Obj>, key: string, body: Option<Record>, prefix: string)
    requires !(prefix <= key)
    ensures Under(Put(objs, key, body), prefix) == Under(objs, prefix)
    decreases |objs|
  {
    if |objs| > 0 && objs[0].key != key {
      var r := [objs[0]] + Put(objs[1..], key, body);
      assert r[1..] == Put(objs[1..], key, body);
      UnderPut(objs[1..], key, body, prefix);
    } else if |objs| > 0 {
      assert ([Obj(key, body)] + objs[1..])[1..] == objs[1..];
    }
  }

  /** Writing a new key under a prefix appends it to the listing. */
  lemma {:induction false} UnderPutNew(objs: seq<Obj>, key: string, body: Option<Record>, prefix: string)
    requires key !in KeyList(objs) && prefix <= key
    ensures Under(Put(objs, key, body), prefix) == Under(objs, prefix) + [key]
    decreases |objs|
  {
    if |objs| > 0 {
      KeyListCons(objs);
      var r := [objs[0]] + Put(objs[1..], key, body);
      assert r[1..] == Put(objs[1..], key, body);
      UnderPutNew(objs[1..], key, body, prefix);
    }
  }

  /** Deleting outside a prefix leaves the listing under it unchanged. */
  lemma {:induction false} UnderRemove(objs: seq<Obj>, key: string, prefix: string)
    requires !(prefix <= key)
    ensures Under(Remove(objs, key), prefix) == Under(objs, prefix)
    decreases |objs|
  {
    if |objs| > 0 {
      UnderRemove(objs[1..], key, prefix);
      if objs[0].key != key {
        var r := [objs[0]] + Remove(objs[1..], key);
        assert r[1..] == Remove(objs[1..], key);
      }
    }
  }

  function Write(st: Store, key: string, body: Option<Record>): (r: Store)
    ensures Contents(r) == Contents(st)[key := body] && r.faults == st.faults
  {
    PutDistinct(st.objects, key, body);
    Store(Put(st.objects, key, body), st.faults)
  }

  function Erase(st: Store, key: string): (r: Store)
    ensures Contents(r) == Contents(st) - {key} && r.faults == st.faults
  {
    RemoveDistinct(st.objects, key);
    Store(Remove(st.objects, key), st.faults)
  }
}

=== FILE: text.dfy ===
/** The JavaScript string operations the key scheme relies on. */
module Text {
  import opened Base

  /** The position of the first `c` in `s`, if any. */
  function IndexOf(s: string, c: char): (r: Option<nat>)
    ensures r.Some? ==> r.value < |s| && s[r.value] == c && c !in s[..r.value]
    ensures r.None? <==> c !in s
  {
    if |s| == 0 then None
    else if s[0] == c then Some(0)
    else match IndexOf(s[1..], c)
      case None => None
      case Some(i) => Some(i + 1)
  }

  /** Glues `parts` back together with `sep` between neighbours. */
  function Join(parts: seq<string>, sep: char): string
    requires |parts| >= 1
  {
    if |parts| == 1 then parts[0] else parts[0] + [sep] + Join(parts[1..], sep)
  }

  /** `s.split(sep)` for a one-character separator: the maximal pieces of `s`
      between separators, in order; a string without `sep` is one piece. */
  function Split(s: string, sep: char): (parts: seq<string>)
    ensures |parts| >= 1
    ensures forall i | 0 <= i < |parts| :: sep !in parts[i]
    ensures Join(parts, sep) == s
    decreases |s|
  {
    match IndexOf(s, sep)
    case None => [s]
    case Some(i) =>
      assert s == s[..i] + [sep] + s[i + 1..];
      [s[..i]] + Split(s[i + 1..], sep)
  }

  /** A string without the separator is a single piece. */
  lemma SplitWithout(s: string, sep: char)
    requires sep !in s
    ensures Split(s, sep) == [s]
  {
  }

  /** Splitting at a first separator peels off the piece before it. */
  lemma {:induction false} SplitAt(a: string, sep: char, b: string)
    requires sep !in a
    ensures Split(a + [sep] + b, sep) == [a] + Split(b, sep)
  {
    var s := a + [sep] + b;
    var i := IndexOf(s, sep);
    IndexOfAfter(a, sep, b);
    assert i == Some(|a|);
    assert s[..|a|] == a;
    assert s[|a| + 1..] == b;
  }

  lemma {:induction false} IndexOfAfter(a: string, sep: char, b: string)
    requires sep !in a
    ensures IndexOf(a + [sep] + b, sep) == Some(|a|)
  {
    var s := a + [sep] + b;
    if |a| == 0 {
      assert s[0] == sep;
    } else {
      assert s[0] == a[0];
      assert s[1..] == a[1..] + [sep] + b;
      IndexOfAfter(a[1..], sep, b);
    }
  }

  /** The first piece is everything before the first separator, so text after
      that separator never changes it. */
  lemma {:induction false} SplitHead(a: string, sep: char, b: string)
    ensures Split(a + [sep] + b, sep)[0] == Split(a, sep)[0]
  {
    match IndexOf(a, sep)
    case None =>
      SplitAt(a, sep, b);
    case Some(i) =>
      var s := a + [sep] + b;
      assert s[..i] == a[..i];
      assert s[i] == sep;
      assert sep !in s[..i];
      FirstIndex(s, sep, i);
  }

  lemma {:induction false} FirstIndex(s: string, sep: char, i: nat)
    requires i < |s| && s[i] == sep && sep !in s[..i]
    ensures IndexOf(s, sep) == Some(i)
  {
    if i > 0 {
      assert s[0] == s[..i][0];
      assert s[1..][..i - 1] == s[..i][1..];
      FirstIndex(s[1..], sep, i - 1);
    }
  }
}

=== FILE: variants.dfy ===
/** The older adapters and the first client against the operations layer
    over the providers: where they agree, and the inputs on which they
    differ. */
module Variants {
  import opened Base
  import opened Storage
  import opened Key
  import opened Providers
  import opened Operations
  import opened OperationsFacts
  import ObjectStore
  import Disk
  import S3Provider
  import FsProvider
  import S3Adapter
  import FsAdapter
  import Clyde

  /** The object-storage adapter's create, update, get and edit are the
      operations layer's over the provider. */
  lemma S3AdapterAgrees(st: Store, collection: string, data: Record, id: string, transform: Record -> Result<Record>)
    ensures Create(S3Adapter.Instance(), st, collection, data) == Create(S3Provider.Instance(), st, collection, data)
    ensures Update(S3Adapter.Instance(), st, collection, data) == Update(S3Provider.Instance(), st, collection, data)
    ensures Get(S3Adapter.Instance(), st, collection, id) == Get(S3Provider.Instance(), st, collection, id)
    ensures Edit(S3Adapter.Instance(), st, collection, id, transform) == Edit(S3Provider.Instance(), st, collection, id, transform)
  {
    S3AdapterWritesAgree(st, collection, data);
    forall modified: Record {
      S3AdapterWritesAgree(st, collection, modified);
    }
  }

  lemma S3AdapterWritesAgree(st: Store, collection: string, data: Record)
    ensures Create(S3Adapter.Instance(), st, collection, data) == Create(S3Provider.Instance(), st, collection, data)
    ensures Update(S3Adapter.Instance(), st, collection, data) == Update(S3Provider.Instance(), st, collection, data)
  {
  }

  /** The object-storage adapter's createMany and deleteMany are the
      operations layer's over the provider. */
  lemma S3AdapterBatchesAgree(st: Store, collection: string, batch: seq<Record>, ids: seq<string>)
    ensures CreateMany(S3Adapter.Instance(), st, collection, batch) == CreateMany(S3Provider.Instance(), st, collection, batch)
    ensures DeleteMany(S3Adapter.Instance(), st, collection, ids) == DeleteMany(S3Provider.Instance(), st, collection, ids)
  {
    var a, p := S3Adapter.Instance(), S3Provider.Instance();
    FanOutAgree(st, batch, RecordExistsCall(a, collection), RecordExistsCall(p, collection));
    var asked := FanOut(st, batch, RecordExistsCall(p, collection));
    FanOutAgree(asked.state, batch, UpsertCall(a, collection), UpsertCall(p, collection));
    FanOutAgree(st, ids, ExistsCall(a, collection), ExistsCall(p, collection));
    var checked := FanOut(st, ids, ExistsCall(p, collection));
    FanOutAgree(checked.state, ids, DeleteCall(a, collection), DeleteCall(p, collection));
  }

  /** The filesystem adapter's create, update, createMany and deleteMany are
      the operations layer's over the provider. */
  lemma FsAdapterAgrees(st: Store, collection: string, data: Record, batch: seq<Record>, ids: seq<string>)
    ensures Create(FsAdapter.Instance(), st, collection, data) == Create(FsProvider.Instance(), st, collection, data)
    ensures Update(FsAdapter.Instance(), st, collection, data) == Update(FsProvider.Instance(), st, collection, data)
    ensures CreateMany(FsAdapter.Instance(), st, collection, batch) == CreateMany(FsProvider.Instance(), st, collection, batch)
    ensures DeleteMany(FsAdapter.Instance(), st, collection, ids) == DeleteMany(FsProvider.Instance(), st, collection, ids)
  {
    var a, p := FsAdapter.Instance(), FsProvider.Instance();
    FanOutAgree(st, batch, RecordExistsCall(a, collection), RecordExistsCall(p, collection));
    var asked := FanOut(st, batch, RecordExistsCall(p, collection));
    FanOutAgree(asked.state, batch, UpsertCall(a, collection), UpsertCall(p, collection));
    FanOutAgree(st, ids, ExistsCall(a, collection), ExistsCall(p, collection));
    var checked := FanOut(st, ids, ExistsCall(p, collection));
    FanOutAgree(checked.state, ids, DeleteCall(a, collection), DeleteCall(p, collection));
  }

  /** The filesystem adapter and the provider read every key alike, except
      a missing file: the adapter passes on the raw `Enoent`, the provider
      reports `KeyNotFound`. */
  lemma FsReadsDiffer(st: Store, key: string)
    ensures FsAdapter.GetByKey(st, key) == FsProvider.GetByKey(st, key) <==> Disk.ReadFile(st, key) != Threw(Enoent)
    ensures Disk.ReadFile(st, key) == Threw(Enoent) ==>
      FsAdapter.GetByKey(st, key) == Err(Native(Enoent)) && FsProvider.GetByKey(st, key) == Err(KeyNotFound)
  {
  }

  /** The first client and the provider read every key alike, except a
      missing one: the client passes on the raw `NoSuchKey`, the provider
      reports `KeyNotFound`. */
  lemma ClydeReadsDiffer(st: Store, key: string)
    ensures Clyde.GetByKey(st, key) == S3Provider.GetByKey(st, key) <==> ObjectStore.GetObject(st, key) != Threw(NoSuchKey)
    ensures ObjectStore.GetObject(st, key) == Threw(NoSuchKey) ==>
      Clyde.GetByKey(st, key) == Err(Native(NoSuchKey)) && S3Provider.GetByKey(st, key) == Err(KeyNotFound)
  {
  }

  /** With one listing request, the object-storage adapter counts at most
      1000 keys, where the provider follows every page; the two agree
      exactly on collections of at most 1000 keys, and so does the first
      client. */
  lemma CountCapped(st: Store, collection: string)
    requires collection + "/" !in st.faults
    ensures var n := |Under(st.objects, collection + "/")|;
      && Count(S3Adapter.Instance(), st, collection).result == Ok(S3Adapter.Capped(n))
      && Clyde.Count(st, collection) == Ok(S3Adapter.Capped(n))
      && Count(S3Provider.Instance(), st, collection).result == Ok(n)
      && (Count(S3Adapter.Instance(), st, collection) == Count(S3Provider.Instance(), st, collection) <==> n <= 1000)
  {
  }

  /** On a collection of at most 1000 keys, `all` through the adapter reads
      what it reads through the provider. */
  lemma AllAgreesOnOnePage(st: Store, collection: string)
    requires collection + "/" !in st.faults && |Under(st.objects, collection + "/")| <= 1000
    ensures All(S3Adapter.Instance(), st, collection) == All(S3Provider.Instance(), st, collection)
  {
    var keys := Under(st.objects, collection + "/");
    assert keys[..S3Adapter.Capped(|keys|)] == keys;
    FanOutAgree(st, keys, ReadCall(S3Adapter.Instance()), ReadCall(S3Provider.Instance()));
  }

  /** A key in the scheme has no '/' after the collection's. */
  lemma SchemeTail(collection: string, key: string)
    requires '/' !in collection
    ensures InScheme(collection, key) ==> collection + "/" <= key && '/' !in key[|collection| + 1..]
  {
    if InScheme(collection, key) {
      var id :| '/' !in id && '.' !in id && key == ToKey(collection, id);
      assert key[|collection| + 1..] == id + ".json";
    }
  }

  /** Deleting keys that are not stored, none of which fails, succeeds and
      changes nothing. */
  lemma DeleteAbsentS3(st: Store, collection: string, ids: seq<string>)
    requires forall i | 0 <= i < |ids| :: ToKey(collection, ids[i]) !in st.faults
    requires forall i | 0 <= i < |ids| :: ToKey(collection, ids[i]) !in Contents(st)
    ensures var r := FanOut(st, ids, DeleteCall(S3Provider.Instance(), collection));
      r.result.Ok? && Contents(r.state) == Contents(st) && r.state.faults == st.faults
  {
    DeleteAllKeysS3(st, collection, ids);
    EraseAllContents(st, collection, ids);
    assert Contents(st) - KeySet(collection, ids) == Contents(st);
  }

  /** A whole key of the collection, used as an id, names a path with a
      second '/' after the collection's. */
  lemma NestedTarget(collection: string, key: string)
    requires collection + "/" <= key
    ensures var target := ToKey(collection, key);
      collection + "/" <= target && '/' in target[|collection| + 1..]
  {
    var target := ToKey(collection, key);
    assert target[|collection| + 1..] == key + ".json";
    assert (key + ".json")[|collection|] == '/';
  }

  /** The path a listed key names, used as an id, holds nothing in a
      collection whose keys are all in the scheme, and has no failure. */
  lemma ListedKeyTarget(st: Store, collection: string, key: string)
    requires '/' !in collection && collection + "/" <= key
    requires forall k | k in st.faults :: !(collection + "/" <= k)
    requires forall k | k in Under(st.objects, collection + "/") :: InScheme(collection, k)
    ensures ToKey(collection, key) !in Contents(st) && ToKey(collection, key) !in st.faults
  {
    var target := ToKey(collection, key);
    NestedTarget(collection, key);
    SchemeTail(collection, target);
    assert target in Contents(st) ==> target in Under(st.objects, collection + "/");
  }

  /** The listed keys' targets, all at once. */
  lemma ListedKeyTargets(st: Store, collection: string, keys: seq<string>)
    requires '/' !in collection
    requires forall i | 0 <= i < |keys| :: collection + "/" <= keys[i]
    requires forall k | k in st.faults :: !(collection + "/" <= k)
    requires forall k | k in Under(st.objects, collection + "/") :: InScheme(collection, k)
    ensures forall i | 0 <= i < |keys| :: ToKey(collection, keys[i]) !in Contents(st) && ToKey(collection, keys[i]) !in st.faults
  {
    forall i | 0 <= i < |keys| ensures ToKey(collection, keys[i]) !in Contents(st) && ToKey(collection, keys[i]) !in st.faults {
      ListedKeyTarget(st, collection, keys[i]);
    }
  }

  /** As written, deleteAll through the object-storage adapter removes
      nothing from a collection whose keys are all in the scheme: it deletes
      `collection/<key>.json` for each listed key, and none is stored. */
  lemma S3AdapterDeleteAllKeeps(st: Store, collection: string)
    requires '/' !in collection
    requires forall k | k in st.faults :: !(collection + "/" <= k)
    requires forall k | k in Under(st.objects, collection + "/") :: InScheme(collection, k)
    ensures var r := S3Adapter.DeleteAll(st, collection);
      r.result.Ok? && Contents(r.state) == Contents(st)
  {
    var all := Under(st.objects, collection + "/");
    var keys := all[..S3Adapter.Capped(|all|)];
    assert forall i | 0 <= i < |keys| :: keys[i] == all[i] && all[i] in all;
    ListedKeyTargets(st, collection, keys);
    FanOutAgree(st, keys, DeleteCall(S3Adapter.Instance(), collection), DeleteCall(S3Provider.Instance(), collection));
    DeleteAbsentS3(st, collection, keys);
  }

  /** As written, the first client's deleteAll removes nothing from such a
      collection either. */
  lemma ClydeDeleteAllKeeps(st: Store, collection: string)
    requires '/' !in collection
    requires forall k | k in st.faults :: !(collection + "/" <= k)
    requires forall k | k in Under(st.objects, collection + "/") :: InScheme(collection, k)
    ensures var r := Clyde.DeleteAll(st, collection);
      r.result.Ok? && Contents(r.state) == Contents(st)
  {
    var all := Under(st.objects, collection + "/");
    var keys := all[..S3Adapter.Capped(|all|)];
    assert forall i | 0 <= i < |keys| :: keys[i] == all[i] && all[i] in all;
    ListedKeyTargets(st, collection, keys);
    FanOutAgree(st, keys, Clyde.DeleteCall(collection), DeleteCall(S3Provider.Instance(), collection));
    DeleteAbsentS3(st, collection, keys);
  }

  /** A collection whose directory holds only files. */
  predicate Flat(st: Store, collection: string) {
    forall k | k in Under(st.objects, collection + "/") :: '/' !in k[|collection| + 1..]
  }

  /** Unlinking `collection/<path>.json` for a path `collection/<name>`
      of a flat collection changes nothing and fails: with `Enotdir` when a
      file lies above that path and with `Enoent` otherwise. */
  lemma FlatTarget(st: Store, collection: string, name: string)
    requires forall k | k in st.faults :: !(collection + "/" <= k)
    requires Flat(st, collection)
    ensures var target := ToKey(collection, collection + "/" + name);
      FsProvider.DeleteObject(st, collection, collection + "/" + name)
        == Step(Err(Native(if Disk.ThroughFile(st, target) then Enotdir else Enoent)), st)
  {
    var id := collection + "/" + name;
    var target := ToKey(collection, id);
    NestedTarget(collection, id);
    assert target in Contents(st) ==> target in Under(st.objects, collection + "/");
    var below := Under(st.objects, target + "/");
    if below != [] {
      FlatNothingBelow(st, collection, name, below[0]);
    }
  }

  /** In a flat collection nothing is stored beneath such a path. */
  lemma FlatNothingBelow(st: Store, collection: string, name: string, k: string)
    requires Flat(st, collection)
    ensures k in Contents(st) ==> !(ToKey(collection, collection + "/" + name) + "/" <= k)
  {
    var target := ToKey(collection, collection + "/" + name);
    if target + "/" <= k {
      assert k[..|target| + 1] == target + "/";
      assert k[..|collection| + 1] == collection + "/";
      assert k[|collection| + 1 + |collection|] == '/';
      assert k[|collection| + 1..][|collection|] == '/';
      assert k in Contents(st) ==> k in Under(st.objects, collection + "/");
    }
  }

  /** A file lies on the path `collection/collection/`, the directory the
      filesystem adapter's deleteAll unlinks in. */
  predicate Shadowed(st: Store, collection: string) {
    Disk.ThroughFile(st, collection + "/" + collection + "/")
  }

  /** For a name without '/', a file lies above the path
      `collection/collection/<name>.json` exactly when the collection is
      shadowed. */
  lemma DoubledTarget(st: Store, collection: string, name: string)
    requires '/' !in name
    ensures Disk.ThroughFile(st, ToKey(collection, collection + "/" + name)) <==> Shadowed(st, collection)
  {
    var target := ToKey(collection, collection + "/" + name);
    var dir := collection + "/" + collection + "/";
    assert target == dir + (name + ".json");
    forall i | 0 <= i < |dir| ensures Disk.FileAbove(st, target, i) <==> Disk.FileAbove(st, dir, i) {
      assert target[i] == dir[i] && target[..i] == dir[..i];
    }
    forall i | |dir| <= i < |target| ensures !Disk.FileAbove(st, target, i) {
      var j := i - |dir|;
      assert target[i] == (name + ".json")[j];
      if j >= |name| {
        assert (name + ".json")[j] == ".json"[j - |name|];
      } else {
        assert name[j] in name;
      }
    }
  }

  /** As written, deleteAll through the filesystem adapter on a flat,
      non-empty collection unlinks `collection/collection/<name>.json` for
      each file name (for `x.json`, `collection/collection/x.json.json`),
      which does not exist: it fails and deletes nothing, with `Enotdir`
      when a file lies on the path `collection/collection/` and with
      `Enoent` otherwise. */
  lemma FsAdapterDeleteAllFails(st: Store, collection: string)
    requires collection !in st.faults
    requires forall k | k in st.faults :: !(collection + "/" <= k)
    requires Flat(st, collection) && Under(st.objects, collection + "/") != []
    ensures FsAdapter.DeleteAll(st, collection)
      == Step(Err(Native(if Shadowed(st, collection) then Enotdir else Enoent)), st)
  {
    FsProvider.FlatListing(st.objects, collection);
    var names := FsProvider.DirectFiles(st.objects, collection + "/");
    var ids := FsProvider.InCollection(collection, names);
    var call := DeleteCall(FsAdapter.Instance(), collection);
    var fault := if Shadowed(st, collection) then Enotdir else Enoent;
    forall id | id in ids ensures call(st, id) == Step(Err(Native(fault)), st) {
      var i :| 0 <= i < |ids| && ids[i] == id;
      assert names[i] in names;
      DoubledDeleteFails(st, collection, names[i]);
    }
    FanOutAllFail(st, ids, call, Native(fault));
    assert FsAdapter.ListEntries(st, collection) == Ok(names);
  }

  /** The adapter's delete of the id `collection/<name>`, for a file name
      of a flat collection. */
  lemma DoubledDeleteFails(st: Store, collection: string, name: string)
    requires forall k | k in st.faults :: !(collection + "/" <= k)
    requires Flat(st, collection) && '/' !in name
    ensures DeleteCall(FsAdapter.Instance(), collection)(st, collection + "/" + name)
      == Step(Err(Native(if Shadowed(st, collection) then Enotdir else Enoent)), st)
  {
    DoubledTarget(st, collection, name);
    FlatTarget(st, collection, name);
  }

  /** Deleting a batch of distinct stored ids from the filesystem, none of
      which fails, unlinks every file in order and succeeds. */
  lemma {:induction false} DeleteAllKeysFs(st: Store, collection: string, ids: seq<string>)
    requires forall i | 0 <= i < |ids| :: ToKey(collection, ids[i]) !in st.faults
    requires forall i | 0 <= i < |ids| :: ToKey(collection, ids[i]) in Contents(st)
    requires forall i, j | 0 <= i < j < |ids| :: ids[i] != ids[j]
    ensures var r := FanOut(st, ids, DeleteCall(FsProvider.Instance(), collection));
      r.result.Ok? && r.state == EraseAll(st, collection, ids)
    decreases |ids|
  {
    if |ids| > 0 {
      var call := DeleteCall(FsProvider.Instance(), collection);
      var mid := Erase(st, ToKey(collection, ids[0]));
      DeleteStepFs(st, collection, ids[0]);
      RestStayStored(st, collection, ids);
      DeleteAllKeysFs(mid, collection, ids[1..]);
      FanOutCons(st, ids, call);
    }
  }

  /** Erasing the first of distinct stored ids leaves the others stored
      and unfailing. */
  lemma RestStayStored(st: Store, collection: string, ids: seq<string>)
    requires |ids| > 0
    requires forall i | 0 <= i < |ids| :: ToKey(collection, ids[i]) !in st.faults
    requires forall i | 0 <= i < |ids| :: ToKey(collection, ids[i]) in Contents(st)
    requires forall i, j | 0 <= i < j < |ids| :: ids[i] != ids[j]
    ensures var mid := Erase(st, ToKey(collection, ids[0]));
      && (forall i | 0 <= i < |ids[1..]| :: ToKey(collection, ids[1..][i]) !in mid.faults)
      && (forall i | 0 <= i < |ids[1..]| :: ToKey(collection, ids[1..][i]) in Contents(mid))
      && (forall i, j | 0 <= i < j < |ids[1..]| :: ids[1..][i] != ids[1..][j])
  {
    var mid := Erase(st, ToKey(collection, ids[0]));
    forall i | 1 <= i < |ids| ensures ToKey(collection, ids[i]) in Contents(mid) {
      if ToKey(collection, ids[i]) == ToKey(collection, ids[0]) {
        ToKeyCancel(collection, ids[i], ids[0]);
      }
    }
    assert forall i | 1 <= i < |ids| :: ids[i] == ids[1..][i - 1];
  }

  /** Unlinking a stored file that does not fail erases it. */
  lemma DeleteStepFs(st: Store, collection: string, id: string)
    requires ToKey(collection, id) !in st.faults && ToKey(collection, id) in Contents(st)
    ensures DeleteCall(FsProvider.Instance(), collection)(st, id) == Step(Ok(()), Erase(st, ToKey(collection, id)))
  {
  }

  /** deleteAll of the operations layer over the filesystem empties a
      collection whose keys are all in the scheme, and leaves every other
      key as it was: the behaviour the adapter's deleteAll falls short of. */
  lemma DeleteAllFs(st: Store, collection: string)
    requires '/' !in collection && collection !in st.faults
    requires forall k | k in st.faults :: !(collection + "/" <= k)
    requires forall k | k in Under(st.objects, collection + "/") :: InScheme(collection, k)
    ensures var r := DeleteAll(FsProvider.Instance(), st, collection);
      && r.result.Ok?
      && Under(r.state.objects, collection + "/") == []
      && r.state.faults == st.faults
      && (forall k | !(collection + "/" <= k) :: (k in Contents(r.state) <==> k in Contents(st)))
  {
    var prefix := collection + "/";
    var keys := Under(st.objects, prefix);
    forall k | k in keys ensures '/' !in k[|collection| + 1..] {
      SchemeTail(collection, k);
    }
    FsProvider.FlatListing(st.objects, collection);
    assert FsProvider.Keys(st, collection) == Ok(keys);
    SchemeIds(collection, keys);
    var ids := IdsOf(keys).value;
    assert AllIds(FsProvider.Instance(), st, collection) == Step(Ok(ids), st);
    ListedKeySet(collection, prefix, keys, ids);
    ListedIdsFs(st, collection, keys, ids);
    DeleteAllKeysFs(st, collection, ids);
    EraseCovering(st, collection, ids, prefix);
    EraseAllContents(st, collection, ids);
  }

  /** The ids read from a listing name distinct stored keys, none failing. */
  lemma ListedIdsFs(st: Store, collection: string, keys: seq<string>, ids: seq<string>)
    requires keys == Under(st.objects, collection + "/")
    requires forall k | k in st.faults :: !(collection + "/" <= k)
    requires |ids| == |keys| && forall i | 0 <= i < |keys| :: ToKey(collection, ids[i]) == keys[i]
    ensures forall i | 0 <= i < |ids| :: ToKey(collection, ids[i]) !in st.faults
    ensures forall i | 0 <= i < |ids| :: ToKey(collection, ids[i]) in Contents(st)
    ensures forall i, j | 0 <= i < j < |ids| :: ids[i] != ids[j]
  {
    UnderDistinct(st.objects, collection + "/");
    forall i | 0 <= i < |ids| ensures ToKey(collection, ids[i]) !in st.faults && ToKey(collection, ids[i]) in Contents(st) {
      assert keys[i] in keys;
    }
  }

  /** The first client's existence check answers as the operations layer over
      the object-storage provider, leaving the store alone. */
  lemma ClydeExistsAgrees(st: Store, collection: string, id: string)
    ensures Clyde.Exists(st, collection, id) == Exists(S3Provider.Instance(), st, collection, id).result
  {
  }

  /** The first client's upsert leaves the same store and fails with the same
      error as the operations layer's; it returns nothing. */
  lemma ClydeUpsertAgrees(st: Store, collection: string, data: Record)
    ensures var r, s := Clyde.Upsert(st, collection, data), Upsert(S3Provider.Instance(), st, collection, data);
      r.state == s.state && (r.result.Ok? <==> s.result.Ok?) && (r.result.Err? ==> r.result.error == s.result.error)
  {
  }

  /** The first client's deleteObject is the operations layer's delete over the
      object-storage provider. */
  lemma ClydeDeleteAgrees(st: Store, collection: string, id: string)
    ensures Clyde.DeleteObject(st, collection, id) == DeleteObject(S3Provider.Instance(), st, collection, id)
  {
  }

  /** The first client's create and update check existence and write as the
      operations layer does over the object-storage provider. */
  lemma ClydeChecksAgree(st: Store, collection: string, data: Record)
    ensures var r, s := Clyde.Create(st, collection, data), Create(S3Provider.Instance(), st, collection, data);
      r.state == s.state && (r.result.Ok? <==> s.result.Ok?) && (r.result.Err? ==> r.result.error == s.result.error)
    ensures var r, s := Clyde.Update(st, collection, data), Update(S3Provider.Instance(), st, collection, data);
      r.state == s.state && (r.result.Ok? <==> s.result.Ok?) && (r.result.Err? ==> r.result.error == s.result.error)
  {
  }

  /** As written, the first client's deleteMany refuses every batch holding
      a stored id and deletes only ids that are not stored, so it never
      changes the stored records. */
  lemma ClydeDeleteManyKeeps(st: Store, collection: string, ids: seq<string>)
    requires forall i | 0 <= i < |ids| :: ToKey(collection, ids[i]) !in st.faults
    ensures var r := Clyde.DeleteMany(st, collection, ids);
      && Contents(r.state) == Contents(st)
      && ((exists i | 0 <= i < |ids| :: ToKey(collection, ids[i]) in Contents(st)) <==> r.result == Err(DuplicateKey))
      && (r.result.Err? ==> r.state == st)
  {
    var call := Clyde.ExistsCall(collection);
    FanOutAgree(st, ids, call, ExistsCall(S3Provider.Instance(), collection));
    ExistsAllS3(st, collection, ids);
    if forall i | 0 <= i < |ids| :: ToKey(collection, ids[i]) !in Contents(st) {
      FanOutAgree(st, ids, Clyde.DeleteCall(collection), DeleteCall(S3Provider.Instance(), collection));
      DeleteAbsentS3(st, collection, ids);
    }
  }

  /** The first client's createMany settles as the operations layer's over
      object storage on every batch: the same final store, and the same
      failure or success. Every create checks existence before any of them
      writes, so a batch that repeats an unstored id writes each record in
      turn, as the operations layer's upserts do. */
  lemma ClydeCreateMany(st: Store, collection: string, data: seq<Record>)
    ensures Alike(Clyde.CreateMany(st, collection, data), CreateMany(S3Provider.Instance(), st, collection, data))
  {
    var check := Clyde.RecordExistsCall(collection);
    FanOutAgree(st, data, check, RecordExistsCall(S3Provider.Instance(), collection));
    var asked := FanOut(st, data, check);
    if asked.result.Ok? && !AnyTrue(asked.result.value) {
      FanOutPure(st, data, check);
      forall s': Store, d | d in data
        ensures Alike(Clyde.CreateFrom(st, collection)(s', d), UpsertCall(S3Provider.Instance(), collection)(s', d))
      {
        var i :| 0 <= i < |data| && data[i] == d;
        assert !asked.result.value[i];
      }
      FanOutAlike(st, data, Clyde.CreateFrom(st, collection), UpsertCall(S3Provider.Instance(), collection));
    }
  }

  /** Two records with one unstored id, created in one createMany: both
      are written and the call succeeds, because both checks ran before
      either write. Compare `ClydeCreateInTurn`. */
  lemma ClydeRepeatedCreate(st: Store, collection: string, first: Record, second: Record)
    requires first.id == second.id
    requires ToKey(collection, first.id) !in st.faults && ToKey(collection, first.id) !in Contents(st)
    ensures var key := ToKey(collection, first.id);
      Clyde.CreateMany(st, collection, [first, second])
        == Step(Ok(()), Write(Write(st, key, Some(first)), key, Some(second)))
  {
    RepeatedChecks(st, collection, first, second);
    assert !Operations.AnyTrue([false, false]);
    RepeatedWrites(st, collection, first, second);
  }

  /** The same two records created one after the other: the second create
      finds the first one's record and is refused. */
  lemma ClydeCreateInTurn(st: Store, collection: string, first: Record, second: Record)
    requires first.id == second.id
    requires ToKey(collection, first.id) !in st.faults && ToKey(collection, first.id) !in Contents(st)
    ensures Clyde.Create(Clyde.Create(st, collection, first).state, collection, second)
        == Step(Err(DuplicateKey), Write(st, ToKey(collection, first.id), Some(first)))
  {
  }

  lemma RepeatedChecks(st: Store, collection: string, first: Record, second: Record)
    requires first.id == second.id
    requires ToKey(collection, first.id) !in st.faults && ToKey(collection, first.id) !in Contents(st)
    ensures FanOut(st, [first, second], Clyde.RecordExistsCall(collection)) == Step(Ok([false, false]), st)
  {
    var check := Clyde.RecordExistsCall(collection);
    assert check(st, first) == Step(Ok(false), st);
    assert check(st, second) == Step(Ok(false), st);
    FanOutPair(st, first, second, check);
  }

  lemma RepeatedWrites(st: Store, collection: string, first: Record, second: Record)
    requires first.id == second.id
    requires ToKey(collection, first.id) !in st.faults && ToKey(collection, first.id) !in Contents(st)
    ensures var key := ToKey(collection, first.id);
      FanOut(st, [first, second], Clyde.CreateFrom(st, collection))
        == Step(Ok([(), ()]), Write(Write(st, key, Some(first)), key, Some(second)))
  {
    var key := ToKey(collection, first.id);
    var call := Clyde.CreateFrom(st, collection);
    var mid := Write(st, key, Some(first));
    CreateFromStep(st, st, collection, first);
    CreateFromStep(st, mid, collection, second);
    FanOutPair(st, first, second, call);
  }

  /** A create whose check found no record writes it. */
  lemma CreateFromStep(start: Store, s: Store, collection: string, data: Record)
    requires ToKey(collection, data.id) !in start.faults && ToKey(collection, data.id) !in Contents(start)
    requires s.faults == start.faults
    ensures Clyde.CreateFrom(start, collection)(s, data) == Step(Ok(()), Write(s, ToKey(collection, data.id), Some(data)))
  {
    assert Clyde.Exists(start, collection, data.id) == Ok(false);
    assert Clyde.Upsert(s, collection, data) == Step(Ok(()), Write(s, ToKey(collection, data.id), Some(data)));
  }

  /** With the same id twice, deleteMany through the object-storage
      provider deletes the record, while through the filesystem provider the
      second unlink finds no file: the call fails after the record is gone,
      with `Enoent` whenever the store is a tree. */
  lemma RepeatedIdDelete(st: Store, collection: string, id: string)
    requires ToKey(collection, id) !in st.faults && ToKey(collection, id) in Contents(st)
    ensures var key := ToKey(collection, id);
      && DeleteMany(S3Provider.Instance(), st, collection, [id, id]) == Step(Ok(()), Erase(st, key))
      && DeleteMany(FsProvider.Instance(), st, collection, [id, id]).result.Err?
      && DeleteMany(FsProvider.Instance(), st, collection, [id, id]).state == Erase(st, key)
    ensures Disk.Tree(st) ==>
      DeleteMany(FsProvider.Instance(), st, collection, [id, id]) == Step(Err(Native(Enoent)), Erase(st, ToKey(collection, id)))
  {
    DeleteManyTwiceS3(st, collection, id);
    DeleteManyTwiceFs(st, collection, id);
    if Disk.Tree(st) {
      Disk.ErasedFileMissing(st, ToKey(collection, id));
    }
  }

  lemma DeleteManyTwiceS3(st: Store, collection: string, id: string)
    requires ToKey(collection, id) !in st.faults && ToKey(collection, id) in Contents(st)
    ensures DeleteMany(S3Provider.Instance(), st, collection, [id, id]) == Step(Ok(()), Erase(st, ToKey(collection, id)))
  {
    AskTwice(st, collection, id);
    DeleteTwiceS3(st, collection, id);
  }

  lemma DeleteManyTwiceFs(st: Store, collection: string, id: string)
    requires ToKey(collection, id) !in st.faults && ToKey(collection, id) in Contents(st)
    ensures var gone := Erase(st, ToKey(collection, id));
      DeleteMany(FsProvider.Instance(), st, collection, [id, id])
        == Step(Err(Native(Disk.NoFile(Disk.At(gone, ToKey(collection, id))))), gone)
  {
    var fs := FsProvider.Instance();
    AskTwice(st, collection, id);
    var asked := FanOut(st, [id, id], ExistsCall(fs, collection));
    assert asked == Step(Ok([true, true]), st);
    assert AllTrue([true, true]);
    assert DeleteMany(fs, st, collection, [id, id]) == Discard(FanOut(st, [id, id], DeleteCall(fs, collection)));
    DeleteTwiceFs(st, collection, id);
  }

  lemma AskTwice(st: Store, collection: string, id: string)
    requires ToKey(collection, id) !in st.faults && ToKey(collection, id) in Contents(st)
    ensures FanOut(st, [id, id], ExistsCall(S3Provider.Instance(), collection)) == Step(Ok([true, true]), st)
    ensures FanOut(st, [id, id], ExistsCall(FsProvider.Instance(), collection)) == Step(Ok([true, true]), st)
  {
    var ids := [id, id];
    var s3, fs := S3Provider.Instance(), FsProvider.Instance();
    FanOutPure(st, ids, ExistsCall(s3, collection));
    FanOutPure(st, ids, ExistsCall(fs, collection));
    var asked := FanOut(st, ids, ExistsCall(s3, collection));
    assert asked.result.value[0] && asked.result.value[1];
    assert asked.result.value == [true, true];
    var checked := FanOut(st, ids, ExistsCall(fs, collection));
    assert checked.result.value[0] && checked.result.value[1];
    assert checked.result.value == [true, true];
  }

  lemma DeleteTwiceS3(st: Store, collection: string, id: string)
    requires ToKey(collection, id) !in st.faults
    ensures FanOut(st, [id, id], DeleteCall(S3Provider.Instance(), collection)).result.Ok?
    ensures FanOut(st, [id, id], DeleteCall(S3Provider.Instance(), collection)).state == Erase(st, ToKey(collection, id))
  {
    var key := ToKey(collection, id);
    var gone := Erase(st, key);
    assert Erase(gone, key) == gone by {
      RemoveAbsent(gone.objects, key);
    }
    var call := DeleteCall(S3Provider.Instance(), collection);
    assert call(gone, id) == Step(Ok(()), gone);
    assert call(st, id) == Step(Ok(()), gone);
    assert [id, id][1..] == [id] && [id][1..] == [];
    assert FanOut(gone, [], call) == Step(Ok([]), gone);
    assert FanOut(gone, [id], call).result.Ok? && FanOut(gone, [id], call).state == gone;
  }

  /** The second unlink fails with what the removed file's path then
      holds. */
  lemma DeleteTwiceFs(st: Store, collection: string, id: string)
    requires ToKey(collection, id) !in st.faults && ToKey(collection, id) in Contents(st)
    ensures var gone := Erase(st, ToKey(collection, id));
      FanOut(st, [id, id], DeleteCall(FsProvider.Instance(), collection))
        == Step(Err(Native(Disk.NoFile(Disk.At(gone, ToKey(collection, id))))), gone)
  {
    var key := ToKey(collection, id);
    var gone := Erase(st, key);
    var call := DeleteCall(FsProvider.Instance(), collection);
    assert call(st, id) == Step(Ok(()), gone);
    assert call(gone, id) == Step(Err(Native(Disk.NoFile(Disk.At(gone, key)))), gone);
    FanOutPairFails(st, id, id, call);
  }
}
